=== FILE: README.md ===
# LinkedIn sourcing: a Dafny model of the pipeline's pure core

This project models the parts of the LinkedIn sourcing tool that remain once the browser,
the database engine, the web framework and the language models are taken away:

- **Search cards** (`search.dfy`, module `Search`). The newer people search builds a boolean query
  from the keywords, location, company and minimum experience. It reads the first three result
  cards. From each card it takes the headline and location from the card's `t-14` divs, falls
  back to the card text for the headline, and parses the company out of the headline. It bumps one
  experience figure shared by all cards and checks the keyword, location and company filters.
  A matching card becomes a profile whose id comes from the `/in/` segment of its link. A card is
  the list of its `div` fragments (class attribute and text), its link and name text, and its
  full text.
- **The older search** (`legacy_search.dfy`, module `LegacySearch`). Its cards are filtered by
  the word-based location test `matches_location_filter`. The title and current company come
  from a sub-line split on `" en "`. The id falls back to `"unknown"`, and a title link without
  `href` makes the card a parse error.
- **The stores** (`candidate_store.dfy` and `message_store.dfy`). The candidates table is
  deduplicated by `INSERT OR IGNORE` on the unique `linkedin_id`, and a NULL key never collides.
  The messages table has the insert, reply and status-change operations, per-candidate
  listing, and listing newest first with NULL dates last. Tables are sequences of rows, and the
  clock is a parameter.
- **Metrics and export** (`reports.dfy`, module `Reports`). It covers the integer counts of
  `get_effectiveness_metrics`, the response-time samples, the two preview truncation rules and
  the defaulting of the export rows in both `main.py` files.
- **Outreach messages** (`outreach.dfy`, module `Outreach`). It covers the mock template, the
  OpenAI → GPT-2 → mock fallback chain and `create_and_save_message`, in both generator versions.
  What each language model answers, or that it raises, is an input.
- **Dashboards** (`dashboard.dfy`, module `Dashboard`). It covers the `reduce` that folds
  interactions into one entry per candidate id with sent and reply counters, the per-entry
  reply-rate cell, the sort by relevance and the case-insensitive filters.

Shared pieces:

- `common.dfy` has `Option`, `Result`, and `Field`, which is a dict entry that is absent, `None`
  or a string.
- `strings.dfy` has Python's `in`, greedy `split`, `join`, `strip`, `lower`, `split()` and
  `str(int)`, with their laws.
- `sorting.dfy` has a descending sort by a real key.

## Model

| member | source | states |
|---|---|---|
| Common.Rendered | app/nodes/message_generator.py:38-40 | `d.get(key, default)` in an f-string gives the default for a missing key, "None" for a present `None`, and the value otherwise |
| Common.Stored | app/nodes/message_generator.py:104-105 | `d.get(key, default)` stored in a nullable column gives the default for a missing key, NULL for `None`, and the value otherwise |
| Common.OrElse | app/main.py:146-147 | `v or default`: a NULL or empty value gives the default, any other value is kept |
| Strings.SplitPiecesFree | app/nodes/search.py:182 | no piece of `s.split(sep)` contains `sep` |
| Strings.JoinSplit | app/nodes/search.py:182 | joining the pieces of `s.split(sep)` with `sep` gives back `s` |
| Strings.SplitFirst | linkedin-sourcing/app/nodes/search.py:284 | `s.split(sep)[0]` is the prefix of `s` that ends where the first occurrence of `sep` starts, or all of `s` when there is none |
| Strings.CutBeforeUnique | app/nodes/search.py:182 | a cut before the first place where one of two separators starts is unique, so describing the segment that way pins it down |
| Strings.SplitLast | app/nodes/search.py:182 | `s.split(sep)[-1]` is a suffix of `s` free of `sep`; it is all of `s` when `sep` is absent, and otherwise it starts right after the last occurrence the left-to-right scan consumes (`LastCut`), which skips occurrences overlapping one already taken |
| Strings.LastCutPiece | app/nodes/search.py:182 | the last piece of `split` is what follows the last consumed occurrence, and the whole text when there is none |
| Strings.StripIdempotent | app/nodes/search.py:182 | stripping a stripped string changes nothing |
| Strings.StripIsStrippedFrom | app/nodes/search.py:148 | `strip()` leaves the part of the text between a blank prefix and a blank suffix, and that part neither starts nor ends with whitespace |
| Strings.StrippedFromUnique | app/nodes/search.py:148 | only one part of a text lies between blank runs and neither starts nor ends with whitespace, so that description is exactly `strip()` |
| Strings.WordsAreWords | linkedin-sourcing/app/nodes/search.py:217 | every word of `s.split()` is non-empty and holds no whitespace |
| Strings.LowerIdempotent | linkedin-sourcing/app/nodes/search.py:215-216 | lower-casing twice is lower-casing once |
| Strings.LowerKeepsNonLetter | app/nodes/search.py:187 | `lower()` neither adds nor removes a comma or any other character that is not an ASCII letter |
| Strings.RemoveCharAppend | app/nodes/search.py:187 | `replace(',', '')` on a concatenation is the concatenation of the two replaced parts |
| Strings.RemoveCharOne | app/nodes/search.py:187 | `replace(',', '')` on one character drops it exactly when it is a comma; with `RemoveCharAppend` this fixes the result on every text |
| Strings.RemoveCharAbsent | app/nodes/search.py:187 | `replace(',', '')` leaves a comma-free text unchanged |
| Strings.NatToStringRoundTrip | app/nodes/search.py:205 | the decimal text of `n` reads back as `n`, so distinct positions give distinct ids |
| Sorting.SortDesc | app/database.py:104 | the result is a permutation of the input whose keys never increase |
| Sorting.SortStable | frontend/src/components/CandidateDashboard.jsx:32 | the sort is stable, as JavaScript's `Array.prototype.sort` is: the elements with any one key appear in the same relative order before and after |
| Sorting.SortSorted | frontend/src/components/CandidateDashboard.jsx:32 | a sequence whose keys already never increase is returned unchanged |
| Search.QueryParts | app/nodes/search.py:80-87 | the quoted phrase comes first, then one `AND` clause for each active location filter, company filter and positive minimum, in that order; the filters keep their original case |
| Search.BooleanQuery | app/nodes/search.py:88 | the query always starts with the quoted keyword phrase |
| Search.QueryWithoutFilters | app/nodes/search.py:80-88 | with blank filters and no minimum, the query is the quoted phrase alone |
| Search.FirstWhere | app/nodes/search.py:158-168 | the position found satisfies the test and no earlier one does; no position means none does |
| Search.TaggedHeadline | app/nodes/search.py:156-162 | the headline is the lower-cased text of the first div styled both `t-black` and `t-normal`, or "" when there is none |
| Search.ScrapedLocation | app/nodes/search.py:155-168 | the location is the lower-cased text of the first div styled `t-normal` without `t-black`, and "N/A" when there is none |
| Search.FallbackHeadline | app/nodes/search.py:171-173 | with a `·`, the fallback is the lower-cased card text before its first `·`, stripped; without one, it is the first 100 characters of the lower-cased text, or all of it when shorter |
| Search.Headline | app/nodes/search.py:154-173 | the tagged headline when it has text, the fallback otherwise |
| Search.AfterAt | app/nodes/search.py:182 | the company is the stripped text that follows the last `" at "` the split consumes (`LastCut`), cut before the first space followed by a pipe or `" ·"` after it; it occurs in the headline and contains none of those three |
| Search.AfterPipe | app/nodes/search.py:184 | the company is the stripped text that follows the last pipe delimiter (a pipe between spaces) the split consumes (`LastCut`), cut before the first `" ·"` after it; it occurs in the headline and contains neither |
| Search.AfterDot | app/nodes/search.py:186 | the company is the stripped text that follows the last `" · "` the split consumes (`LastCut`); it occurs in the headline and contains no `" · "` |
| Search.CompanySegment | app/nodes/search.py:180-186 | `" at "` takes precedence over the pipe delimiter (a pipe between spaces), which takes precedence over `" · "`; with none of them the segment is "N/A" |
| Search.ScrapedCompany | app/nodes/search.py:187 | the company is the lower-cased segment with every comma removed, so it never contains a comma; it is "n/a" when the headline has no delimiter; it is the lower-cased segment itself when that has no comma, and never longer than the segment |
| Search.InitialExperience | app/nodes/search.py:140 | the starting figure is the minimum when it is positive and 3 otherwise, so it is at least 1 and at least the minimum |
| Search.BumpExperience | app/nodes/search.py:190-192 | the figure never decreases; it becomes at least `min_exp + 1` exactly when the headline hints at seniority, and stays unchanged otherwise |
| Search.FigureAfterValue | app/nodes/search.py:190-192 | after any number of cards the shared figure is `min_exp + 1` when one of their headlines hints at seniority, and the starting figure when none does |
| Search.IdSegment | app/nodes/search.py:205 | the id is the text after the last `/in/` that the split consumes (`LastCut`), up to the next `/` or the end; it has no `/` |
| Search.IdSkipsOverlap | app/nodes/search.py:205 | in `"/in/in/bob"` the split consumes only the first `/in/`, so the id is `"in"` and not `"bob"` |
| Search.ProfileId | app/nodes/search.py:205 | the id is the segment after the last `/in/` that the split consumes when the link has one, and `candidate_<i+1>` otherwise; it never contains `/` |
| Search.CardName | app/nodes/search.py:148 | the name is the link's name text stripped of surrounding whitespace, and `Candidate <i+1>` when there is none |
| Search.Step | app/nodes/search.py:190-211 | one card raises the shared figure only on a hint, and then to exactly one more than the minimum unless it was already higher; it is emitted exactly when it matches and the figure reaches the minimum |
| Search.FiguresAgree | app/nodes/search.py:139-192 | the figure the loop carries over the per-card hints equals the figure folded over the cards' headlines, after every prefix of the cards |
| Search.ProcessCard | app/nodes/search.py:144-211 | a card is emitted exactly when the keyword, location and company tests pass and the figure reaches the minimum; the profile carries the derived id, the name, `[base_keywords]`, the figure, the location and the company |
| Search.Collect | app/nodes/search.py:139-211 | the profiles come from exactly the matching cards, in card order; each profile's figure is the shared figure reached after its own card, so the figures never decrease and never fall below the starting figure |
| Search.ReadsToFigures | app/nodes/search.py:139-211 | each emitted profile's figure is the one folded over the headlines of the cards up to and including its own |
| Search.SearchProfiles | app/nodes/search.py:127-211 | at most three profiles, one for each matching card among the first three, in card order; each has skills `[base_keywords]` and the shared figure after its own card's headline, which is at least the minimum, so the experience test never rejects a card |
| LegacySearch.SomeWordFound | linkedin-sourcing/app/nodes/search.py:218-221 | true exactly when some non-empty word occurs in the text |
| LegacySearch.MatchesLocationFilter | linkedin-sourcing/app/nodes/search.py:210-221 | "" and "any" accept everything; "remote" accepts exactly the locations mentioning "remote" or "home"; any other filter accepts exactly when one of its lower-cased words occurs in the lower-cased location |
| LegacySearch.LocationFilterIgnoresCase | linkedin-sourcing/app/nodes/search.py:214-216 | the verdict is the same for a location and its lower-case form |
| LegacySearch.BlankFilterRejects | linkedin-sourcing/app/nodes/search.py:215-221 | a non-empty filter of spaces rejects every location |
| LegacySearch.OneWordFilter | linkedin-sourcing/app/nodes/search.py:215-221 | a single-word filter other than "any" or "remote" accepts exactly the locations containing it, ignoring case |
| LegacySearch.TitleWords | linkedin-sourcing/app/nodes/search.py:285 | the recognised words end with "engineer" and "developer" |
| LegacySearch.AnyContained | linkedin-sourcing/app/nodes/search.py:285 | true exactly when some word occurs in the text |
| LegacySearch.Title | linkedin-sourcing/app/nodes/search.py:280-286 | "N/A" for an empty sub-line; with `" en "`, the sub-line before its first `" en "`, stripped; otherwise the sub-line itself when it mentions a keyword word, "engineer" or "developer", and "N/A" when it does not |
| LegacySearch.CurrentCompany | linkedin-sourcing/app/nodes/search.py:300 | with `" en "`, the company is a suffix of the sub-line right after the last `" en "` the split consumes (`LastCut`) and free of it; otherwise it is the title |
| LegacySearch.RoleAtCompany | linkedin-sourcing/app/nodes/search.py:283-300 | a sub-line with one `" en "` is exactly the part before it, `" en "`, and the company; the title is that first part stripped |
| LegacySearch.LegacyId | linkedin-sourcing/app/nodes/search.py:273 | the id is the segment after the last `/in/` that the split consumes, and "unknown" without `/in/`; it never contains `/` |
| LegacySearch.LegacyExperience | linkedin-sourcing/app/nodes/search.py:291 | the figure is the larger of the minimum and 3 |
| LegacySearch.RegionText | linkedin-sourcing/app/nodes/search.py:288-289 | the location is the region text, and "N/A" without one |
| LegacySearch.ReadLegacyCard | linkedin-sourcing/app/nodes/search.py:269-310 | a link without `href` is a parse error; any other card is kept exactly when its location passes the filter, with name and id "Unknown"/"unknown" and an empty URL when there is no link |
| LegacySearch.EmittedPositions | linkedin-sourcing/app/nodes/search.py:298-310 | the positions listed are exactly those of the kept cards, increasing |
| LegacySearch.EmittedAt | linkedin-sourcing/app/nodes/search.py:298-310 | the k-th profile is that of the k-th kept card |
| LegacySearch.Outcomes | linkedin-sourcing/app/nodes/search.py:263-267 | only the first three cards are read, each on its own |
| LegacySearch.KeepEmitted | linkedin-sourcing/app/nodes/search.py:266-315 | the loop collects the kept cards' profiles in order and passes over skipped and unreadable cards |
| LegacySearch.SearchLinkedin | linkedin-sourcing/app/nodes/search.py:263-319 | the result is the kept profiles of the first three cards, at most three |
| LegacySearch.SearchKeepsMatchingCards | linkedin-sourcing/app/nodes/search.py:263-315 | the profiles come, in card order, from exactly those of the first three cards that are readable and whose location passes the filter |
| CandidateStore.KeyOf | app/database.py:122 | a non-empty `id` is the key; otherwise `linkedin_id`, which is "unknown" when missing and NULL when `None` |
| CandidateStore.TextOrEmpty | app/database.py:123-125 | a missing, `None` or empty value is stored as "" |
| CandidateStore.RelevanceOf | app/database.py:126 | a missing score is stored as 0.0 and a `None` one as NULL |
| CandidateStore.RowFor | app/database.py:121-130 | the row stores the key, the URL and name or "", the comma-joined skills, the score and the search date |
| CandidateStore.SaveOne | app/database.py:127-132 | a row is added exactly when the key is NULL or not yet stored; otherwise the table is unchanged; the key is stored afterwards and the table stays valid |
| CandidateStore.SaveOneKeys | app/database.py:127-132 | one save adds the profile's non-NULL key to the stored keys, and no other key |
| CandidateStore.SaveAllShape | app/database.py:116-135 | a batch keeps the table valid, keeps every earlier row unchanged, and adds exactly as many rows as it counts |
| CandidateStore.SaveAllStoresKeys | app/database.py:121-132 | after a batch, every earlier key and every non-NULL key of the batch is stored |
| CandidateStore.SaveAllCount | app/database.py:116-135 | the count is the number of keys new to the table or to the batch so far, with NULL keys always counting |
| CandidateStore.SaveAgainAddsNothing | app/database.py:127-132 | a batch whose keys are all already stored changes nothing and counts 0 |
| CandidateStore.SaveTwice | app/database.py:116-135 | saving a batch of non-NULL keys again, at any time, counts 0 and changes nothing |
| CandidateStore.SaveCandidates | app/database.py:116-135 | the loop keeps every earlier row, keeps keys unique, and returns the number of rows added |
| CandidateStore.GetCandidates | app/database.py:141 | every stored row is listed once, newest search date first |
| CandidateStore.FromSearch | app/main.py:163-164 | a search result is saved with its id, name and skills present, and with no `linkedin_id`, URL or score |
| CandidateStore.SearchResultRow | app/main.py:163-164 | a search result is stored under its id, or "unknown" when the id is empty, with an empty URL and score 0.0 |
| MessageStore.SaveMessage | app/database.py:61-71 | a new last row, under a fresh id that is returned, holds the given fields, is sent now with status "sent", and has no response; earlier rows are unchanged; the same in linkedin-sourcing/app/database.py:41-51 |
| MessageStore.WithResponse | app/database.py:76-79 | the response, status and response date are set, and every other field is kept |
| MessageStore.UpdateResponse | app/database.py:73-81 | only the row with the id changes, and it gets the response, status and date; the table stays valid; the same in linkedin-sourcing/app/database.py:53-61 |
| MessageStore.RecordReply | app/database.py:73 | the default status of a recorded response is "replied" |
| MessageStore.UpdateMissingRow | app/database.py:76-79 | a response for an id with no row changes nothing |
| MessageStore.ReplyToSavedMessage | app/database.py:61-81 | a reply recorded on a freshly saved message lands on it: status "replied", the response and date set, and candidate, text and sent date kept |
| MessageStore.UpdateMessageStatus | app/database.py:151-162 | the result is true exactly when a row has the id; only that row changes, its status is set, and its sent date becomes now only for "sent" |
| MessageStore.StatusesStaySet | linkedin-sourcing/app/database.py:22-46 | every row has a status after every operation, so the column default ("pending" in the older store) is never used |
| MessageStore.RowsFor | app/database.py:86-89 | the rows kept are exactly the table's rows with that candidate id |
| MessageStore.MessagesForCandidate | app/database.py:83-97 | the result holds exactly the rows of the candidate, in table (rowid) order, one of the orders SQLite may return for a query without `ORDER BY`; the same in linkedin-sourcing/app/database.py:63-85 |
| MessageStore.SentKey | app/database.py:104 | a NULL sent date ranks below every date |
| MessageStore.AllInteractions | app/database.py:99-113 | every row is listed once, latest sent date first, and rows never sent come last; the same in linkedin-sourcing/app/database.py:87-109 |
| MessageStore.UnsentLast | app/database.py:104 | in a list ordered by sent date, no sent row follows an unsent one |
| Reports.CountIf | app/main.py:104 | a count is at most the number of rows, 0 exactly when no row qualifies, and the number of rows exactly when all do |
| Reports.CountAppend | app/main.py:104 | counts add up over concatenated lists |
| Reports.CountPermutation | app/main.py:102-104 | a count does not depend on the order of the rows |
| Reports.CountChangeOne | app/main.py:104 | changing one row changes a count by the difference between that row's old and new contributions |
| Reports.TotalReplies | app/main.py:104 | the replies are at most the messages sent, and 0 exactly when no row has a response; the same in linkedin-sourcing/app/main.py:75 |
| Reports.ReplyRate | app/main.py:105 | the rate lies in [0, 100]; it is 0 exactly when there are no replies, and 100 exactly when every message sent was answered; the same in linkedin-sourcing/app/main.py:76 |
| Reports.FractionBounds | app/main.py:105 | a share of a positive total lies in [0, 1], is 0 only for none and 1 only for all |
| Reports.ResponseTimes | app/main.py:106-113 | one sample per row with a non-empty response and both dates, so never more samples than replies |
| Reports.ResponseTimesFromTimedRows | app/main.py:107-113 | a time is a sample exactly when some row with a non-empty response and both dates gives it |
| Reports.EffectivenessMetrics | app/main.py:101-120 | the messages sent are the rows; the replies never exceed them; the rate is a percentage and 0 exactly without replies; an empty table gives no samples; the same in linkedin-sourcing/app/main.py:72-96 |
| Reports.MetricsOfTable | app/main.py:102-104 | the metrics over the sorted interactions count the table's rows and its answered rows |
| Reports.SaveCountsAsSent | app/main.py:103-104 | saving a message adds one to the messages sent and nothing to the replies |
| Reports.FirstReplyCounts | app/main.py:104 | recording the first response to an existing message adds exactly one reply |
| Reports.Preview | app/main.py:141 | "N/A" for an empty message; the message itself up to 100 characters; otherwise its first 100 characters and "..." |
| Reports.LegacyPreview | linkedin-sourcing/app/main.py:122 | "N/A" for an empty message; otherwise at most its first 100 characters followed by "...", even when nothing was cut |
| Reports.PreviewsCompared | linkedin-sourcing/app/main.py:122 | the two previews agree on empty and long messages; on a short one the older adds "..." |
| Reports.DateCell | app/main.py:142-144 | a NULL date shows "N/A", and any other date its rendering |
| Reports.ExportRow | app/main.py:140-148 | a row has eight cells: the id's decimal text, the candidate id, the name or "Unknown", the preview, the sent date or "N/A", the response or "N/A", the response date or "N/A", and the status or "N/A"; a NULL or empty value takes the default, any other is shown as is |
| Reports.LegacyExportRow | linkedin-sourcing/app/main.py:121-137 | an older row has nine cells: the newer row's cells with the company or "Unknown" after the name and the older preview; a NULL or empty value takes the default, any other is shown as is |
| Reports.ExportCellsFilled | app/main.py:142-148 | no cell after the candidate id is empty; the name shows "Unknown", the response and status "N/A", and the older company "Unknown", exactly when the value is missing, empty or that word; the sent date shows "N/A" exactly when it is NULL or renders so |
| Reports.ExportRowsCompared | linkedin-sourcing/app/main.py:133-137 | the older row is the newer one with the company inserted after the name and the older preview instead of the newer |
| Outreach.Letter | app/nodes/message_generator.py:43 | a template message starts with its opening, ends with the sign-off, and contains the middle and the call to action |
| Outreach.MockMiddle | app/nodes/message_generator.py:41-42 | the mock's middle contains the role description verbatim and ends with a blank line |
| Outreach.MockMessage | app/nodes/message_generator.py:37-43 | the mock starts with "Hi <name>, ", ends with a blank line, the call to action and "\n\nBest Regards,\nHiring Team", and contains the role description verbatim |
| Outreach.MockNamesCandidate | app/nodes/message_generator.py:41 | a comma-free name is read back from the mock as the text between "Hi " and the first comma |
| Outreach.Gpt2Prompt | app/nodes/message_generator.py:78 | the GPT-2 prompt starts with the same greeting as the mock |
| Outreach.ContinuationStripped | app/nodes/message_generator.py:82 | the continuation is the decoded text past the prompt's length with its surrounding whitespace stripped, and empty when the decoded text is no longer than the prompt |
| Outreach.Gpt2Letter | app/nodes/message_generator.py:82-83 | a GPT-2 message is the prompt, a space, the continuation, the gap, the call to action and the sign-off, so it starts with the greeting and ends with the sign-off |
| Outreach.Gpt2Message | app/nodes/message_generator.py:72-84 | without GPT-2 the result is the mock; it raises exactly when GPT-2 is loaded and fails; otherwise it is the prompt, a space, the continuation, a blank line, the call to action and the sign-off |
| Outreach.PersonalizedMessage | app/nodes/message_generator.py:87-98 | OpenAI's stripped answer when it is enabled and answers; otherwise GPT-2's message when it answers; otherwise the mock; it never fails |
| Outreach.MockWhenModelsFail | app/nodes/message_generator.py:87-98 | when neither model answers, the message is the mock whatever is enabled |
| Outreach.SaveGenerated | app/nodes/message_generator.py:103-106 | saving succeeds exactly when the id is present and not `None`; the row stores name and company with the defaults "Unknown Candidate" and "Unknown Company" |
| Outreach.CreateAndSaveMessage | app/nodes/message_generator.py:101-107 | the result echoes the input id and the generated message, and fails exactly when the id is missing or `None` |
| Outreach.CreatedMessageIsTracked | app/nodes/message_generator.py:101-107 | a created message is then the candidate's latest tracked message, with the returned id and text and status "sent" |
| Outreach.LegacyMockMessage | linkedin-sourcing/app/nodes/message_generator.py:33-43 | the older mock is the newer one with the default role description and call to action, so it embeds both fixed sentences |
| Outreach.LegacyGpt2Prompt | linkedin-sourcing/app/nodes/message_generator.py:78 | the older GPT-2 prompt starts with the greeting |
| Outreach.LegacyGpt2Message | linkedin-sourcing/app/nodes/message_generator.py:72-84 | without GPT-2 the result is the older mock; it raises exactly when GPT-2 is loaded and fails; otherwise it is the prompt, a space, the continuation and the sign-off, with no call to action |
| Outreach.LegacyPersonalizedMessage | linkedin-sourcing/app/nodes/message_generator.py:87-98 | OpenAI, then GPT-2, then the older mock, with the same conditions as the newer chain; it never fails |
| Outreach.GeneratorsAgreeWithoutModels | linkedin-sourcing/app/nodes/message_generator.py:87-98 | when neither model answers, the two generators give the same message under the default role and call to action |
| Outreach.OpenAIPrompt | app/nodes/message_generator.py:47-60 | the prompt starts with the candidate and role instructions, contains the call to action and ends with the length instruction |
| Outreach.LegacyOpenAIPrompt | linkedin-sourcing/app/nodes/message_generator.py:47-60 | the older prompt has the same head for the default role and the same closing instruction |
| Outreach.PromptsDiffer | linkedin-sourcing/app/nodes/message_generator.py:57 | the older prompt differs from the newer one under the default role and call to action: after "Clear CTA" it has an example where the newer one has a colon and the call to action (app/nodes/message_generator.py:57) |
| Outreach.LegacyCreateAndSaveMessage | linkedin-sourcing/app/nodes/message_generator.py:101-107 | the result echoes the input id and the older generator's message, and fails exactly when the id is missing or `None` |
| Dashboard.IndexOf | frontend/src/components/CandidateDashboard.jsx:37-38 | the position found holds the id; no position means no entry has it |
| Dashboard.RepliesFor | frontend/src/components/CandidateDashboard.jsx:47-49 | a candidate's replies never exceed its interactions |
| Dashboard.FirstFor | frontend/src/components/CandidateDashboard.jsx:38-46 | a candidate has a first interaction exactly when it has any |
| Dashboard.AddEntry | frontend/src/components/CandidateDashboard.jsx:36-57 | one step changes only the interaction's candidate entry, creating it at the end when it is new |
| Dashboard.AddCountsOne | frontend/src/components/CandidateDashboard.jsx:47 | one step adds exactly one to the total of messages sent |
| Dashboard.Aggregate | frontend/src/components/CandidateDashboard.jsx:36-58 | one entry per distinct candidate id, exactly the ids with interactions; each counts its interactions and truthy replies; the counts sum to the number of interactions; the same in linkedin-sourcing/frontend/src/components/CandidateDashboard.jsx:32-55 |
| Dashboard.AggregateNamed | frontend/src/components/CandidateDashboard.jsx:38-55 | each shown name and company is the first interaction's value or "Unknown", replaced only by a replied interaction's value while it is empty or "Unknown"; the same in linkedin-sourcing/frontend/src/components/CandidateDashboard.jsx:34-52 |
| Dashboard.FirstKnownReply | frontend/src/components/CandidateDashboard.jsx:48-54 | the value found belongs to a replied interaction of the candidate and is neither empty nor "Unknown"; none found means no such interaction exists |
| Dashboard.ShownFresh | frontend/src/components/CandidateDashboard.jsx:38-54 | a candidate's first interaction shows its value or "Unknown", upgraded at once when that interaction is replied |
| Dashboard.ShownStep | frontend/src/components/CandidateDashboard.jsx:47-54 | a later interaction of the candidate changes the shown value exactly as the `reduce` step does: only when replied, and only while the value is "Unknown" |
| Dashboard.ShownOther | frontend/src/components/CandidateDashboard.jsx:37-38 | an interaction of another candidate leaves the shown value alone |
| Dashboard.AddKeepsShows | frontend/src/components/CandidateDashboard.jsx:36-57 | one `reduce` step keeps every entry's name and company equal to the shown values of the longer history |
| Dashboard.AggregateShows | frontend/src/components/CandidateDashboard.jsx:36-58 | every entry shows the first interaction's name and company, or "Unknown", replaced while "Unknown" by the first replied interaction's known value; the same in linkedin-sourcing/frontend/src/components/CandidateDashboard.jsx:32-55 |
| Dashboard.CountIsTracked | frontend/src/components/CandidateDashboard.jsx:47 | a candidate's count of messages sent equals the number of its messages that tracking lists |
| Dashboard.EntryOfCandidate | frontend/src/components/CandidateDashboard.jsx:36-58 | each candidate with an interaction has exactly one entry, which counts its tracked messages and at most as many replies |
| Dashboard.ReplyRateCell | frontend/src/components/CandidateDashboard.jsx:184-187 | "0%" when nothing was sent, so there is no division by zero; otherwise a percentage text; the same in linkedin-sourcing/frontend/src/components/CandidateDashboard.jsx:148-151 |
| Dashboard.EntryRates | frontend/src/components/CandidateDashboard.jsx:184-187 | every aggregated entry has sent a message, and its rate lies in [0, 100] |
| Dashboard.Filter | frontend/src/components/CandidateDashboard.jsx:69-76 | the kept elements are exactly those passing the test, each as often as in the list; a test everything passes keeps the list unchanged |
| Dashboard.FilterAppend | frontend/src/components/CandidateDashboard.jsx:69-76 | filtering a concatenation filters each part and keeps their order |
| Dashboard.FilterOne | frontend/src/components/CandidateDashboard.jsx:69-76 | a one-element list keeps its element exactly when it passes; with `FilterAppend` this fixes order and multiplicity |
| Dashboard.FilterCandidates | frontend/src/components/CandidateDashboard.jsx:69-72 | a candidate is kept exactly when its name or skills contain the filter ignoring case, as often as it occurs in the list; an empty filter keeps everything |
| Dashboard.FilterEntries | frontend/src/components/CandidateDashboard.jsx:73-76 | an entry is kept exactly when its name or company contains the filter ignoring case, as often as it occurs in the list; an empty filter keeps everything; the same in linkedin-sourcing/frontend/src/components/CandidateDashboard.jsx:67-70 |
| Dashboard.FilterIgnoresCase | frontend/src/components/CandidateDashboard.jsx:73-76 | a filter and its lower-case form keep the same entries |
| Dashboard.FilterKeepsSorted | frontend/src/components/CandidateDashboard.jsx:69-72 | filtering a sorted list keeps it sorted |
| Dashboard.SortCandidates | frontend/src/components/CandidateDashboard.jsx:32 | the candidates are reordered by relevance, highest first, with a NULL score counting as 0; candidates with equal relevance keep their fetched order, and a list already in order is unchanged |
| Dashboard.SearchScoresKeepOrder | frontend/src/components/CandidateDashboard.jsx:32 | when every score is 0.0, as for every candidate saved from a search (app/database.py:126), the dashboard shows the candidates in the order `/candidates` returned them |
| Dashboard.ShownCandidatesSorted | frontend/src/components/CandidateDashboard.jsx:32-72 | the filtered candidate table is still ordered by relevance |

## Left out

- Browser work is not modelled: Selenium login, filter clicking, waits, scrolling and debug HTML dumps. Cards are given as data.
- The CSS selection that turns HTML into cards is not modelled. That covers which `li` or `div` is a card, which `a` is the profile link, and the `get_text(strip=True)` calls. A fragment's text is the text those calls return.
- The app search's per-card `except` is not modelled, because the modelled steps do not raise on well-formed cards. In the older search, only the `KeyError` of a link without `href` is modelled, as a parse error.
- The older search's company filter is not modelled: `apply_current_company_filter` acts only in the browser and never on the cards. `max_results` is not modelled either, because the search ignores it.
- `search_node` and the app state objects are not modelled. They only copy profiles into state.
- SQLite itself is not modelled: connections, `init_db`, migrations and real timestamps. Tables are sequences of rows and the clock is a natural-number parameter.
- Messages with NULL text cannot arise: the column is NOT NULL, so message text is a plain string.
- The conversion of dates to ISO text in the `/track` and `/interactions` endpoints is not modelled, nor is JSON serialisation.
- Reports.EffectivenessMetrics: the samples are whole seconds between the two dates. The model does not compute the mean in days, `round(…, 1)`, or the exact reply-rate value beyond its bounds, which all need floating point.
- Reports.ExportRow: dates are rendered by a parameter standing for `str()`. The CSV writer, the header and metrics rows, UTF-8 encoding and the streaming response are not modelled.
- Dashboard.ReplyRateCell: `toFixed(1)` is a parameter, so the cell states only the "0%" case and that the cell ends in "%".
- Outreach.PersonalizedMessage: the model calls and their sampling are not modelled. Each back end's answer, or its failure, is an input. The prompt sent to OpenAI is modelled (`OpenAIPrompt`), but the answer is not a function of it.
- Outreach.GeneratorsAgreeWithoutModels: compares the two generators only when neither model answers. They send OpenAI different prompts (`PromptsDiffer`), so an answer to one says nothing about an answer to the other.
- The string functions are ASCII-only. `lower()` and `toLowerCase()` change only ASCII letters, and whitespace is the ASCII whitespace Python's `str.split()` and `str.strip()` remove, including the separators `\x1c`–`\x1f`. Non-ASCII whitespace such as `\x85` or `\xa0` and non-ASCII case mappings are left out.
- JavaScript orders `Object.values` with integer-like keys first. The model keeps entries in order of first appearance.
- SQLite's `ORDER BY … DESC` leaves the order among equal keys unspecified (`get_candidates` and `get_all_interactions`). The model uses a stable sort, whose order is one SQLite may return. The dashboard's JavaScript sort is stable and is modelled as such.
- FastAPI routing, CORS, pydantic request models and uvicorn are not part of this model. Nor are the other React components, axios calls, `app/graph.py`, `app/state.py`, `setup_env.py` and the script files.
- No weighted relevance scorer, geocoding or fuzzy location matching is modelled, because the code has none.
- MessageStore.MessagesForCandidate: the query has no `ORDER BY`, so SQLite may return the rows in any order. The model returns them in table (rowid) order, which is one of the orders SQLite may give.
- Dashboard.Aggregate: the JavaScript accumulator is a plain object `{}`, so a candidate id naming an inherited member (`constructor`, `toString`, `__proto__`, …) finds an inherited value instead of a missing entry and is mishandled. The model gives every id its own entry, as for an accumulator without a prototype.
- Dashboard.EntryOfCandidate: the same inherited-member ids are outside what the model promises, for the same reason.
- Dashboard.AggregateNamed: the same inherited-member ids are outside what the model promises, for the same reason.
- Dashboard.AggregateShows: the same inherited-member ids are outside what the model promises, for the same reason.

=== FILE: candidate_store.dfy ===
/** The candidates table of `app/database.py`: found profiles are saved with
    `INSERT OR IGNORE` on the `UNIQUE linkedin_id` column and listed newest first.
    The table is a sequence of rows in insertion order; the clock is a parameter. */
module CandidateStore {
  import opened Common
  import opened Strings
  import opened Sorting
  import Search

  /** A numeric dictionary entry: missing, present with `None`, or a number. */
  datatype NumField = NumAbsent | NumNull | Num(x: real)

  /** A profile dictionary as handed to `save_candidates`. A missing `skills` key reads as the
      empty list. */
  datatype ProfileDict = ProfileDict(
    id: Field,
    linkedinId: Field,
    profileUrl: Field,
    name: Field,
    skills: seq<string>,
    relevance: NumField)

  /** One row: the `AUTOINCREMENT` id, the nullable unique key, and the stored fields. */
  datatype CandidateRow = CandidateRow(
    rowId: nat,
    linkedinId: Option<string>,
    profileUrl: string,
    name: string,
    skills: string,
    relevance: Option<real>,
    searchDate: nat)

  /** The table: its rows in insertion order and the next row id to hand out. */
  datatype CandidateTable = CandidateTable(rows: seq<CandidateRow>, nextId: nat)

  const EmptyCandidates := CandidateTable([], 1)

  /** Some row has the non-NULL key `key`. */
  predicate HasKey(t: CandidateTable, key: string) {
    exists i :: 0 <= i < |t.rows| && t.rows[i].linkedinId == Some(key)
  }

  /** The table's integrity: non-NULL keys are unique (SQLite's `UNIQUE` lets NULLs repeat),
      and row ids increase and stay below `nextId`. */
  ghost predicate Valid(t: CandidateTable) {
    && (forall i, j :: 0 <= i < j < |t.rows| && t.rows[i].linkedinId.Some? ==> t.rows[i].linkedinId != t.rows[j].linkedinId)
    && (forall i, j :: 0 <= i < j < |t.rows| ==> t.rows[i].rowId < t.rows[j].rowId)
    && (forall i :: 0 <= i < |t.rows| ==> t.rows[i].rowId < t.nextId)
  }

  /** `profile.get('id') or profile.get('linkedin_id', 'unknown')`: a non-empty `id` wins;
      otherwise `linkedin_id`, "unknown" when it is missing and NULL when it is `None`. */
  function KeyOf(p: ProfileDict): (key: Option<string>)
    ensures p.id.Value? && p.id.s != "" ==> key == Some(p.id.s)
    ensures !(p.id.Value? && p.id.s != "") ==>
      (p.linkedinId.Absent? ==> key == Some("unknown"))
      && (p.linkedinId.Null? ==> key.None?)
      && (p.linkedinId.Value? ==> key == Some(p.linkedinId.s))
  {
    if p.id.Value? && p.id.s != "" then Some(p.id.s) else Stored(p.linkedinId, "unknown")
  }

  /** `d.get(key) or ''`. */
  function TextOrEmpty(f: Field): (s: string)
    ensures f.Value? ==> s == f.s
    ensures !f.Value? ==> s == ""
  {
    if f.Value? then f.s else ""
  }

  /** `profile.get('relevance_score', 0.0)`. */
  function RelevanceOf(f: NumField): (r: Option<real>)
    ensures f.NumAbsent? ==> r == Some(0.0)
    ensures f.NumNull? ==> r.None?
    ensures f.Num? ==> r == Some(f.x)
  {
    match f
    case NumAbsent => Some(0.0)
    case NumNull => None
    case Num(x) => Some(x)
  }

  /** The row a profile becomes, with row id `rowId` and search date `now`. */
  function RowFor(p: ProfileDict, rowId: nat, now: nat): (row: CandidateRow)
    ensures row.rowId == rowId && row.searchDate == now
    ensures row.linkedinId == KeyOf(p)
    ensures row.profileUrl == TextOrEmpty(p.profileUrl) && row.name == TextOrEmpty(p.name)
    ensures row.skills == Join(p.skills, ",")
    ensures row.relevance == RelevanceOf(p.relevance)
  {
    CandidateRow(rowId, KeyOf(p), TextOrEmpty(p.profileUrl), TextOrEmpty(p.name), Join(p.skills, ","),
                 RelevanceOf(p.relevance), now)
  }

  /** Whether `INSERT OR IGNORE` inserts a row with key `key`: always for NULL, otherwise only
      when no row holds the key yet. */
  predicate Inserts(t: CandidateTable, key: Option<string>) {
    key.None? || !HasKey(t, key.value)
  }

  /** One `INSERT OR IGNORE`: the table after it, and whether a row was added. */
  function SaveOne(t: CandidateTable, p: ProfileDict, now: nat): (r: (CandidateTable, bool))
    ensures r.1 <==> Inserts(t, KeyOf(p))
    ensures r.1 ==> r.0.rows == t.rows + [RowFor(p, t.nextId, now)] && r.0.nextId == t.nextId + 1
    ensures !r.1 ==> r.0 == t
    ensures Valid(t) ==> Valid(r.0)
    ensures KeyOf(p).Some? ==> HasKey(r.0, KeyOf(p).value)
  {
    var key := KeyOf(p);
    if Inserts(t, key) then
      var t' := CandidateTable(t.rows + [RowFor(p, t.nextId, now)], t.nextId + 1);
      assert t'.rows[|t.rows|].linkedinId == key;
      (t', true)
    else
      (t, false)
  }

  /** Saving a batch in order: the final table and the number of rows added. */
  function SaveAll(t: CandidateTable, ps: seq<ProfileDict>, now: nat): (r: (CandidateTable, nat))
    decreases |ps|
  {
    if |ps| == 0 then (t, 0)
    else
      var (t1, added) := SaveOne(t, ps[0], now);
      var (t2, count) := SaveAll(t1, ps[1..], now);
      (t2, count + if added then 1 else 0)
  }

  /** The non-NULL keys of the table. */
  function Keys(t: CandidateTable): (keys: set<string>)
    ensures forall k :: k in keys <==> HasKey(t, k)
  {
    set i | 0 <= i < |t.rows| && t.rows[i].linkedinId.Some? :: t.rows[i].linkedinId.value
  }

  /** The number of inserts a batch of keys causes against the keys already `seen`: a NULL key
      always inserts, a repeated key never does. */
  function NewInserts(seen: set<string>, keys: seq<Option<string>>): nat
    decreases |keys|
  {
    if |keys| == 0 then 0
    else if keys[0].None? then 1 + NewInserts(seen, keys[1..])
    else if keys[0].value in seen then NewInserts(seen, keys[1..])
    else 1 + NewInserts(seen + {keys[0].value}, keys[1..])
  }

  function KeysOf(ps: seq<ProfileDict>): (keys: seq<Option<string>>)
    ensures |keys| == |ps| && forall i :: 0 <= i < |ps| ==> keys[i] == KeyOf(ps[i])
  {
    seq(|ps|, i requires 0 <= i < |ps| => KeyOf(ps[i]))
  }

  /** One save adds the profile's non-NULL key to the table's keys, and no other key. */
  lemma SaveOneKeys(t: CandidateTable, p: ProfileDict, now: nat)
    ensures Keys(SaveOne(t, p, now).0) == Keys(t) + (if KeyOf(p).Some? then {KeyOf(p).value} else {})
  {
    var (t1, added) := SaveOne(t, p, now);
    if added {
      forall k
        ensures HasKey(t1, k) <==> HasKey(t, k) || (KeyOf(p).Some? && k == KeyOf(p).value)
      {
        if HasKey(t1, k) {
          var j :| 0 <= j < |t1.rows| && t1.rows[j].linkedinId == Some(k);
          if j < |t.rows| {
            assert t.rows[j] == t1.rows[j];
          }
        }
        if HasKey(t, k) {
          var j :| 0 <= j < |t.rows| && t.rows[j].linkedinId == Some(k);
          assert t1.rows[j] == t.rows[j];
        }
      }
    }
  }

  /** Saving a batch keeps the table valid, keeps every earlier row as it was, and adds one
      row per counted insert. */
  lemma {:induction false} SaveAllShape(t: CandidateTable, ps: seq<ProfileDict>, now: nat)
    requires Valid(t)
    decreases |ps|
    ensures var (t', count) := SaveAll(t, ps, now);
      && Valid(t')
      && |t.rows| <= |t'.rows| && t'.rows[..|t.rows|] == t.rows
      && count == |t'.rows| - |t.rows| <= |ps|
  {
    if |ps| > 0 {
      var (t1, added) := SaveOne(t, ps[0], now);
      SaveAllShape(t1, ps[1..], now);
      var (t2, count) := SaveAll(t1, ps[1..], now);
      assert t2.rows[..|t.rows|] == t1.rows[..|t.rows|];
    }
  }

  /** Saving a batch leaves every non-NULL key of the batch in the table. */
  lemma {:induction false} SaveAllStoresKeys(t: CandidateTable, ps: seq<ProfileDict>, now: nat)
    decreases |ps|
    ensures Keys(t) <= Keys(SaveAll(t, ps, now).0)
    ensures forall i :: 0 <= i < |ps| && KeyOf(ps[i]).Some? ==> KeyOf(ps[i]).value in Keys(SaveAll(t, ps, now).0)
  {
    if |ps| > 0 {
      var t1 := SaveOne(t, ps[0], now).0;
      SaveOneKeys(t, ps[0], now);
      SaveAllStoresKeys(t1, ps[1..], now);
      assert forall i :: 1 <= i < |ps| ==> ps[i] == ps[1..][i - 1];
    }
  }

  /** The count of a batch save is the number of keys that were new, to the table or to the
      batch so far, NULL keys always counting. */
  lemma {:induction false} SaveAllCount(t: CandidateTable, ps: seq<ProfileDict>, now: nat)
    decreases |ps|
    ensures SaveAll(t, ps, now).1 == NewInserts(Keys(t), KeysOf(ps))
  {
    if |ps| > 0 {
      var (t1, added) := SaveOne(t, ps[0], now);
      SaveOneKeys(t, ps[0], now);
      SaveAllCount(t1, ps[1..], now);
      var keys := KeysOf(ps);
      assert keys[1..] == KeysOf(ps[1..]);
      assert keys[0] == KeyOf(ps[0]);
      assert added <==> keys[0].None? || keys[0].value !in Keys(t);
      assert SaveAll(t, ps, now).1 == SaveAll(t1, ps[1..], now).1 + if added then 1 else 0;
      if keys[0].None? {
        assert Keys(t1) == Keys(t);
      } else if keys[0].value in Keys(t) {
        assert Keys(t1) == Keys(t);
      } else {
        assert Keys(t1) == Keys(t) + {keys[0].value};
      }
    }
  }

  /** Saving a batch whose keys are all non-NULL a second time adds nothing and changes
      nothing: every key is already stored. */
  lemma {:induction false} SaveAgainAddsNothing(t: CandidateTable, ps: seq<ProfileDict>, now: nat)
    requires forall i :: 0 <= i < |ps| ==> KeyOf(ps[i]).Some? && HasKey(t, KeyOf(ps[i]).value)
    decreases |ps|
    ensures SaveAll(t, ps, now) == (t, 0)
  {
    if |ps| > 0 {
      assert forall i :: 0 <= i < |ps| - 1 ==> ps[1..][i] == ps[i + 1];
      SaveAgainAddsNothing(t, ps[1..], now);
    }
  }

  /** Re-saving a batch whose keys are all non-NULL counts zero, whatever the time. */
  lemma SaveTwice(t: CandidateTable, ps: seq<ProfileDict>, now: nat, later: nat)
    requires forall i :: 0 <= i < |ps| ==> KeyOf(ps[i]).Some?
    ensures var t' := SaveAll(t, ps, now).0; SaveAll(t', ps, later) == (t', 0)
  {
    SaveAllStoresKeys(t, ps, now);
    SaveAgainAddsNothing(SaveAll(t, ps, now).0, ps, later);
  }

  /** `save_candidates`: each profile of the batch in turn is inserted unless its non-NULL key
      is already stored; the result is the number of rows added. */
  method SaveCandidates(t: CandidateTable, ps: seq<ProfileDict>, now: nat) returns (t': CandidateTable, count: nat)
    requires Valid(t)
    ensures (t', count) == SaveAll(t, ps, now)
    ensures Valid(t')
    ensures |t.rows| <= |t'.rows| && t'.rows[..|t.rows|] == t.rows
    ensures count == |t'.rows| - |t.rows| == NewInserts(Keys(t), KeysOf(ps))
  {
    t', count := t, 0;
    var i := 0;
    while i < |ps|
      invariant 0 <= i <= |ps|
      invariant SaveAll(t, ps, now).0 == SaveAll(t', ps[i..], now).0
      invariant SaveAll(t, ps, now).1 == SaveAll(t', ps[i..], now).1 + count
    {
      assert ps[i..][1..] == ps[i + 1..];
      assert ps[i..][0] == ps[i];
      var (next, added) := SaveOne(t', ps[i], now);
      t' := next;
      if added {
        count := count + 1;
      }
      i := i + 1;
    }
    assert ps[i..] == [];
    assert SaveAll(t', ps[i..], now) == (t', 0);
    SaveAllShape(t, ps, now);
    SaveAllCount(t, ps, now);
  }

  /** `get_candidates`: every row, newest search date first. */
  function GetCandidates(t: CandidateTable): (rows: seq<CandidateRow>)
    ensures multiset(rows) == multiset(t.rows)
    ensures forall i, j :: 0 <= i < j < |rows| ==> rows[i].searchDate >= rows[j].searchDate
  {
    var r := SortDesc(t.rows, (row: CandidateRow) => row.searchDate as real);
    assert SortedDesc(r, (row: CandidateRow) => row.searchDate as real);
    r
  }

  /** The dictionary a search result becomes: `id`, `name` and `skills` are present, and
      neither `linkedin_id`, `profile_url` nor `relevance_score` is. */
  function FromSearch(p: Search.Profile): (d: ProfileDict)
    ensures d.id == Value(p.id) && d.name == Value(p.name) && d.skills == p.skills
    ensures d.linkedinId.Absent? && d.profileUrl.Absent? && d.relevance.NumAbsent?
  {
    ProfileDict(Value(p.id), Absent, Absent, Value(p.name), p.skills, NumAbsent)
  }

  /** A search result is stored under its id, or under "unknown" when the id is empty, with an
      empty URL and relevance 0.0. */
  lemma SearchResultRow(p: Search.Profile, rowId: nat, now: nat)
    ensures var row := RowFor(FromSearch(p), rowId, now);
      && (p.id != "" ==> row.linkedinId == Some(p.id))
      && (p.id == "" ==> row.linkedinId == Some("unknown"))
      && row.profileUrl == "" && row.relevance == Some(0.0)
  {
  }
}

=== FILE: common.dfy ===
/** Small value types shared by every module of the model. */
module Common {

  /** A nullable value: a SQL column that may be NULL, or an element that may be missing. */
  datatype Option<+T> = None | Some(value: T) {
    function GetOr(default: T): T {
      match this
      case Some(v) => v
      case None => default
    }
  }

  /** The outcome of an operation that can raise. */
  datatype Result<+R, +E> = Success(value: R) | Failure(error: E)

  /** One entry of a Python dict read with `d.get(key, default)`:
      the key may be missing, present with `None`, or present with a string. */
  datatype Field = Absent | Null | Value(s: string)

  /** `d.get(key, default)` as rendered by an f-string: a missing key gives the default,
      a present `None` renders as the text "None". */
  function Rendered(f: Field, default: string): (r: string)
    ensures f.Absent? ==> r == default
    ensures f.Value? ==> r == f.s
    ensures f.Null? ==> r == "None"
  {
    match f
    case Absent => default
    case Null => "None"
    case Value(s) => s
  }

  /** `d.get(key, default)` stored into a nullable column: a present `None` becomes NULL. */
  function Stored(f: Field, default: string): (r: Option<string>)
    ensures f.Absent? ==> r == Some(default)
    ensures f.Null? ==> r.None?
    ensures f.Value? ==> r == Some(f.s)
  {
    match f
    case Absent => Some(default)
    case Null => None
    case Value(s) => Some(s)
  }

  /** Python and JavaScript truthiness of a nullable string: NULL and "" are falsy. */
  predicate Truthy(v: Option<string>) {
    v.Some? && v.value != ""
  }

  /** `v or default` (Python) and `v || default` (JavaScript) on a nullable string. */
  function OrElse(v: Option<string>, default: string): (r: string)
    ensures Truthy(v) ==> r == v.value
    ensures !Truthy(v) ==> r == default
  {
    if Truthy(v) then v.value else default
  }
}

=== FILE: dashboard.dfy ===
/** The candidate dashboards of `frontend/src/components/CandidateDashboard.jsx` and
    `linkedin-sourcing/frontend/src/components/CandidateDashboard.jsx`: the interactions are
    folded into one entry per candidate id with sent and reply counters, the candidates are
    sorted by relevance, and both lists are narrowed by a case-insensitive text filter. */
module Dashboard {
  import opened Common
  import opened Strings
  import opened Sorting
  import opened MessageStore
  import CandidateStore

  // ---------------------------------------------------------------------------
  // Aggregation by candidate id

  /** One entry of the aggregation: the candidate, the name and company shown, and the
      counters. */
  datatype Entry = Entry(id: string, name: string, company: string, sent: nat, replies: nat)

  /** The position of the entry for `id`, if there is one. */
  function IndexOf(acc: seq<Entry>, id: string): (r: Option<nat>)
    ensures r.Some? ==> r.value < |acc| && acc[r.value].id == id
    ensures r.None? ==> forall k :: 0 <= k < |acc| ==> acc[k].id != id
  {
    if |acc| == 0 then None
    else if acc[|acc| - 1].id == id then Some(|acc| - 1)
    else IndexOf(acc[..|acc| - 1], id)
  }

  /** The entry created for a candidate's first interaction, before it is counted. */
  function Fresh(x: MessageRow): Entry {
    Entry(x.candidateId, OrElse(x.candidateName, "Unknown"), OrElse(x.currentCompany, "Unknown"), 0, 0)
  }

  /** A shown value is replaced by a replied interaction's value only while it is empty or
      "Unknown", and only by a non-empty one. */
  function Upgrade(current: string, offered: Option<string>): string {
    if current == "" || current == "Unknown" then OrElse(offered, current) else current
  }

  /** Counts one interaction into its candidate's entry. */
  function Tally(e: Entry, x: MessageRow): Entry {
    var e1 := e.(sent := e.sent + 1);
    if Truthy(x.response) then
      e1.(replies := e1.replies + 1, name := Upgrade(e1.name, x.candidateName),
          company := Upgrade(e1.company, x.currentCompany))
    else e1
  }

  /** One step of the `reduce`. */
  function Add(acc: seq<Entry>, x: MessageRow): seq<Entry> {
    match IndexOf(acc, x.candidateId)
    case Some(k) => acc[k := Tally(acc[k], x)]
    case None => acc + [Tally(Fresh(x), x)]
  }

  /** The number of interactions of candidate `cid`. */
  function CountFor(xs: seq<MessageRow>, cid: string): nat {
    if |xs| == 0 then 0
    else CountFor(xs[..|xs| - 1], cid) + if xs[|xs| - 1].candidateId == cid then 1 else 0
  }

  /** The number of interactions of candidate `cid` with a non-empty response. */
  function RepliesFor(xs: seq<MessageRow>, cid: string): (n: nat)
    ensures n <= CountFor(xs, cid)
  {
    if |xs| == 0 then 0
    else
      var x := xs[|xs| - 1];
      RepliesFor(xs[..|xs| - 1], cid) + if x.candidateId == cid && Truthy(x.response) then 1 else 0
  }

  /** The first interaction of candidate `cid`, if any. */
  function FirstFor(xs: seq<MessageRow>, cid: string): (r: Option<MessageRow>)
    ensures r.Some? ==> r.value.candidateId == cid
    ensures r.None? <==> CountFor(xs, cid) == 0
  {
    if |xs| == 0 then None
    else
      var front := FirstFor(xs[..|xs| - 1], cid);
      if front.Some? then front
      else if xs[|xs| - 1].candidateId == cid then Some(xs[|xs| - 1])
      else None
  }

  function SumSent(acc: seq<Entry>): nat {
    if |acc| == 0 then 0 else SumSent(acc[..|acc| - 1]) + acc[|acc| - 1].sent
  }

  function NameField(x: MessageRow): Option<string> { x.candidateName }
  function CompanyField(x: MessageRow): Option<string> { x.currentCompany }

  /** Each candidate id has at most one entry. */
  ghost predicate Distinct(acc: seq<Entry>) {
    forall i, j :: 0 <= i < j < |acc| ==> acc[i].id != acc[j].id
  }

  /** The entries are exactly the candidates that have interactions. */
  ghost predicate Covers(acc: seq<Entry>, xs: seq<MessageRow>) {
    forall cid :: IndexOf(acc, cid).Some? <==> FirstFor(xs, cid).Some?
  }

  /** Each entry counts its candidate's interactions and their replies. */
  ghost predicate Counted(acc: seq<Entry>, xs: seq<MessageRow>) {
    forall k :: 0 <= k < |acc| ==>
      acc[k].sent == CountFor(xs, acc[k].id) && acc[k].replies == RepliesFor(xs, acc[k].id)
  }

  /** A shown value (name or company, read by `field`) of candidate `cid` comes from the
      candidate's first interaction, defaulting to "Unknown", and is kept once it is known;
      otherwise it was taken from a replied interaction. It is never empty. */
  ghost predicate Sourced(value: string, xs: seq<MessageRow>, cid: string, field: MessageRow -> Option<string>) {
    && FirstFor(xs, cid).Some? && value != ""
    && var first := OrElse(field(FirstFor(xs, cid).value), "Unknown");
    && (first != "Unknown" ==> value == first)
    && (value == first || exists i :: 0 <= i < |xs| && xs[i].candidateId == cid && Truthy(xs[i].response)
                                       && field(xs[i]) == Some(value))
  }

  ghost predicate Named(acc: seq<Entry>, xs: seq<MessageRow>) {
    forall k :: 0 <= k < |acc| ==>
      Sourced(acc[k].name, xs, acc[k].id, NameField) && Sourced(acc[k].company, xs, acc[k].id, CompanyField)
  }

  /** What `Add` does at each position: it leaves other candidates' entries alone, counts the
      interaction into its candidate's entry, or appends a new entry for it. */
  lemma AddEntry(acc: seq<Entry>, x: MessageRow, k: nat)
    requires Distinct(acc) && k < |Add(acc, x)|
    ensures |Add(acc, x)| == if IndexOf(acc, x.candidateId).Some? then |acc| else |acc| + 1
    ensures k < |acc| && acc[k].id != x.candidateId ==> Add(acc, x)[k] == acc[k]
    ensures k < |acc| && acc[k].id == x.candidateId ==> Add(acc, x)[k] == Tally(acc[k], x)
    ensures k == |acc| ==> IndexOf(acc, x.candidateId).None? && Add(acc, x)[k] == Tally(Fresh(x), x)
  {
  }

  /** The ids of the entries after `Add` are the ids before plus the interaction's. */
  lemma AddIds(acc: seq<Entry>, x: MessageRow, cid: string)
    requires Distinct(acc)
    ensures IndexOf(Add(acc, x), cid).Some? <==> IndexOf(acc, cid).Some? || cid == x.candidateId
  {
    var acc' := Add(acc, x);
    if IndexOf(acc, cid).Some? {
      var k := IndexOf(acc, cid).value;
      AddEntry(acc, x, k);
      assert acc'[k].id == cid;
    } else if cid == x.candidateId {
      var k := |acc|;
      AddEntry(acc, x, k);
      assert acc'[k].id == cid;
    } else if IndexOf(acc', cid).Some? {
      var k := IndexOf(acc', cid).value;
      AddEntry(acc, x, k);
      assert false;
    }
  }

  lemma AddKeepsDistinct(acc: seq<Entry>, x: MessageRow)
    requires Distinct(acc)
    ensures Distinct(Add(acc, x))
  {
  }

  lemma AddKeepsCovers(acc: seq<Entry>, xs: seq<MessageRow>, x: MessageRow)
    requires Distinct(acc) && Covers(acc, xs)
    ensures Covers(Add(acc, x), xs + [x])
  {
    assert (xs + [x])[..|xs|] == xs;
    forall cid ensures IndexOf(Add(acc, x), cid).Some? <==> FirstFor(xs + [x], cid).Some? {
      AddIds(acc, x, cid);
    }
  }

  lemma AddKeepsCounted(acc: seq<Entry>, xs: seq<MessageRow>, x: MessageRow)
    requires Distinct(acc) && Covers(acc, xs) && Counted(acc, xs)
    ensures Counted(Add(acc, x), xs + [x])
  {
    assert (xs + [x])[..|xs|] == xs;
    var acc' := Add(acc, x);
    forall k | 0 <= k < |acc'|
      ensures acc'[k].sent == CountFor(xs + [x], acc'[k].id)
      ensures acc'[k].replies == RepliesFor(xs + [x], acc'[k].id)
    {
      AddEntry(acc, x, k);
      if k == |acc| {
        assert FirstFor(xs, x.candidateId).None?;
      }
    }
  }

  /** One interaction keeps a shown value sourced. */
  lemma TallySourced(shown: string, xs: seq<MessageRow>, x: MessageRow, field: MessageRow -> Option<string>)
    requires Sourced(shown, xs, x.candidateId, field)
    ensures Sourced(if Truthy(x.response) then Upgrade(shown, field(x)) else shown, xs + [x], x.candidateId, field)
  {
    var xs' := xs + [x];
    var cid := x.candidateId;
    assert xs'[..|xs|] == xs;
    var first := OrElse(field(FirstFor(xs, cid).value), "Unknown");
    if first != shown {
      var i :| 0 <= i < |xs| && xs[i].candidateId == cid && Truthy(xs[i].response) && field(xs[i]) == Some(shown);
      assert xs'[i] == xs[i];
    }
    if Truthy(x.response) && Upgrade(shown, field(x)) != shown {
      assert xs'[|xs|] == x;
    }
  }

  /** Another candidate's interaction leaves a shown value sourced. */
  lemma OtherSourced(shown: string, xs: seq<MessageRow>, cid: string, x: MessageRow, field: MessageRow -> Option<string>)
    requires Sourced(shown, xs, cid, field) && x.candidateId != cid
    ensures Sourced(shown, xs + [x], cid, field)
  {
    var xs' := xs + [x];
    assert xs'[..|xs|] == xs;
    var first := OrElse(field(FirstFor(xs, cid).value), "Unknown");
    if first != shown {
      var i :| 0 <= i < |xs| && xs[i].candidateId == cid && Truthy(xs[i].response) && field(xs[i]) == Some(shown);
      assert xs'[i] == xs[i];
    }
  }

  /** The first interaction of a candidate gives a sourced value. */
  lemma FreshSourced(xs: seq<MessageRow>, x: MessageRow, field: MessageRow -> Option<string>)
    requires FirstFor(xs, x.candidateId).None?
    ensures var initial := OrElse(field(x), "Unknown");
      Sourced(if Truthy(x.response) then Upgrade(initial, field(x)) else initial, xs + [x], x.candidateId, field)
  {
    assert (xs + [x])[..|xs|] == xs;
  }

  lemma AddKeepsNamed(acc: seq<Entry>, xs: seq<MessageRow>, x: MessageRow)
    requires Distinct(acc) && Covers(acc, xs) && Named(acc, xs)
    ensures Named(Add(acc, x), xs + [x])
  {
    var acc' := Add(acc, x);
    forall k | 0 <= k < |acc'|
      ensures Sourced(acc'[k].name, xs + [x], acc'[k].id, NameField)
      ensures Sourced(acc'[k].company, xs + [x], acc'[k].id, CompanyField)
    {
      AddEntry(acc, x, k);
      if k == |acc| {
        assert FirstFor(xs, x.candidateId).None?;
        FreshSourced(xs, x, NameField);
        FreshSourced(xs, x, CompanyField);
      } else if acc[k].id == x.candidateId {
        TallySourced(acc[k].name, xs, x, NameField);
        TallySourced(acc[k].company, xs, x, CompanyField);
      } else {
        OtherSourced(acc[k].name, xs, acc[k].id, x, NameField);
        OtherSourced(acc[k].company, xs, acc[k].id, x, CompanyField);
      }
    }
  }

  lemma {:induction false} SumSentUpdate(acc: seq<Entry>, k: nat, e: Entry)
    requires k < |acc|
    ensures SumSent(acc[k := e]) + acc[k].sent == SumSent(acc) + e.sent
  {
    var n := |acc| - 1;
    if k < n {
      assert acc[k := e][..n] == acc[..n][k := e];
      SumSentUpdate(acc[..n], k, e);
    } else {
      assert acc[k := e][..n] == acc[..n];
    }
  }

  lemma AddCountsOne(acc: seq<Entry>, x: MessageRow)
    ensures SumSent(Add(acc, x)) == SumSent(acc) + 1
  {
    match IndexOf(acc, x.candidateId)
    case Some(k) => SumSentUpdate(acc, k, Tally(acc[k], x));
    case None => assert (acc + [Tally(Fresh(x), x)])[..|acc|] == acc;
  }

  /** The `reduce` over the interactions, in order: one entry per candidate id, counting its
      interactions and replies; the entries' sent counters add up to the number of
      interactions. */
  function Aggregate(xs: seq<MessageRow>): (acc: seq<Entry>)
    ensures Distinct(acc) && Covers(acc, xs) && Counted(acc, xs)
    ensures SumSent(acc) == |xs|
  {
    if |xs| == 0 then []
    else
      var front := xs[..|xs| - 1];
      var x := xs[|xs| - 1];
      var acc := Aggregate(front);
      assert xs == front + [x];
      AddKeepsDistinct(acc, x);
      AddKeepsCovers(acc, front, x);
      AddKeepsCounted(acc, front, x);
      AddCountsOne(acc, x);
      Add(acc, x)
  }

  /** Every entry's name and company follow the rules of `Sourced`. */
  lemma {:induction false} AggregateNamed(xs: seq<MessageRow>)
    ensures Named(Aggregate(xs), xs)
  {
    if |xs| > 0 {
      var front := xs[..|xs| - 1];
      var x := xs[|xs| - 1];
      AggregateNamed(front);
      assert xs == front + [x];
      AddKeepsNamed(Aggregate(front), front, x);
    }
  }

  /** A replied interaction of `cid` whose value is known: non-empty and not "Unknown". */
  predicate KnownReply(x: MessageRow, cid: string, field: MessageRow -> Option<string>) {
    x.candidateId == cid && Truthy(x.response) && Truthy(field(x)) && field(x).value != "Unknown"
  }

  /** The value of the first interaction of `cid` satisfying `KnownReply`, if any. */
  function FirstKnownReply(xs: seq<MessageRow>, cid: string, field: MessageRow -> Option<string>): (r: Option<string>)
    ensures r.Some? ==> FirstFor(xs, cid).Some? && r.value != "" && r.value != "Unknown"
    ensures r.Some? ==> exists i :: 0 <= i < |xs| && KnownReply(xs[i], cid, field) && field(xs[i]) == Some(r.value)
    ensures r.None? ==> forall i :: 0 <= i < |xs| ==> !KnownReply(xs[i], cid, field)
  {
    if |xs| == 0 then None
    else
      var front := FirstKnownReply(xs[..|xs| - 1], cid, field);
      var x := xs[|xs| - 1];
      if front.Some? then
        var i :| 0 <= i < |xs| - 1 && KnownReply(xs[..|xs| - 1][i], cid, field)
          && field(xs[..|xs| - 1][i]) == Some(front.value);
        assert xs[..|xs| - 1][i] == xs[i];
        front
      else if KnownReply(x, cid, field) then
        Some(field(x).value)
      else
        assert forall i :: 0 <= i < |xs| - 1 ==> xs[i] == xs[..|xs| - 1][i];
        None
  }

  /** The name or company the dashboard shows for `cid`, defined directly: the first
      interaction's value, or "Unknown" when that is missing or empty; and when this is
      "Unknown", the value of the first replied interaction that has a known one instead. */
  function Shown(xs: seq<MessageRow>, cid: string, field: MessageRow -> Option<string>): string {
    match FirstFor(xs, cid)
    case None => "Unknown"
    case Some(x) =>
      var first := OrElse(field(x), "Unknown");
      if first != "Unknown" then first
      else match FirstKnownReply(xs, cid, field)
        case Some(v) => v
        case None => "Unknown"
  }

  /** One more interaction of the same candidate: the shown value is upgraded exactly as the
      `reduce` upgrades it. */
  lemma ShownStep(xs: seq<MessageRow>, x: MessageRow, field: MessageRow -> Option<string>)
    requires FirstFor(xs, x.candidateId).Some?
    ensures var before := Shown(xs, x.candidateId, field);
      Shown(xs + [x], x.candidateId, field) == if Truthy(x.response) then Upgrade(before, field(x)) else before
  {
    assert (xs + [x])[..|xs|] == xs;
  }

  /** Another candidate's interaction leaves the shown value alone. */
  lemma ShownOther(xs: seq<MessageRow>, x: MessageRow, cid: string, field: MessageRow -> Option<string>)
    requires x.candidateId != cid
    ensures Shown(xs + [x], cid, field) == Shown(xs, cid, field)
  {
    assert (xs + [x])[..|xs|] == xs;
  }

  /** A candidate's first interaction: the shown value is the new entry's, counted once. */
  lemma ShownFresh(xs: seq<MessageRow>, x: MessageRow, field: MessageRow -> Option<string>)
    requires FirstFor(xs, x.candidateId).None?
    ensures var initial := OrElse(field(x), "Unknown");
      Shown(xs + [x], x.candidateId, field) == if Truthy(x.response) then Upgrade(initial, field(x)) else initial
  {
    assert (xs + [x])[..|xs|] == xs;
    assert FirstKnownReply(xs, x.candidateId, field).None?;
  }

  /** Every entry shows the value `Shown` defines. */
  ghost predicate Shows(acc: seq<Entry>, xs: seq<MessageRow>) {
    forall k :: 0 <= k < |acc| ==>
      acc[k].name == Shown(xs, acc[k].id, NameField) && acc[k].company == Shown(xs, acc[k].id, CompanyField)
  }

  /** One `reduce` step keeps every entry showing the value `Shown` defines. */
  lemma AddKeepsShows(acc: seq<Entry>, xs: seq<MessageRow>, x: MessageRow)
    requires Distinct(acc) && Covers(acc, xs) && Shows(acc, xs)
    ensures Shows(Add(acc, x), xs + [x])
  {
    var acc' := Add(acc, x);
    forall k | 0 <= k < |acc'|
      ensures acc'[k].name == Shown(xs + [x], acc'[k].id, NameField)
      ensures acc'[k].company == Shown(xs + [x], acc'[k].id, CompanyField)
    {
      AddEntry(acc, x, k);
      if k == |acc| {
        assert FirstFor(xs, x.candidateId).None?;
        ShownFresh(xs, x, NameField);
        ShownFresh(xs, x, CompanyField);
      } else if acc[k].id == x.candidateId {
        assert IndexOf(acc, acc[k].id).Some?;
        ShownStep(xs, x, NameField);
        ShownStep(xs, x, CompanyField);
      } else {
        ShownOther(xs, x, acc[k].id, NameField);
        ShownOther(xs, x, acc[k].id, CompanyField);
      }
    }
  }

  /** The name and company of every entry are exactly the values `Shown` defines: the first
      interaction's, upgraded from "Unknown" by the first replied interaction that knows
      better. */
  lemma {:induction false} AggregateShows(xs: seq<MessageRow>)
    ensures forall k :: 0 <= k < |Aggregate(xs)| ==>
      && Aggregate(xs)[k].name == Shown(xs, Aggregate(xs)[k].id, NameField)
      && Aggregate(xs)[k].company == Shown(xs, Aggregate(xs)[k].id, CompanyField)
  {
    if |xs| > 0 {
      var front := xs[..|xs| - 1];
      var x := xs[|xs| - 1];
      AggregateShows(front);
      assert xs == front + [x];
      AddKeepsShows(Aggregate(front), front, x);
    }
  }

  /** A candidate's count is the number of messages `/track` returns for it. */
  lemma {:induction false} CountIsTracked(xs: seq<MessageRow>, cid: string)
    ensures CountFor(xs, cid) == |RowsFor(xs, cid)|
  {
    if |xs| > 0 {
      CountIsTracked(xs[..|xs| - 1], cid);
    }
  }

  /** A candidate with an interaction has a first one. */
  lemma {:induction false} HasFirst(xs: seq<MessageRow>, i: nat)
    requires i < |xs|
    ensures FirstFor(xs, xs[i].candidateId).Some?
  {
    if i < |xs| - 1 {
      assert xs[..|xs| - 1][i] == xs[i];
      HasFirst(xs[..|xs| - 1], i);
    }
  }

  /** A candidate with interactions has exactly one entry; it counts what `/track` returns for
      the candidate, and no more replies than messages. */
  lemma EntryOfCandidate(xs: seq<MessageRow>, i: nat)
    requires i < |xs|
    ensures var acc := Aggregate(xs);
      var cid := xs[i].candidateId;
      var k := IndexOf(acc, cid);
      && k.Some?
      && (forall j :: 0 <= j < |acc| && acc[j].id == cid ==> j == k.value)
      && acc[k.value].sent == |RowsFor(xs, cid)|
      && acc[k.value].replies == RepliesFor(xs, cid) <= acc[k.value].sent
  {
    var cid := xs[i].candidateId;
    HasFirst(xs, i);
    CountIsTracked(xs, cid);
    EntryFacts(Aggregate(xs), xs, cid);
  }

  lemma EntryFacts(acc: seq<Entry>, xs: seq<MessageRow>, cid: string)
    requires Distinct(acc) && Covers(acc, xs) && Counted(acc, xs) && FirstFor(xs, cid).Some?
    ensures var k := IndexOf(acc, cid);
      && k.Some?
      && (forall j :: 0 <= j < |acc| && acc[j].id == cid ==> j == k.value)
      && acc[k.value].sent == CountFor(xs, cid)
      && acc[k.value].replies == RepliesFor(xs, cid) <= acc[k.value].sent
  {
    assert IndexOf(acc, cid).Some?;
  }

  /** The reply-rate cell: "0%" when nothing was sent, so there is no division by zero;
      otherwise the percentage as `toFixed(1)` renders it, a parameter here. */
  function ReplyRateCell(e: Entry, toFixed: real -> string): (cell: string)
    ensures e.sent == 0 ==> cell == "0%"
    ensures e.sent > 0 ==> EndsWith(cell, "%")
  {
    if e.sent > 0 then
      var c := toFixed((e.replies as real / e.sent as real) * 100.0) + "%";
      assert c[|c| - 1..] == "%";
      c
    else "0%"
  }

  /** Every aggregated entry has sent at least one message, and its rate is a percentage. */
  lemma EntryRates(xs: seq<MessageRow>, k: nat)
    requires k < |Aggregate(xs)|
    ensures var e := Aggregate(xs)[k];
      e.sent > 0 && 0.0 <= (e.replies as real / e.sent as real) * 100.0 <= 100.0
  {
    var e := Aggregate(xs)[k];
    assert e.sent == CountFor(xs, e.id) && e.replies == RepliesFor(xs, e.id);
    assert FirstFor(xs, e.id).Some?;
    RateBounds(e.replies, e.sent);
  }

  lemma RateBounds(replies: nat, sent: nat)
    requires 0 < sent && replies <= sent
    ensures 0.0 <= (replies as real / sent as real) * 100.0 <= 100.0
  {
    assert replies as real / sent as real <= 1.0;
  }

  // ---------------------------------------------------------------------------
  // Filtering and sorting

  /** `text.toLowerCase().includes(filter.toLowerCase())`. */
  predicate Mentions(text: string, filter: string) {
    Contains(Lower(text), Lower(filter))
  }

  /** The candidate test of the newer dashboard: name or skills mention the filter. */
  predicate CandidateShown(c: CandidateStore.CandidateRow, filter: string) {
    Mentions(c.name, filter) || Mentions(c.skills, filter)
  }

  /** The entry test: name or company mention the filter. */
  predicate EntryShown(e: Entry, filter: string) {
    Mentions(e.name, filter) || Mentions(e.company, filter)
  }

  /** `xs.filter(keep)`: the elements that pass, in their order. */
  function Filter<T(!new)>(xs: seq<T>, keep: T -> bool): (r: seq<T>)
    ensures |r| <= |xs|
    ensures forall x :: x in r <==> x in xs && keep(x)
    ensures forall x :: multiset(r)[x] == if keep(x) then multiset(xs)[x] else 0
    ensures (forall i :: 0 <= i < |xs| ==> keep(xs[i])) ==> r == xs
  {
    if |xs| == 0 then []
    else
      assert xs == [xs[0]] + xs[1..];
      assert forall x :: x in xs <==> x == xs[0] || x in xs[1..];
      assert forall i :: 1 <= i < |xs| ==> xs[i] == xs[1..][i - 1];
      (if keep(xs[0]) then [xs[0]] else []) + Filter(xs[1..], keep)
  }

  /** Filtering a concatenation filters each part and keeps them in order; with `FilterOne`
      this fixes the order and the repetitions of what is kept. */
  lemma {:induction false} FilterAppend<T(!new)>(a: seq<T>, b: seq<T>, keep: T -> bool)
    ensures Filter(a + b, keep) == Filter(a, keep) + Filter(b, keep)
  {
    if |a| == 0 {
      assert a + b == b;
    } else {
      var t := a[1..];
      assert a == [a[0]] + t;
      assert a + b == [a[0]] + (t + b);
      FilterAppend(t, b, keep);
      FilterCons(a[0], t + b, keep);
      FilterCons(a[0], t, keep);
      ConcatAssoc(if keep(a[0]) then [a[0]] else [], Filter(t, keep), Filter(b, keep));
    }
  }

  lemma ConcatAssoc<T>(x: seq<T>, y: seq<T>, z: seq<T>)
    ensures x + (y + z) == (x + y) + z
  {
  }

  /** The first element is kept or dropped, then the rest is filtered. */
  lemma FilterCons<T(!new)>(x: T, xs: seq<T>, keep: T -> bool)
    ensures Filter([x] + xs, keep) == (if keep(x) then [x] else []) + Filter(xs, keep)
  {
    assert ([x] + xs)[1..] == xs;
  }

  /** A single element is kept exactly when it passes. */
  lemma FilterOne<T(!new)>(x: T, keep: T -> bool)
    ensures Filter([x], keep) == if keep(x) then [x] else []
  {
    assert [x][1..] == [];
  }

  /** Two tests that agree on every element keep the same elements. */
  lemma {:induction false} FilterSameTest<T(!new)>(xs: seq<T>, p: T -> bool, q: T -> bool)
    requires forall x :: p(x) == q(x)
    ensures Filter(xs, p) == Filter(xs, q)
  {
    if |xs| > 0 {
      FilterSameTest(xs[1..], p, q);
    }
  }

  /** Filtering keeps a list sorted. */
  lemma {:induction false} FilterKeepsSorted<T(!new)>(xs: seq<T>, keep: T -> bool, key: T -> real)
    requires SortedDesc(xs, key)
    ensures SortedDesc(Filter(xs, keep), key)
  {
    if |xs| > 0 {
      FilterKeepsSorted(xs[1..], keep, key);
      var rest := Filter(xs[1..], keep);
      forall j | 0 <= j < |rest|
        ensures key(rest[j]) <= key(xs[0])
      {
        HeadIsLargest(xs, key, rest[j]);
      }
    }
  }

  /** In a list sorted highest first, nothing after the head has a larger key. */
  lemma HeadIsLargest<T>(xs: seq<T>, key: T -> real, y: T)
    requires SortedDesc(xs, key) && |xs| > 0 && y in xs[1..]
    ensures key(y) <= key(xs[0])
  {
    var i :| 0 <= i < |xs[1..]| && xs[1..][i] == y;
    assert xs[i + 1] == y;
  }

  /** `filteredCandidates` of the newer dashboard: name or skills mention the filter. */
  function FilterCandidates(cs: seq<CandidateStore.CandidateRow>, filter: string): (r: seq<CandidateStore.CandidateRow>)
    ensures forall c :: c in r <==> c in cs && CandidateShown(c, filter)
    ensures forall c :: multiset(r)[c] == if CandidateShown(c, filter) then multiset(cs)[c] else 0
    ensures filter == "" ==> r == cs
  {
    assert filter == "" ==> forall c: CandidateStore.CandidateRow :: Mentions(c.name, filter) by {
      if filter == "" {
        forall c: CandidateStore.CandidateRow ensures Mentions(c.name, "") {
          ContainsEmpty(Lower(c.name));
        }
      }
    }
    Filter(cs, c => CandidateShown(c, filter))
  }

  /** `filteredInteractions` of the newer dashboard and `filteredCandidates` of the older:
      name or company mention the filter. */
  function FilterEntries(es: seq<Entry>, filter: string): (r: seq<Entry>)
    ensures forall e :: e in r <==> e in es && EntryShown(e, filter)
    ensures forall e :: multiset(r)[e] == if EntryShown(e, filter) then multiset(es)[e] else 0
    ensures filter == "" ==> r == es
  {
    assert filter == "" ==> forall e: Entry :: Mentions(e.name, filter) by {
      if filter == "" {
        forall e: Entry ensures Mentions(e.name, "") {
          ContainsEmpty(Lower(e.name));
        }
      }
    }
    Filter(es, e => EntryShown(e, filter))
  }

  /** The filter ignores case: an upper-case and a lower-case filter keep the same entries. */
  lemma FilterIgnoresCase(es: seq<Entry>, filter: string)
    ensures FilterEntries(es, Lower(filter)) == FilterEntries(es, filter)
  {
    LowerIdempotent(filter);
    FilterSameTest(es, e => EntryShown(e, Lower(filter)), e => EntryShown(e, filter));
  }

  /** The relevance the sort compares: JavaScript's `-` reads a NULL score as 0. */
  function Relevance(c: CandidateStore.CandidateRow): real {
    c.relevance.GetOr(0.0)
  }

  /** The candidates by relevance, highest first. The sort is stable, so candidates with the
      same relevance stay in the order they were fetched, and an ordered list is unchanged. */
  function SortCandidates(cs: seq<CandidateStore.CandidateRow>): (r: seq<CandidateStore.CandidateRow>)
    ensures multiset(r) == multiset(cs)
    ensures forall i, j :: 0 <= i < j < |r| ==> Relevance(r[i]) >= Relevance(r[j])
    ensures forall k :: Ties(r, Relevance, k) == Ties(cs, Relevance, k)
    ensures (forall i, j :: 0 <= i < j < |cs| ==> Relevance(cs[i]) >= Relevance(cs[j])) ==> r == cs
  {
    var r := SortDesc(cs, Relevance);
    assert SortedDesc(r, Relevance);
    SortStableAll(cs, Relevance);
    SortSorted(cs, Relevance);
    r
  }

  /** Candidates saved from a search all score 0.0, so the dashboard shows them in the order
      they were fetched. */
  lemma SearchScoresKeepOrder(cs: seq<CandidateStore.CandidateRow>)
    requires forall i :: 0 <= i < |cs| ==> cs[i].relevance == Some(0.0)
    ensures SortCandidates(cs) == cs
  {
    forall i | 0 <= i < |cs|
      ensures Relevance(cs[i]) == 0.0
    {
      assert cs[i].relevance == Some(0.0);
    }
  }

  /** The table the newer dashboard shows: the sorted candidates, filtered, still sorted. */
  lemma ShownCandidatesSorted(cs: seq<CandidateStore.CandidateRow>, filter: string)
    ensures var shown := FilterCandidates(SortCandidates(cs), filter);
      forall i, j :: 0 <= i < j < |shown| ==> Relevance(shown[i]) >= Relevance(shown[j])
  {
    var sorted := SortCandidates(cs);
    assert SortedDesc(sorted, Relevance);
    FilterKeepsSorted(sorted, c => CandidateShown(c, filter), Relevance);
    assert SortedDesc(FilterCandidates(sorted, filter), Relevance);
  }
}

=== FILE: legacy_search.dfy ===
/** The older people search (`linkedin-sourcing/app/nodes/search.py`): each result card gives a
    title link, a sub-line and a region text; the card's location is compared with the
    location filter word by word, and every card whose location matches becomes a profile.
    The browser work that produces the cards is outside the model. */
module LegacySearch {
  import opened Common
  import opened Strings
  import Search

  /** The title link of a card: its text and its `href` attribute, which may be missing. */
  datatype Link = Link(text: string, href: Option<string>)

  /** One result card, as the selectors see it: the title link, the sub-line text and the
      region text, each possibly absent. */
  datatype LegacyCard = LegacyCard(link: Option<Link>, subline: Option<string>, region: Option<string>)

  /** The search settings read from the configuration dictionary. */
  datatype LegacyConfig = LegacyConfig(keywords: seq<string>, location: string, minExp: int)

  /** The settings used when the dictionary has none: `['AI Engineer']`, `'Venezuela'`, 0. */
  const DefaultLegacyConfig := LegacyConfig(["AI Engineer"], "Venezuela", 0)

  /** Only the first three cards on the page are read. */
  const LegacyMaxCards: nat := 3

  datatype LegacyProfile = LegacyProfile(
    id: string,
    name: string,
    skills: seq<string>,
    experienceYears: int,
    location: string,
    currentCompany: string,
    profileUrl: string)

  // ---------------------------------------------------------------------------
  // Location filter

  /** The loop over the filter's words: true at the first non-empty word found in `hay`. */
  function SomeWordFound(words: seq<string>, hay: string): (r: bool)
    ensures r <==> exists k :: 0 <= k < |words| && |words[k]| > 0 && Contains(hay, words[k])
  {
    if |words| == 0 then false
    else if |words[0]| > 0 && Contains(hay, words[0]) then
      assert |words[0]| > 0 && Contains(hay, words[0]);
      true
    else
      var rest := SomeWordFound(words[1..], hay);
      assert forall k :: 1 <= k < |words| ==> words[k] == words[1..][k - 1];
      rest
  }

  /** Whether a scraped location passes the location filter. An empty filter or `any` accepts
      everything; `remote` accepts a location mentioning "remote" or "home"; any other filter
      accepts a location containing one of the filter's words. The scraped side is compared
      lower-cased. */
  function MatchesLocationFilter(scraped: string, filter: string): (r: bool)
    ensures filter == "" || filter == "any" ==> r
    ensures filter == "remote" ==>
      (r <==> Contains(Lower(scraped), "remote") || Contains(Lower(scraped), "home"))
    ensures filter != "" && filter != "any" && filter != "remote" ==>
      (r <==> exists w :: w in Words(Lower(filter)) && Contains(Lower(scraped), w))
  {
    if filter == "" || filter == "any" then true
    else if filter == "remote" then
      Contains(Lower(scraped), "remote") || Contains(Lower(scraped), "home")
    else
      var words := Words(Lower(filter));
      var r := SomeWordFound(words, Lower(scraped));
      WordsAreWords(Lower(filter));
      assert r <==> exists w :: w in words && Contains(Lower(scraped), w) by {
        if exists w :: w in words && Contains(Lower(scraped), w) {
          var w :| w in words && Contains(Lower(scraped), w);
          var k :| 0 <= k < |words| && words[k] == w;
          assert IsWord(words[k]);
        }
      }
      r
  }

  /** The filter sees the scraped location only through its lower-case form. */
  lemma LocationFilterIgnoresCase(scraped: string, filter: string)
    ensures MatchesLocationFilter(Lower(scraped), filter) == MatchesLocationFilter(scraped, filter)
  {
    LowerIdempotent(scraped);
  }

  /** A filter of spaces only has no words, so it accepts nothing. */
  lemma BlankFilterRejects(scraped: string, filter: string)
    requires |filter| > 0
    requires forall i :: 0 <= i < |filter| ==> IsSpace(filter[i])
    ensures !MatchesLocationFilter(scraped, filter)
  {
    assert filter[0] != 'a' && filter[0] != 'r';
    WordsOfBlank(Lower(filter));
  }

  /** A one-word filter other than the special ones accepts exactly the locations containing
      it, ignoring case on both sides. */
  lemma OneWordFilter(scraped: string, filter: string)
    requires IsWord(filter) && filter != "any" && filter != "remote"
    ensures MatchesLocationFilter(scraped, filter) <==> Contains(Lower(scraped), Lower(filter))
  {
    assert IsWord(Lower(filter));
    WordsOfWord(Lower(filter));
  }

  // ---------------------------------------------------------------------------
  // Title, company and id

  /** The words a title is recognised by: those of the keywords, then "engineer" and
      "developer". */
  function TitleWords(keywords: string): (words: seq<string>)
    ensures |words| >= 2 && words[|words| - 2] == "engineer" && words[|words| - 1] == "developer"
  {
    Words(Lower(keywords)) + ["engineer", "developer"]
  }

  /** `any(word in hay for word in words)`. */
  function AnyContained(words: seq<string>, hay: string): (r: bool)
    ensures r <==> exists k :: 0 <= k < |words| && Contains(hay, words[k])
  {
    if |words| == 0 then false
    else if Contains(hay, words[0]) then true
    else
      var rest := AnyContained(words[1..], hay);
      assert forall k :: 1 <= k < |words| ==> words[k] == words[1..][k - 1];
      rest
  }

  /** The card's title: for a sub-line with " en " ("<role> en <company>"), the stripped text
      before its first " en "; otherwise the sub-line itself when, lower-cased, it mentions a
      keyword word, "engineer" or "developer"; and "N/A" in every other case, including an
      empty sub-line. */
  function Title(raw: string, keywords: string): (t: string)
    ensures raw == "" ==> t == "N/A"
    ensures Contains(raw, " en ") ==>
      && Contains(raw, t) && !Contains(t, " en ")
      && (|t| > 0 ==> !IsSpace(t[0]) && !IsSpace(t[|t| - 1]))
    ensures Contains(raw, " en ") ==>
      exists i :: && 0 <= i <= |raw| - 4 && OccursAt(raw, " en ", i)
                  && (forall j :: 0 <= j < i ==> !OccursAt(raw, " en ", j))
                  && t == Strip(raw[..i])
    ensures raw != "" && !Contains(raw, " en ") ==>
      var mentioned := exists k :: 0 <= k < |TitleWords(keywords)| && Contains(Lower(raw), TitleWords(keywords)[k]);
      (mentioned ==> t == raw) && (!mentioned ==> t == "N/A")
  {
    if raw == "" then "N/A"
    else if Contains(raw, " en ") then
      var before := SplitFirst(raw, " en ");
      var t := Strip(before);
      assert Contains(raw, before) by { assert OccursAt(raw, before, 0); }
      ContainsTransitive(raw, before, t);
      assert !Contains(t, " en ") by {
        if Contains(t, " en ") {
          ContainsTransitive(before, t, " en ");
        }
      }
      assert raw[..|before|] == before;
      t
    else if AnyContained(TitleWords(keywords), Lower(raw)) then raw
    else "N/A"
  }

  /** The current company: the text after the last " en " the split consumes, or the title when
      there is none. */
  function CurrentCompany(raw: string, title: string): (c: string)
    ensures Contains(raw, " en ") ==>
      EndsWith(raw, c) && !Contains(c, " en ") && |c| + 4 <= |raw| && OccursAt(raw, " en ", |raw| - |c| - 4)
    ensures Contains(raw, " en ") ==>
      LastCut(raw, " en ").Some? && LastCut(raw, " en ").value == |raw| - |c| - 4
    ensures !Contains(raw, " en ") ==> c == title
  {
    if Contains(raw, " en ") then SplitLast(raw, " en ") else title
  }

  /** A sub-line with a single " en " is "<before> en <company>", and the title is the stripped
      part before it. */
  lemma RoleAtCompany(raw: string, keywords: string)
    requires |Split(raw, " en ")| == 2
    ensures Contains(raw, " en ")
    ensures raw == SplitFirst(raw, " en ") + " en " + CurrentCompany(raw, Title(raw, keywords))
    ensures Title(raw, keywords) == Strip(SplitFirst(raw, " en "))
  {
    var pieces := Split(raw, " en ");
    JoinSplit(raw, " en ");
    assert Join(pieces, " en ") == pieces[0] + " en " + pieces[1];
    FindFromZero(raw, " en ");
  }

  /** The id from the profile URL: the segment after the last `/in/` the split consumes, or
      "unknown". */
  function LegacyId(url: string): (id: string)
    ensures '/' !in id
    ensures Contains(url, "/in/") ==> id == Search.IdSegment(url)
    ensures !Contains(url, "/in/") ==> id == "unknown"
  {
    if Contains(url, "/in/") then Search.IdSegment(url) else "unknown"
  }

  // ---------------------------------------------------------------------------
  // One card

  /** What reading one card gives: a profile, a skip because the location does not match, or
      a parse error (a title link without `href`), after which the card is passed over. */
  datatype CardOutcome = Emit(profile: LegacyProfile) | Skip | ParseError

  /** The experience figure of every card: the minimum, raised to 3. */
  function LegacyExperience(minExp: int): (years: int)
    ensures years >= 3 && years >= minExp
    ensures years == minExp || years == 3
  {
    if minExp > 3 then minExp else 3
  }

  /** The location text of a card, "N/A" when it has no region. */
  function RegionText(card: LegacyCard): (loc: string)
    ensures card.region.Some? ==> loc == card.region.value
    ensures card.region.None? ==> loc == "N/A"
  {
    card.region.GetOr("N/A")
  }

  /** Reads card `i`. A title link without `href` raises before anything else is read. Since
      the experience figure is never below the minimum, a readable card is kept exactly when
      its location passes the filter. */
  function ReadLegacyCard(cfg: LegacyConfig, card: LegacyCard): (r: CardOutcome)
    ensures r.ParseError? <==> card.link.Some? && card.link.value.href.None?
    ensures !r.ParseError? ==> (r.Emit? <==> MatchesLocationFilter(RegionText(card), cfg.location))
    ensures r.Emit? ==>
      var p := r.profile;
      var keywords := Join(cfg.keywords, " ");
      var raw := card.subline.GetOr("");
      && p.skills == [keywords]
      && p.experienceYears == LegacyExperience(cfg.minExp) >= cfg.minExp
      && p.location == RegionText(card)
      && p.currentCompany == CurrentCompany(raw, Title(raw, keywords))
      && (card.link.None? ==> p.name == "Unknown" && p.id == "unknown" && p.profileUrl == "")
      && (card.link.Some? ==>
            p.name == card.link.value.text && p.profileUrl == card.link.value.href.value
            && p.id == LegacyId(p.profileUrl))
  {
    if card.link.Some? && card.link.value.href.None? then ParseError
    else
      var name := if card.link.Some? then card.link.value.text else "Unknown";
      var url := if card.link.Some? then card.link.value.href.value else "";
      var id := if card.link.Some? then LegacyId(url) else "unknown";
      var keywords := Join(cfg.keywords, " ");
      var raw := card.subline.GetOr("");
      var title := Title(raw, keywords);
      var location := RegionText(card);
      var years := LegacyExperience(cfg.minExp);
      if years >= cfg.minExp && MatchesLocationFilter(location, cfg.location) then
        Emit(LegacyProfile(id, name, [keywords], years, location, CurrentCompany(raw, title), url))
      else
        Skip
  }

  // ---------------------------------------------------------------------------
  // The search

  /** The profiles of the emitting outcomes, in order. */
  function Emitted(outcomes: seq<CardOutcome>): (r: seq<LegacyProfile>)
    ensures |r| <= |outcomes|
  {
    if |outcomes| == 0 then []
    else
      var last := |outcomes| - 1;
      Emitted(outcomes[..last]) + (if outcomes[last].Emit? then [outcomes[last].profile] else [])
  }

  /** The positions of the emitting outcomes, in order. */
  function EmittedPositions(outcomes: seq<CardOutcome>): (r: seq<nat>)
    ensures |r| <= |outcomes|
    ensures forall k :: 0 <= k < |r| ==> r[k] < |outcomes| && outcomes[r[k]].Emit?
    ensures forall j, k :: 0 <= j < k < |r| ==> r[j] < r[k]
    ensures forall c :: 0 <= c < |outcomes| && outcomes[c].Emit? ==> c in r
  {
    if |outcomes| == 0 then []
    else
      var last := |outcomes| - 1;
      var front := outcomes[..last];
      var earlier := EmittedPositions(front);
      assert forall c :: 0 <= c < last ==> outcomes[c] == front[c];
      earlier + (if outcomes[last].Emit? then [last] else [])
  }

  /** The emitted profiles are those of the emitting outcomes, one for one, in order. */
  lemma {:induction false} EmittedAt(outcomes: seq<CardOutcome>)
    ensures |Emitted(outcomes)| == |EmittedPositions(outcomes)|
    ensures forall k :: 0 <= k < |Emitted(outcomes)| ==>
      Emitted(outcomes)[k] == outcomes[EmittedPositions(outcomes)[k]].profile
  {
    if |outcomes| > 0 {
      var last := |outcomes| - 1;
      var front := outcomes[..last];
      EmittedAt(front);
      assert forall c :: 0 <= c < last ==> outcomes[c] == front[c];
    }
  }

  /** The outcomes of the first three cards. */
  function Outcomes(cfg: LegacyConfig, cards: seq<LegacyCard>): (r: seq<CardOutcome>)
    ensures |r| <= LegacyMaxCards && |r| <= |cards|
    ensures |cards| >= LegacyMaxCards ==> |r| == LegacyMaxCards
    ensures |cards| < LegacyMaxCards ==> |r| == |cards|
    ensures forall c :: 0 <= c < |r| ==> r[c] == ReadLegacyCard(cfg, cards[c])
  {
    var n := if |cards| < LegacyMaxCards then |cards| else LegacyMaxCards;
    seq(n, c requires 0 <= c < n => ReadLegacyCard(cfg, cards[c]))
  }

  /** The loop over the outcomes: each kept card's profile is appended in turn. */
  method KeepEmitted(outcomes: seq<CardOutcome>) returns (profiles: seq<LegacyProfile>)
    ensures profiles == Emitted(outcomes)
  {
    profiles := [];
    var i := 0;
    while i < |outcomes|
      invariant 0 <= i <= |outcomes|
      invariant profiles == Emitted(outcomes[..i])
    {
      assert outcomes[..i + 1][..i] == outcomes[..i];
      if outcomes[i].Emit? {
        profiles := profiles + [outcomes[i].profile];
      }
      i := i + 1;
    }
    assert outcomes[..i] == outcomes;
  }

  /** The search: the first three cards are read in order, each kept card's profile is
      appended, and a card that raises is passed over. */
  method SearchLinkedin(cfg: LegacyConfig, cards: seq<LegacyCard>) returns (profiles: seq<LegacyProfile>)
    ensures profiles == Emitted(Outcomes(cfg, cards))
    ensures |profiles| <= LegacyMaxCards
  {
    profiles := KeepEmitted(Outcomes(cfg, cards));
  }

  /** The search keeps, in card order, exactly those of the first three cards that can be read
      and whose location passes the filter. */
  lemma SearchKeepsMatchingCards(cfg: LegacyConfig, cards: seq<LegacyCard>)
    ensures var outcomes := Outcomes(cfg, cards);
      var picked := EmittedPositions(outcomes);
      && |Emitted(outcomes)| == |picked|
      && (forall j, k :: 0 <= j < k < |picked| ==> picked[j] < picked[k])
      && (forall k :: 0 <= k < |picked| ==>
            picked[k] < LegacyMaxCards && picked[k] < |cards|
            && Emitted(outcomes)[k] == ReadLegacyCard(cfg, cards[picked[k]]).profile
            && MatchesLocationFilter(RegionText(cards[picked[k]]), cfg.location))
      && (forall c :: (0 <= c < |cards| && c < LegacyMaxCards
                       && !(cards[c].link.Some? && cards[c].link.value.href.None?)
                       && MatchesLocationFilter(RegionText(cards[c]), cfg.location)) ==> c in picked)
  {
    var outcomes := Outcomes(cfg, cards);
    EmittedAt(outcomes);
  }
}

=== FILE: message_store.dfy ===
/** The messages table shared by `app/database.py` and `linkedin-sourcing/app/database.py`
    (the two versions of the shared operations are the same): an outreach message is saved as
    sent, a reply is recorded on it, its status can be changed, and the rows are listed per
    candidate or all together, newest first. Changing the status (`UpdateMessageStatus`) exists
    only in `app/database.py`. The table is a sequence of rows in id order;
    the clock is a parameter. */
module MessageStore {
  import opened Common
  import opened Sorting

  /** One row of `messages`. Name and company may be NULL, as may the dates, the response and
      the status. */
  datatype MessageRow = MessageRow(
    id: nat,
    candidateId: string,
    candidateName: Option<string>,
    currentCompany: Option<string>,
    message: string,
    sentDate: Option<nat>,
    response: Option<string>,
    responseDate: Option<nat>,
    status: Option<string>)

  /** The table: its rows in id order and the next `AUTOINCREMENT` id. */
  datatype MessageTable = MessageTable(rows: seq<MessageRow>, nextId: nat)

  const EmptyMessages := MessageTable([], 1)

  /** The status `save_message` writes. */
  const SentStatus := "sent"

  /** The default status of `update_response`. */
  const RepliedStatus := "replied"

  /** Row ids increase along the table and stay below `nextId`, so they are unique. */
  ghost predicate Valid(t: MessageTable) {
    && (forall i, j :: 0 <= i < j < |t.rows| ==> t.rows[i].id < t.rows[j].id)
    && (forall i :: 0 <= i < |t.rows| ==> t.rows[i].id < t.nextId)
  }

  /** Some row has id `id`. */
  predicate HasRow(t: MessageTable, id: nat) {
    exists i :: 0 <= i < |t.rows| && t.rows[i].id == id
  }

  /** `save_message`: a new row with a fresh id, sent now with status "sent" and no response;
      the id is returned. */
  function SaveMessage(t: MessageTable, candidateId: string, name: Option<string>, company: Option<string>,
                       message: string, now: nat): (r: (MessageTable, nat))
    requires Valid(t)
    ensures Valid(r.0)
    ensures !HasRow(t, r.1) && HasRow(r.0, r.1)
    ensures |r.0.rows| == |t.rows| + 1 && r.0.rows[..|t.rows|] == t.rows
    ensures var row := r.0.rows[|t.rows|];
      && row.id == r.1 && row.candidateId == candidateId && row.candidateName == name
      && row.currentCompany == company && row.message == message
      && row.sentDate == Some(now) && row.status == Some(SentStatus)
      && row.response.None? && row.responseDate.None?
  {
    var row := MessageRow(t.nextId, candidateId, name, company, message, Some(now), None, None, Some(SentStatus));
    var t' := MessageTable(t.rows + [row], t.nextId + 1);
    assert t'.rows[..|t.rows|] == t.rows;
    assert t'.rows[|t.rows|] == row;
    (t', t.nextId)
  }

  /** The row as `update_response` leaves it. */
  function WithResponse(row: MessageRow, response: string, status: string, now: nat): (r: MessageRow)
    ensures r.response == Some(response) && r.status == Some(status) && r.responseDate == Some(now)
    ensures r.id == row.id && r.candidateId == row.candidateId && r.candidateName == row.candidateName
    ensures r.currentCompany == row.currentCompany && r.message == row.message && r.sentDate == row.sentDate
  {
    row.(response := Some(response), status := Some(status), responseDate := Some(now))
  }

  /** `update_response`: the row with id `msgId`, if any, gets the response, the status and the
      response date; every other row is left as it was. */
  function UpdateResponse(t: MessageTable, msgId: nat, response: string, status: string, now: nat): (r: MessageTable)
    ensures |r.rows| == |t.rows| && r.nextId == t.nextId
    ensures forall i :: 0 <= i < |t.rows| && t.rows[i].id != msgId ==> r.rows[i] == t.rows[i]
    ensures forall i :: 0 <= i < |t.rows| && t.rows[i].id == msgId ==>
      r.rows[i] == WithResponse(t.rows[i], response, status, now)
    ensures Valid(t) ==> Valid(r)
  {
    MessageTable(seq(|t.rows|, i requires 0 <= i < |t.rows| =>
      if t.rows[i].id == msgId then WithResponse(t.rows[i], response, status, now) else t.rows[i]), t.nextId)
  }

  /** `update_response` with its default status. */
  function RecordReply(t: MessageTable, msgId: nat, response: string, now: nat): (r: MessageTable)
    ensures forall i :: 0 <= i < |r.rows| && r.rows[i].id == msgId ==> r.rows[i].status == Some(RepliedStatus)
    ensures r == UpdateResponse(t, msgId, response, RepliedStatus, now)
  {
    UpdateResponse(t, msgId, response, RepliedStatus, now)
  }

  /** Updating a row that does not exist changes nothing. */
  lemma UpdateMissingRow(t: MessageTable, msgId: nat, response: string, status: string, now: nat)
    requires !HasRow(t, msgId)
    ensures UpdateResponse(t, msgId, response, status, now) == t
  {
    var r := UpdateResponse(t, msgId, response, status, now);
    assert forall i :: 0 <= i < |t.rows| ==> t.rows[i].id != msgId;
    assert r.rows == t.rows;
  }

  /** A reply recorded on a freshly saved message lands on that message: it then has the
      response and status "replied", and it keeps its candidate, text and sent date. */
  lemma ReplyToSavedMessage(t: MessageTable, candidateId: string, name: Option<string>, company: Option<string>,
                            message: string, sent: nat, response: string, received: nat)
    requires Valid(t)
    ensures var (t1, id) := SaveMessage(t, candidateId, name, company, message, sent);
      var row := RecordReply(t1, id, response, received).rows[|t.rows|];
      && row.id == id && row.candidateId == candidateId && row.message == message
      && row.sentDate == Some(sent) && row.response == Some(response)
      && row.status == Some(RepliedStatus) && row.responseDate == Some(received)
  {
  }

  /** `update_message_status`: sets the status of row `msgId`, and its sent date to now only when
      the new status is "sent"; returns whether such a row exists. */
  function UpdateMessageStatus(t: MessageTable, msgId: nat, status: string, now: nat): (r: (MessageTable, bool))
    ensures r.1 <==> HasRow(t, msgId)
    ensures |r.0.rows| == |t.rows| && r.0.nextId == t.nextId
    ensures forall i :: 0 <= i < |t.rows| && t.rows[i].id != msgId ==> r.0.rows[i] == t.rows[i]
    ensures forall i :: 0 <= i < |t.rows| && t.rows[i].id == msgId ==>
      && r.0.rows[i].status == Some(status)
      && r.0.rows[i].sentDate == (if status == SentStatus then Some(now) else t.rows[i].sentDate)
      && r.0.rows[i] == t.rows[i].(status := r.0.rows[i].status, sentDate := r.0.rows[i].sentDate)
    ensures Valid(t) ==> Valid(r.0)
  {
    var rows := seq(|t.rows|, i requires 0 <= i < |t.rows| =>
      if t.rows[i].id != msgId then t.rows[i]
      else if status == SentStatus then t.rows[i].(status := Some(status), sentDate := Some(now))
      else t.rows[i].(status := Some(status)));
    (MessageTable(rows, t.nextId), HasRow(t, msgId))
  }

  /** Every row has a status. Rows are only ever created by `SaveMessage`, which writes "sent",
      so the column's default status is never used. */
  ghost predicate StatusesSet(t: MessageTable) {
    forall i :: 0 <= i < |t.rows| ==> t.rows[i].status.Some?
  }

  /** Every operation keeps each row's status set. */
  lemma StatusesStaySet(t: MessageTable, msgId: nat, candidateId: string, name: Option<string>, company: Option<string>,
                        message: string, response: string, status: string, now: nat)
    requires Valid(t) && StatusesSet(t)
    ensures StatusesSet(SaveMessage(t, candidateId, name, company, message, now).0)
    ensures StatusesSet(UpdateResponse(t, msgId, response, status, now))
    ensures StatusesSet(UpdateMessageStatus(t, msgId, status, now).0)
  {
    var t1 := SaveMessage(t, candidateId, name, company, message, now).0;
    assert forall i :: 0 <= i < |t.rows| ==> t1.rows[i] == t.rows[i];
  }

  /** The rows of candidate `cid`, in table order. */
  function RowsFor(rows: seq<MessageRow>, cid: string): (r: seq<MessageRow>)
    ensures |r| <= |rows|
    ensures forall x :: x in r <==> x in rows && x.candidateId == cid
  {
    if |rows| == 0 then []
    else
      var last := |rows| - 1;
      var front := RowsFor(rows[..last], cid);
      assert forall x :: x in rows <==> x in rows[..last] || x == rows[last] by {
        assert rows == rows[..last] + [rows[last]];
      }
      front + if rows[last].candidateId == cid then [rows[last]] else []
  }

  /** `get_messages_for_candidate`: exactly the rows of candidate `cid`. */
  method MessagesForCandidate(t: MessageTable, cid: string) returns (result: seq<MessageRow>)
    ensures result == RowsFor(t.rows, cid)
    ensures forall k :: 0 <= k < |result| ==> result[k].candidateId == cid && result[k] in t.rows
    ensures forall i :: 0 <= i < |t.rows| && t.rows[i].candidateId == cid ==> t.rows[i] in result
  {
    result := [];
    var i := 0;
    while i < |t.rows|
      invariant 0 <= i <= |t.rows|
      invariant result == RowsFor(t.rows[..i], cid)
    {
      assert t.rows[..i + 1][..i] == t.rows[..i];
      if t.rows[i].candidateId == cid {
        result := result + [t.rows[i]];
      }
      i := i + 1;
    }
    assert t.rows[..i] == t.rows;
  }

  /** The sort key of `ORDER BY sent_date DESC`: a NULL date sorts below every date. */
  function SentKey(row: MessageRow): (k: real)
    ensures row.sentDate.None? ==> k < 0.0
    ensures row.sentDate.Some? ==> k == row.sentDate.value as real
  {
    match row.sentDate
    case None => -1.0
    case Some(d) => d as real
  }

  /** `get_all_interactions`: every row, latest sent first, unsent rows last. */
  function AllInteractions(t: MessageTable): (rows: seq<MessageRow>)
    ensures multiset(rows) == multiset(t.rows)
    ensures forall i, j :: 0 <= i < j < |rows| ==> SentKey(rows[i]) >= SentKey(rows[j])
    ensures forall i, j :: 0 <= i < j < |rows| && rows[i].sentDate.None? ==> rows[j].sentDate.None?
  {
    var r := SortDesc(t.rows, SentKey);
    UnsentLast(r);
    r
  }

  /** In a list sorted by `SentKey`, the unsent rows come after every sent one. */
  lemma UnsentLast(rows: seq<MessageRow>)
    requires SortedDesc(rows, SentKey)
    ensures forall i, j :: 0 <= i < j < |rows| ==> SentKey(rows[i]) >= SentKey(rows[j])
    ensures forall i, j :: 0 <= i < j < |rows| && rows[i].sentDate.None? ==> rows[j].sentDate.None?
  {
    forall i, j | 0 <= i < j < |rows| && rows[i].sentDate.None?
      ensures rows[j].sentDate.None?
    {
      assert SentKey(rows[i]) >= SentKey(rows[j]);
    }
  }
}

=== FILE: outreach.dfy ===
/** Outreach message generation in `app/nodes/message_generator.py` and
    `linkedin-sourcing/app/nodes/message_generator.py`: the fixed mock template, the
    OpenAI → GPT-2 → mock fallback chain, and saving the generated message. The two language
    models are oracles: what they answer, or that they raise, is part of the input. */
module Outreach {
  import opened Common
  import opened Strings
  import opened MessageStore

  /** The candidate dict the generator reads with `.get`. */
  datatype CandidateData = CandidateData(id: Field, name: Field, experience: Field, currentCompany: Field)

  const DefaultRoleDescription := "AI Engineer role at our innovative startup, focusing on ML pipelines and computer vision."
  const DefaultCta := "Please reply if interested in discussing this opportunity further."
  const SignOff := "\n\nBest Regards,\nHiring Team"

  /** The template's defaults for a missing key. */
  function NameOf(c: CandidateData): string { Rendered(c.name, "Candidate") }
  function ExperienceOf(c: CandidateData): string { Rendered(c.experience, "experienced AI engineer") }
  function CompanyOf(c: CandidateData): string { Rendered(c.currentCompany, "a leading tech firm") }

  /** The opening every template message starts with. */
  function Greeting(c: CandidateData): string {
    "Hi " + NameOf(c) + ","
  }

  /** A message of the templates: an opening, a middle, the call to action and the sign-off. */
  function Letter(opening: string, middle: string, cta: string): (r: string)
    ensures StartsWith(r, opening) && EndsWith(r, SignOff)
    ensures Contains(r, cta) && Contains(r, middle)
  {
    FourParts(opening, middle, cta, SignOff);
    opening + middle + cta + SignOff
  }

  /** The mock's text between the greeting and the call to action: the rest of the intro and
      the role paragraph. */
  function MockMiddle(c: CandidateData, roleDesc: string): (m: string)
    ensures Contains(m, roleDesc) && EndsWith(m, "\n\n")
  {
    var before := " I found your profile impressive, especially your " + ExperienceOf(c)
      + " at " + CompanyOf(c) + "." + "\n\n" + "We are hiring for ";
    var after := " Our team would greatly value your expertise." + "\n\n";
    ContainsMiddle(before, roleDesc, after);
    before + roleDesc + after
  }

  /** `generate_mock_message` of `app/nodes/message_generator.py`: intro, role, call to action
      and sign-off, separated by blank lines. */
  function MockMessage(c: CandidateData, roleDesc: string, cta: string): (r: string)
    ensures StartsWith(r, Greeting(c))
    ensures EndsWith(r, SignOff) && EndsWith(r, "\n\n" + cta + SignOff)
    ensures Contains(r, roleDesc) && Contains(r, cta)
  {
    var m := MockMiddle(c, roleDesc);
    var r := Letter(Greeting(c), m, cta);
    ContainsTransitive(r, m, roleDesc);
    MockEnd(Greeting(c), m, cta);
    r
  }

  /** A letter whose middle ends in a blank line ends with that line, the call to action and
      the sign-off. */
  lemma MockEnd(opening: string, m: string, cta: string)
    requires EndsWith(m, "\n\n")
    ensures EndsWith(opening + m + cta + SignOff, "\n\n" + cta + SignOff)
  {
    var r := opening + m + cta + SignOff;
    var e := "\n\n" + cta + SignOff;
    assert m == m[..|m| - 2] + "\n\n";
    assert r == (opening + m[..|m| - 2]) + e;
    assert r[|r| - |e|..] == e;
  }

  /** The name in the greeting can be read back: it is the text after "Hi " up to the first
      comma, whenever the name itself has no comma. */
  lemma {:induction false} MockNamesCandidate(c: CandidateData, roleDesc: string, cta: string)
    requires ',' !in NameOf(c)
    ensures SplitFirst(Drop(MockMessage(c, roleDesc, cta), 3), ",") == NameOf(c)
  {
    var m := MockMessage(c, roleDesc, cta);
    var name := NameOf(c);
    var s := Drop(m, 3);
    assert s[..|name| + 1] == name + "," by {
      assert m[..|Greeting(c)|] == Greeting(c);
      assert m[3..|Greeting(c)|] == Greeting(c)[3..];
    }
    CutAtFirstComma(s, name);
  }

  /** The text before the first comma of `name + "," + rest` is `name` when `name` has none. */
  lemma CutAtFirstComma(s: string, name: string)
    requires ',' !in name
    requires |name| < |s| && s[..|name| + 1] == name + ","
    ensures SplitFirst(s, ",") == name
  {
    assert OccursAt(s, ",", |name|) by { assert s[|name|..|name| + 1] == [s[..|name| + 1][|name|]]; }
    assert s[..|name|] == name;
    forall j | 0 <= j < |name|
      ensures !OccursAt(s, ",", j)
    {
      assert s[j] == name[j];
    }
    CutBeforeUnique(s, SplitFirst(s, ","), name, ",", ",");
  }

  /** The greeting and the rest of a prompt, regrouped around the letter's middle. */
  lemma Regrouped(prompt: string, g: string, k: string, gap: string, cta: string)
    requires StartsWith(prompt, g)
    ensures g + (prompt[|g|..] + " " + k + gap) + cta + SignOff == prompt + " " + k + gap + cta + SignOff
  {
    var x := prompt[|g|..];
    assert prompt == g + x;
    assert g + (x + " " + k + gap) == g + x + " " + k + gap;
  }

  /** The back ends as the program finds them for one call: `USE_OPENAI`, whether an OpenAI
      client exists and what it completes the generator's prompt with (`None` when the call
      raises), whether GPT-2 loaded and what it decodes (`None` when generation raises). */
  datatype Backends = Backends(
    useOpenAI: bool,
    hasClient: bool,
    openAIReply: Option<string>,
    gpt2Available: bool,
    gpt2Output: Option<string>)

  /** OpenAI is tried and answers. */
  predicate OpenAIAnswers(b: Backends) {
    b.useOpenAI && b.hasClient && b.openAIReply.Some?
  }

  /** The OpenAI prompt up to its call to action: the candidate with the template's defaults and
      the role, inside fixed instructions indented as in the triple-quoted f-string. */
  function PromptHead(c: CandidateData, roleDesc: string): string {
    "\n    Generate a personalized LinkedIn outreach message for a job candidate.\n\n    Candidate: "
    + NameOf(c) + ", " + ExperienceOf(c) + " at " + CompanyOf(c) + ".\n\n    Role: " + roleDesc
    + "\n\n    Structure:\n    1. Personalized intro (1-2 sentences based on their experience).\n"
    + "    2. Brief role description (2 sentences).\n    3. Clear CTA"
  }

  /** The last instruction of the OpenAI prompt and the indentation before the closing quotes. */
  const PromptTail := "\n\n    Keep under 150 words, professional, engaging. No spam.\n    "

  /** The prompt `generate_personalized_message_openai` sends: the call to action is the third
      instruction. */
  function OpenAIPrompt(c: CandidateData, roleDesc: string, cta: string): (p: string)
    ensures StartsWith(p, PromptHead(c, roleDesc)) && EndsWith(p, PromptTail)
    ensures Contains(p, cta)
  {
    var h := PromptHead(c, roleDesc);
    FourParts(h, ": ", cta, PromptTail);
    h + ": " + cta + PromptTail
  }

  /** GPT-2 is tried and answers. */
  predicate Gpt2Answers(b: Backends) {
    b.gpt2Available && b.gpt2Output.Some?
  }

  /** The prompt the GPT-2 path continues. */
  function Gpt2Prompt(c: CandidateData, roleDesc: string): (p: string)
    ensures StartsWith(p, Greeting(c))
  {
    Greeting(c) + " based on your background in " + ExperienceOf(c) + " at " + CompanyOf(c)
      + ", we have an opportunity for you as an AI Engineer in " + roleDesc + "."
  }

  /** The text GPT-2 added after the prompt, stripped. */
  function Continuation(generated: string, prompt: string): string {
    Strip(Drop(generated, |prompt|))
  }

  /** The continuation is whatever the decoded output holds past the prompt's length, without
      its surrounding whitespace; nothing when the output is no longer than the prompt. */
  lemma ContinuationStripped(generated: string, prompt: string)
    ensures |generated| <= |prompt| ==> Continuation(generated, prompt) == ""
    ensures |generated| > |prompt| ==> StrippedFrom(generated[|prompt|..], Continuation(generated, prompt))
  {
    StripIsStrippedFrom(Drop(generated, |prompt|));
  }

  /** A GPT-2 message: the greeting, the rest of the prompt, the continuation and `gap`, then the
      call to action and the sign-off. */
  function Gpt2Letter(c: CandidateData, prompt: string, generated: string, gap: string, cta: string): (r: string)
    requires StartsWith(prompt, Greeting(c))
    ensures StartsWith(r, Greeting(c)) && EndsWith(r, SignOff) && Contains(r, cta)
    ensures r == prompt + " " + Continuation(generated, prompt) + gap + cta + SignOff
  {
    var g := Greeting(c);
    var k := Continuation(generated, prompt);
    Regrouped(prompt, g, k, gap, cta);
    Letter(g, prompt[|g|..] + " " + k + gap, cta)
  }

  /** `generate_personalized_message_gpt2`: the mock when GPT-2 did not load, otherwise the
      prompt, its continuation, the call to action and the sign-off; `None` when generation
      raises. */
  function Gpt2Message(c: CandidateData, roleDesc: string, cta: string, b: Backends): (r: Option<string>)
    ensures !b.gpt2Available ==> r == Some(MockMessage(c, roleDesc, cta))
    ensures r.None? <==> b.gpt2Available && b.gpt2Output.None?
    ensures r.Some? ==> StartsWith(r.value, Greeting(c)) && EndsWith(r.value, SignOff) && Contains(r.value, cta)
    ensures b.gpt2Available && b.gpt2Output.Some? ==> var prompt := Gpt2Prompt(c, roleDesc);
      r == Some(prompt + " " + Continuation(b.gpt2Output.value, prompt) + "\n\n" + cta + SignOff)
  {
    if !b.gpt2Available then Some(MockMessage(c, roleDesc, cta))
    else match b.gpt2Output
      case None => None
      case Some(generated) =>
        Some(Gpt2Letter(c, Gpt2Prompt(c, roleDesc), generated, "\n\n", cta))
  }

  /** `generate_personalized_message`: OpenAI's stripped answer when it is enabled and answers,
      otherwise GPT-2's message when it loaded and answers, otherwise the mock. It never fails. */
  function PersonalizedMessage(c: CandidateData, roleDesc: string, cta: string, b: Backends): (r: string)
    ensures OpenAIAnswers(b) ==> r == Strip(b.openAIReply.value)
    ensures !OpenAIAnswers(b) && Gpt2Answers(b) ==> Some(r) == Gpt2Message(c, roleDesc, cta, b)
    ensures !OpenAIAnswers(b) && !Gpt2Answers(b) ==> r == MockMessage(c, roleDesc, cta)
    ensures !OpenAIAnswers(b) ==> StartsWith(r, Greeting(c)) && EndsWith(r, SignOff) && Contains(r, cta)
  {
    if OpenAIAnswers(b) then Strip(b.openAIReply.value)
    else if b.gpt2Available && Gpt2Message(c, roleDesc, cta, b).Some? then Gpt2Message(c, roleDesc, cta, b).value
    else MockMessage(c, roleDesc, cta)
  }

  /** With neither model answering, whatever is enabled, the candidate gets the mock. */
  lemma MockWhenModelsFail(c: CandidateData, roleDesc: string, cta: string, b: Backends)
    requires b.openAIReply.None? && b.gpt2Output.None?
    ensures PersonalizedMessage(c, roleDesc, cta, b) == MockMessage(c, roleDesc, cta)
  {
  }

  /** What `create_and_save_message` returns. */
  datatype Created = Created(id: nat, message: string, candidateId: string)

  /** Saves a generated message for the candidate: the id must be present and not `None`
      (`candidate_data['id']` and the NOT NULL column), and the name and company are stored with
      their own defaults. */
  function SaveGenerated(t: MessageTable, c: CandidateData, message: string, now: nat): (r: Result<(MessageTable, Created), string>)
    requires Valid(t)
    ensures r.Success? <==> c.id.Value?
    ensures r.Success? ==> var (t', out) := r.value;
      && out.candidateId == c.id.s && out.message == message
      && (t', out.id) == SaveMessage(t, c.id.s, Stored(c.name, "Unknown Candidate"),
                                     Stored(c.currentCompany, "Unknown Company"), message, now)
  {
    match c.id
    case Absent => Failure("KeyError: 'id'")
    case Null => Failure("NOT NULL constraint failed: messages.candidate_id")
    case Value(cid) =>
      var (t', id) := SaveMessage(t, cid, Stored(c.name, "Unknown Candidate"),
                                  Stored(c.currentCompany, "Unknown Company"), message, now);
      Success((t', Created(id, message, cid)))
  }

  /** `create_and_save_message` of `app/nodes/message_generator.py`. */
  function CreateAndSaveMessage(t: MessageTable, c: CandidateData, roleDesc: string, cta: string, b: Backends, now: nat)
    : (r: Result<(MessageTable, Created), string>)
    requires Valid(t)
    ensures r.Success? <==> c.id.Value?
    ensures r.Success? ==> r.value.1.candidateId == c.id.s && r.value.1.message == PersonalizedMessage(c, roleDesc, cta, b)
    ensures r.Success? ==> Valid(r.value.0)
  {
    SaveGenerated(t, c, PersonalizedMessage(c, roleDesc, cta, b), now)
  }

  /** A message created for a candidate is then among that candidate's tracked messages, as a
      sent message with the returned id and text, after the ones already there. */
  lemma CreatedMessageIsTracked(t: MessageTable, c: CandidateData, message: string, now: nat)
    requires Valid(t) && c.id.Value?
    ensures var (t', out) := SaveGenerated(t, c, message, now).value;
      var tracked := RowsFor(t'.rows, out.candidateId);
      && |tracked| == |RowsFor(t.rows, out.candidateId)| + 1
      && tracked[..|tracked| - 1] == RowsFor(t.rows, out.candidateId)
      && tracked[|tracked| - 1].id == out.id && tracked[|tracked| - 1].message == message
      && tracked[|tracked| - 1].status == Some(SentStatus)
  {
    var (t', out) := SaveGenerated(t, c, message, now).value;
    assert t'.rows[..|t'.rows| - 1] == t.rows;
  }

  // ---------------------------------------------------------------------------
  // linkedin-sourcing/app/nodes/message_generator.py

  /** The role description and call to action the older generator always uses. */
  const RoleDescription := "AI Engineer role at our innovative startup, focusing on ML pipelines and computer vision."
  const LegacyCta := "Please reply if interested in discussing this opportunity further."

  /** `generate_mock_message` of the older generator: the newer template with its default role
      and call to action. */
  function LegacyMockMessage(c: CandidateData): (r: string)
    ensures r == MockMessage(c, DefaultRoleDescription, DefaultCta)
    ensures StartsWith(r, Greeting(c)) && EndsWith(r, SignOff)
    ensures Contains(r, RoleDescription) && Contains(r, LegacyCta)
  {
    var m := MockMiddle(c, RoleDescription);
    var r := Letter(Greeting(c), m, LegacyCta);
    ContainsTransitive(r, m, RoleDescription);
    r
  }

  /** The prompt the older `generate_personalized_message_openai` sends: the default role, and
      a fixed example in place of the call to action. */
  function LegacyOpenAIPrompt(c: CandidateData): (p: string)
    ensures StartsWith(p, PromptHead(c, DefaultRoleDescription)) && EndsWith(p, PromptTail)
  {
    var h := PromptHead(c, DefaultRoleDescription);
    Ends(h, LegacyExample, PromptTail);
    h + LegacyExample + PromptTail
  }

  /** The older prompt's third instruction after "Clear CTA". */
  const LegacyExample := " (e.g., \"Reply to discuss opportunities\")."

  /** The prompt the older GPT-2 path continues: the role is not mentioned. */
  function LegacyGpt2Prompt(c: CandidateData): (p: string)
    ensures StartsWith(p, Greeting(c))
  {
    Greeting(c) + " based on your background in " + ExperienceOf(c) + " at " + CompanyOf(c)
      + ", we have an opportunity for you as an AI Engineer."
  }

  /** `generate_personalized_message_gpt2` of the older generator: no role in the prompt and no
      call to action before the sign-off. */
  function LegacyGpt2Message(c: CandidateData, b: Backends): (r: Option<string>)
    ensures !b.gpt2Available ==> r == Some(LegacyMockMessage(c))
    ensures r.None? <==> b.gpt2Available && b.gpt2Output.None?
    ensures r.Some? ==> StartsWith(r.value, Greeting(c)) && EndsWith(r.value, SignOff)
    ensures b.gpt2Available && b.gpt2Output.Some? ==> var prompt := LegacyGpt2Prompt(c);
      r == Some(prompt + " " + Continuation(b.gpt2Output.value, prompt) + SignOff)
  {
    if !b.gpt2Available then Some(LegacyMockMessage(c))
    else match b.gpt2Output
      case None => None
      case Some(generated) =>
        var prompt := LegacyGpt2Prompt(c);
        NoGap(prompt + " " + Continuation(generated, prompt));
        Some(Gpt2Letter(c, prompt, generated, "", ""))
  }

  /** An empty gap and call to action leave nothing between the text and the sign-off. */
  lemma NoGap(a: string)
    ensures a + "" + "" + SignOff == a + SignOff
  {
    assert a + "" + "" == a;
  }

  /** `generate_personalized_message` of the older generator: the same order, OpenAI, then
      GPT-2, then the mock. */
  function LegacyPersonalizedMessage(c: CandidateData, b: Backends): (r: string)
    ensures OpenAIAnswers(b) ==> r == Strip(b.openAIReply.value)
    ensures !OpenAIAnswers(b) && Gpt2Answers(b) ==> Some(r) == LegacyGpt2Message(c, b)
    ensures !OpenAIAnswers(b) && !Gpt2Answers(b) ==> r == LegacyMockMessage(c)
    ensures !OpenAIAnswers(b) ==> StartsWith(r, Greeting(c)) && EndsWith(r, SignOff)
  {
    if OpenAIAnswers(b) then Strip(b.openAIReply.value)
    else if b.gpt2Available && LegacyGpt2Message(c, b).Some? then LegacyGpt2Message(c, b).value
    else LegacyMockMessage(c)
  }

  /** The two generators try the back ends in the same order and give the same message when
      neither model answers. They send OpenAI different prompts (`PromptsDiffer`), so its
      answers are not compared. */
  lemma GeneratorsAgreeWithoutModels(c: CandidateData, b: Backends)
    requires !OpenAIAnswers(b) && !Gpt2Answers(b)
    ensures LegacyPersonalizedMessage(c, b) == PersonalizedMessage(c, DefaultRoleDescription, DefaultCta, b)
  {
  }

  /** The older prompt has a fixed example where the newer one has the call to action, so the
      two prompts differ for every candidate. */
  lemma PromptsDiffer(c: CandidateData)
    ensures LegacyOpenAIPrompt(c) != OpenAIPrompt(c, DefaultRoleDescription, DefaultCta)
  {
    var h := PromptHead(c, DefaultRoleDescription);
    ExampleOpensWithSpace();
    DifferAfter(h, LegacyExample, ": ", PromptTail, DefaultCta, PromptTail);
  }

  /** The older prompt's example opens with a space where the newer one has a colon. */
  lemma ExampleOpensWithSpace()
    ensures |LegacyExample| > 0 && LegacyExample[0] == ' ' != ": "[0]
  {
  }

  /** `create_and_save_message` of the older generator. */
  function LegacyCreateAndSaveMessage(t: MessageTable, c: CandidateData, b: Backends, now: nat)
    : (r: Result<(MessageTable, Created), string>)
    requires Valid(t)
    ensures r.Success? <==> c.id.Value?
    ensures r.Success? ==> r.value.1.candidateId == c.id.s && r.value.1.message == LegacyPersonalizedMessage(c, b)
    ensures r.Success? ==> Valid(r.value.0)
  {
    SaveGenerated(t, c, LegacyPersonalizedMessage(c, b), now)
  }
}

=== FILE: reports.dfy ===
/** The effectiveness metrics and the CSV export of `app/main.py` and
    `linkedin-sourcing/app/main.py`, over the rows `get_all_interactions` returns. Only the
    counts, the bounds of the reply rate, the response-time samples and the cell texts are
    modelled; the mean, the rounding and the CSV encoding are not. */
module Reports {
  import opened Common
  import opened Strings
  import opened MessageStore

  /** `i['response'] is not None`. */
  predicate HasResponse(row: MessageRow) {
    row.response.Some?
  }

  /** The number of rows of `xs` that satisfy `p`. */
  function CountIf(xs: seq<MessageRow>, p: MessageRow -> bool): (n: nat)
    ensures n <= |xs|
    ensures n == 0 <==> forall i :: 0 <= i < |xs| ==> !p(xs[i])
    ensures n == |xs| <==> forall i :: 0 <= i < |xs| ==> p(xs[i])
  {
    if |xs| == 0 then 0
    else
      var rest := CountIf(xs[1..], p);
      assert forall i :: 1 <= i < |xs| ==> xs[i] == xs[1..][i - 1];
      (if p(xs[0]) then 1 else 0) + rest
  }

  lemma {:induction false} CountAppend(a: seq<MessageRow>, b: seq<MessageRow>, p: MessageRow -> bool)
    ensures CountIf(a + b, p) == CountIf(a, p) + CountIf(b, p)
  {
    if |a| == 0 {
      assert a + b == b;
    } else {
      assert (a + b)[1..] == a[1..] + b;
      CountAppend(a[1..], b, p);
    }
  }

  /** Counting does not depend on the order of the rows, so it is the same before and after
      `get_all_interactions` sorts them. */
  lemma {:induction false} CountPermutation(a: seq<MessageRow>, b: seq<MessageRow>, p: MessageRow -> bool)
    requires multiset(a) == multiset(b)
    ensures CountIf(a, p) == CountIf(b, p)
    decreases |a|
  {
    if |a| == 0 {
      assert |b| == |multiset(b)| == 0;
    } else {
      assert a[0] in multiset(b);
      var k :| 0 <= k < |b| && b[k] == a[0];
      var rest := b[..k] + b[k + 1..];
      assert b == b[..k] + [b[k]] + b[k + 1..];
      assert a == [a[0]] + a[1..];
      assert multiset(b) == multiset(b[..k]) + multiset{b[k]} + multiset(b[k + 1..]);
      assert multiset(a) == multiset{a[0]} + multiset(a[1..]);
      assert multiset(rest) == multiset(b[..k]) + multiset(b[k + 1..]);
      assert multiset(a[1..]) == multiset(a) - multiset{a[0]};
      assert multiset(a[1..]) == multiset(rest);
      CountPermutation(a[1..], rest, p);
      CountAppend(b[..k] + [b[k]], b[k + 1..], p);
      CountAppend(b[..k], [b[k]], p);
      CountAppend(b[..k], b[k + 1..], p);
      CountAppend([a[0]], a[1..], p);
    }
  }

  /** Two tables that differ in one row have counts that differ by that row's contribution. */
  lemma {:induction false} CountChangeOne(a: seq<MessageRow>, b: seq<MessageRow>, k: nat, p: MessageRow -> bool)
    requires |a| == |b| && k < |a|
    requires forall i :: 0 <= i < |a| && i != k ==> a[i] == b[i]
    ensures CountIf(b, p) + (if p(a[k]) then 1 else 0) == CountIf(a, p) + (if p(b[k]) then 1 else 0)
  {
    assert a == a[..k] + [a[k]] + a[k + 1..];
    assert b == b[..k] + [b[k]] + b[k + 1..];
    assert a[..k] == b[..k];
    assert a[k + 1..] == b[k + 1..];
    CountAppend(a[..k] + [a[k]], a[k + 1..], p);
    CountAppend(a[..k], [a[k]], p);
    CountAppend(b[..k] + [b[k]], b[k + 1..], p);
    CountAppend(b[..k], [b[k]], p);
  }

  /** `total_replies`: the rows whose response is not NULL. */
  function TotalReplies(rows: seq<MessageRow>): (n: nat)
    ensures n <= |rows|
    ensures n == 0 <==> forall i :: 0 <= i < |rows| ==> rows[i].response.None?
  {
    CountIf(rows, HasResponse)
  }

  /** `reply_rate`: replies per hundred messages, 0 when nothing was sent. */
  function ReplyRate(sent: nat, replies: nat): (rate: real)
    requires replies <= sent
    ensures 0.0 <= rate <= 100.0
    ensures rate == 0.0 <==> replies == 0
    ensures rate == 100.0 <==> sent > 0 && replies == sent
  {
    if sent > 0 then
      var f := replies as real / sent as real;
      FractionBounds(replies as real, sent as real);
      f * 100.0
    else 0.0
  }

  /** A share of a positive whole lies in [0, 1] and is 1 only for the whole. */
  lemma FractionBounds(part: real, whole: real)
    requires 0.0 <= part <= whole && whole > 0.0
    ensures 0.0 <= part / whole <= 1.0
    ensures part / whole == 0.0 <==> part == 0.0
    ensures part / whole == 1.0 <==> part == whole
  {
    assert part / whole * whole == part;
  }

  /** The rows a response time is taken from: a non-empty response and both dates. */
  predicate Timed(row: MessageRow) {
    && row.response.Some? && row.response.value != ""
    && row.sentDate.Some? && row.responseDate.Some?
  }

  /** The response times in seconds, one per timed row, in row order. */
  function ResponseTimes(rows: seq<MessageRow>): (times: seq<int>)
    ensures |times| == CountIf(rows, Timed)
    ensures |times| <= TotalReplies(rows)
  {
    if |rows| == 0 then []
    else
      var rest := ResponseTimes(rows[1..]);
      var row := rows[0];
      if Timed(row) then [row.responseDate.value - row.sentDate.value] + rest else rest
  }

  /** Every response time belongs to a timed row, and every timed row gives one. */
  lemma {:induction false} ResponseTimesFromTimedRows(rows: seq<MessageRow>)
    ensures forall t :: t in ResponseTimes(rows) <==> TakenFrom(rows, t)
  {
    if |rows| > 0 {
      ResponseTimesFromTimedRows(rows[1..]);
      ResponseTimesStep(rows);
      TimedRowsStep(rows);
    }
  }

  /** The response times of a table are its first row's, if timed, then those of the rest. */
  lemma ResponseTimesStep(rows: seq<MessageRow>)
    requires |rows| > 0
    ensures forall t :: t in ResponseTimes(rows) <==>
      (Timed(rows[0]) && t == rows[0].responseDate.value - rows[0].sentDate.value) || t in ResponseTimes(rows[1..])
  {
  }

  /** `t` is the response time of some timed row. */
  ghost predicate TakenFrom(rows: seq<MessageRow>, t: int) {
    exists i :: 0 <= i < |rows| && Timed(rows[i]) && t == rows[i].responseDate.value - rows[i].sentDate.value
  }

  /** A timed row of a table is its first row or a timed row of the rest. */
  lemma TimedRowsStep(rows: seq<MessageRow>)
    requires |rows| > 0
    ensures forall t :: TakenFrom(rows, t) <==>
      (Timed(rows[0]) && t == rows[0].responseDate.value - rows[0].sentDate.value) || TakenFrom(rows[1..], t)
  {
    assert forall i :: 1 <= i < |rows| ==> rows[i] == rows[1..][i - 1];
  }

  /** The integer part of `get_effectiveness_metrics`, and the response-time samples the
      average is taken over. */
  datatype Metrics = Metrics(totalSent: nat, totalReplies: nat, replyRate: real, responseTimes: seq<int>)

  /** `get_effectiveness_metrics` over the rows of `get_all_interactions`. */
  function EffectivenessMetrics(rows: seq<MessageRow>): (m: Metrics)
    ensures m.totalSent == |rows| && m.totalReplies <= m.totalSent
    ensures 0.0 <= m.replyRate <= 100.0
    ensures m.replyRate == 0.0 <==> m.totalReplies == 0
    ensures m.totalSent == 0 ==> m.replyRate == 0.0 && m.responseTimes == []
    ensures |m.responseTimes| <= m.totalReplies
  {
    var sent := |rows|;
    var replies := TotalReplies(rows);
    Metrics(sent, replies, ReplyRate(sent, replies), ResponseTimes(rows))
  }

  /** The metrics over a table count its rows and its answered rows, whatever order
      `get_all_interactions` puts them in. */
  lemma MetricsOfTable(t: MessageTable)
    ensures EffectivenessMetrics(AllInteractions(t)).totalSent == |t.rows|
    ensures EffectivenessMetrics(AllInteractions(t)).totalReplies == TotalReplies(t.rows)
  {
    var rows := AllInteractions(t);
    assert |rows| == |multiset(rows)| == |multiset(t.rows)| == |t.rows|;
    CountPermutation(rows, t.rows, HasResponse);
  }

  /** Saving a message adds one to the messages sent and nothing to the replies. */
  lemma SaveCountsAsSent(t: MessageTable, candidateId: string, name: Option<string>, company: Option<string>,
                         message: string, now: nat)
    requires Valid(t)
    ensures var t1 := SaveMessage(t, candidateId, name, company, message, now).0;
      |t1.rows| == |t.rows| + 1 && TotalReplies(t1.rows) == TotalReplies(t.rows)
  {
    var t1 := SaveMessage(t, candidateId, name, company, message, now).0;
    assert t1.rows == t.rows + [t1.rows[|t.rows|]];
    CountAppend(t.rows, [t1.rows[|t.rows|]], HasResponse);
  }

  /** Recording the first reply to an existing message adds one to the replies. */
  lemma FirstReplyCounts(t: MessageTable, k: nat, response: string, status: string, now: nat)
    requires Valid(t) && k < |t.rows| && t.rows[k].response.None?
    ensures TotalReplies(UpdateResponse(t, t.rows[k].id, response, status, now).rows) == TotalReplies(t.rows) + 1
  {
    var t1 := UpdateResponse(t, t.rows[k].id, response, status, now);
    forall i | 0 <= i < |t.rows| && i != k
      ensures t.rows[i] == t1.rows[i]
    {
      assert t.rows[i].id != t.rows[k].id by {
        if i < k {} else {}
      }
    }
    CountChangeOne(t.rows, t1.rows, k, HasResponse);
  }

  /** The preview of `app/main.py`: the message itself up to 100 characters, otherwise its
      first 100 characters and "..."; "N/A" for an empty message. */
  function Preview(message: string): (r: string)
    ensures |r| <= 103
    ensures message == "" ==> r == "N/A"
    ensures 0 < |message| <= 100 ==> r == message
    ensures |message| > 100 ==> |r| == 103 && StartsWith(message, r[..100]) && EndsWith(r, "...")
  {
    if message != "" && |message| > 100 then message[..100] + "..."
    else OrElse(Some(message), "N/A")
  }

  /** The preview of `linkedin-sourcing/app/main.py`: at most 100 characters of the message
      followed by "...", even when nothing was cut; "N/A" for an empty message. */
  function LegacyPreview(message: string): (r: string)
    ensures |r| <= 103
    ensures message == "" ==> r == "N/A"
    ensures message != "" ==> EndsWith(r, "...") && StartsWith(message, r[..|r| - 3]) && |r| == Min(|message|, 100) + 3
  {
    if message != "" then Take(message, 100) + "..." else "N/A"
  }

  function Min(a: int, b: int): int {
    if a <= b then a else b
  }

  /** The two previews agree on long messages; on a short one the older adds "..." that
      the newer leaves off. */
  lemma PreviewsCompared(message: string)
    ensures |message| > 100 ==> LegacyPreview(message) == Preview(message)
    ensures 0 < |message| <= 100 ==> LegacyPreview(message) == Preview(message) + "..."
    ensures message == "" ==> LegacyPreview(message) == Preview(message)
  {
  }

  /** A date cell: the date as `str()` renders it, or "N/A" when NULL. The rendering is a
      parameter. */
  function DateCell(d: Option<nat>, stamp: nat -> string): (r: string)
    ensures d.None? ==> r == "N/A"
    ensures d.Some? ==> r == stamp(d.value)
  {
    match d
    case Some(v) => stamp(v)
    case None => "N/A"
  }

  /** A text cell shows the stored value when it is non-empty, and the default otherwise. */
  predicate Defaulted(cell: string, v: Option<string>, default: string) {
    && (v.Some? && v.value != "" ==> cell == v.value)
    && (v.None? || v.value == "" ==> cell == default)
  }

  /** A date cell shows the rendered date, or "N/A" for NULL. */
  predicate Dated(cell: string, d: Option<nat>, stamp: nat -> string) {
    && (d.Some? ==> cell == stamp(d.value))
    && (d.None? ==> cell == "N/A")
  }

  /** One data row of the export of `app/main.py`: id, candidate id, name, preview, sent
      date, response, response date and status. */
  function ExportRow(row: MessageRow, stamp: nat -> string): (cells: seq<string>)
    ensures |cells| == 8
    ensures cells[0] == NatToString(row.id) && cells[1] == row.candidateId
    ensures Defaulted(cells[2], row.candidateName, "Unknown")
    ensures cells[3] == Preview(row.message)
    ensures Dated(cells[4], row.sentDate, stamp)
    ensures Defaulted(cells[5], row.response, "N/A")
    ensures Dated(cells[6], row.responseDate, stamp)
    ensures Defaulted(cells[7], row.status, "N/A")
  {
    [NatToString(row.id), row.candidateId, OrElse(row.candidateName, "Unknown"),
     Preview(row.message), DateCell(row.sentDate, stamp), OrElse(row.response, "N/A"),
     DateCell(row.responseDate, stamp), OrElse(row.status, "N/A")]
  }

  /** One data row of the export of `linkedin-sourcing/app/main.py`, which also has the
      current company after the name. */
  function LegacyExportRow(row: MessageRow, stamp: nat -> string): (cells: seq<string>)
    ensures |cells| == 9
    ensures cells[0] == NatToString(row.id) && cells[1] == row.candidateId
    ensures Defaulted(cells[2], row.candidateName, "Unknown")
    ensures Defaulted(cells[3], row.currentCompany, "Unknown")
    ensures cells[4] == LegacyPreview(row.message)
    ensures Dated(cells[5], row.sentDate, stamp)
    ensures Defaulted(cells[6], row.response, "N/A")
    ensures Dated(cells[7], row.responseDate, stamp)
    ensures Defaulted(cells[8], row.status, "N/A")
  {
    [NatToString(row.id), row.candidateId, OrElse(row.candidateName, "Unknown"),
     OrElse(row.currentCompany, "Unknown"), LegacyPreview(row.message), DateCell(row.sentDate, stamp),
     OrElse(row.response, "N/A"), DateCell(row.responseDate, stamp), OrElse(row.status, "N/A")]
  }

  /** With a rendering that never gives "", no cell past the candidate id is empty, and a
      default shows exactly when the value is missing, empty, or the default text itself. */
  lemma ExportCellsFilled(row: MessageRow, stamp: nat -> string)
    requires forall d :: stamp(d) != ""
    ensures forall k :: 2 <= k < 8 ==> ExportRow(row, stamp)[k] != ""
    ensures forall k :: 2 <= k < 9 ==> LegacyExportRow(row, stamp)[k] != ""
    ensures ExportRow(row, stamp)[2] == "Unknown" <==> row.candidateName.None? || row.candidateName.value in {"", "Unknown"}
    ensures ExportRow(row, stamp)[5] == "N/A" <==> row.response.None? || row.response.value in {"", "N/A"}
    ensures ExportRow(row, stamp)[7] == "N/A" <==> row.status.None? || row.status.value in {"", "N/A"}
    ensures ExportRow(row, stamp)[4] == "N/A" <==> row.sentDate.None? || stamp(row.sentDate.value) == "N/A"
    ensures LegacyExportRow(row, stamp)[3] == "Unknown" <==>
      row.currentCompany.None? || row.currentCompany.value in {"", "Unknown"}
  {
  }

  /** The older export row is the newer one with the company inserted after the name and the
      older preview in place of the newer. */
  lemma ExportRowsCompared(row: MessageRow, stamp: nat -> string)
    ensures var a := ExportRow(row, stamp);
      var b := LegacyExportRow(row, stamp);
      && b[..3] == a[..3] && b[5..] == a[4..]
      && b[3] == OrElse(row.currentCompany, "Unknown") && b[4] == LegacyPreview(row.message)
  {
  }
}

=== FILE: search.dfy ===
/** The card-level logic of the current search node: the boolean query it sends, and for each
    of the first three result cards the headline, location, company and experience it reads,
    the four filters it checks and the profile it emits. A card is the list of its `div`
    fragments, its profile link and its full text; the browser session and the HTML parsing
    that produce cards are not part of this model. */
module Search {
  import opened Common
  import opened Strings

  /** One `div` of a card: its class attribute (the classes joined by spaces) and its text. */
  datatype Fragment = Fragment(classes: string, text: string)

  /** One search result card. */
  datatype Card = Card(
    nameText: Option<string>,  // text of the name span inside the `/in/` link, if present
    href: Option<string>,      // href of the first `/in/` link, if present
    divs: seq<Fragment>,       // the card's divs, in document order
    text: string)              // the card's whole text

  /** The search request. */
  datatype SearchConfig = SearchConfig(keywords: seq<string>, location: string, company: string, minExp: int)

  /** The request with every field at the default the API gives it. */
  const DefaultConfig := SearchConfig(["AI Engineer"], "", "", 0)

  /** One emitted profile. */
  datatype Profile = Profile(
    id: string,
    name: string,
    skills: seq<string>,
    experienceYears: int,
    location: string,
    currentCompany: string)

  /** Only the first three cards are read. */
  const MaxCards: nat := 3

  /** The keywords joined into one phrase. */
  function BaseKeywords(cfg: SearchConfig): string {
    Join(cfg.keywords, " ")
  }

  /** A location or company filter as compared: stripped and lower-cased. */
  function NormalizedFilter(s: string): string {
    Lower(Strip(s))
  }

  // ---------------------------------------------------------------------------
  // The boolean query

  predicate LocationActive(cfg: SearchConfig) {
    NormalizedFilter(cfg.location) != ""
  }

  predicate CompanyActive(cfg: SearchConfig) {
    NormalizedFilter(cfg.company) != ""
  }

  function Quoted(s: string): string {
    "\"" + s + "\""
  }

  /** `("N years experience" OR "N+ years")` for a positive minimum. */
  function ExperienceClause(minExp: nat): string {
    "(" + Quoted(NatToString(minExp) + " years experience") + " OR " + Quoted(NatToString(minExp) + "+ years") + ")"
  }

  /** A clause joined to the query with `AND`. */
  function AndClause(s: string): (c: string)
    ensures StartsWith(c, "AND ")
  {
    "AND " + s
  }

  /** The clauses of the query: the quoted phrase, then one `AND` clause per active filter,
      location before company before experience. The location and company clauses quote the
      filters as the caller wrote them, not their normalized form. */
  function QueryParts(cfg: SearchConfig): (parts: seq<string>)
    ensures |parts| == 1 + (if LocationActive(cfg) then 1 else 0) + (if CompanyActive(cfg) then 1 else 0)
                         + (if cfg.minExp > 0 then 1 else 0)
    ensures parts[0] == Quoted(BaseKeywords(cfg))
    ensures AllJoinedByAnd(parts)
    ensures LocationActive(cfg) ==> parts[1] == AndClause(Quoted(cfg.location))
    ensures CompanyActive(cfg) ==> parts[if LocationActive(cfg) then 2 else 1] == AndClause(Quoted(cfg.company))
    ensures cfg.minExp > 0 ==> parts[|parts| - 1] == AndClause(ExperienceClause(cfg.minExp))
  {
    assert AllJoinedByAnd([Quoted(BaseKeywords(cfg))]);
    var withLocation := AppendIf([Quoted(BaseKeywords(cfg))], LocationActive(cfg), AndClause(Quoted(cfg.location)));
    var withCompany := AppendIf(withLocation, CompanyActive(cfg), AndClause(Quoted(cfg.company)));
    if cfg.minExp > 0 then AppendIf(withCompany, true, AndClause(ExperienceClause(cfg.minExp)))
    else withCompany
  }

  /** Every clause after the first starts with `AND `. */
  predicate AllJoinedByAnd(parts: seq<string>) {
    forall k :: 1 <= k < |parts| ==> StartsWith(parts[k], "AND ")
  }

  /** `parts`, followed by `clause` when `active`. */
  function AppendIf(parts: seq<string>, active: bool, clause: string): (r: seq<string>)
    ensures AllJoinedByAnd(parts) && StartsWith(clause, "AND ") ==> AllJoinedByAnd(r)
    ensures |r| == |parts| + (if active then 1 else 0)
    ensures forall k :: 0 <= k < |parts| ==> r[k] == parts[k]
    ensures active ==> r[|parts|] == clause
  {
    if active then parts + [clause] else parts
  }

  /** The query text: its clauses joined by spaces. */
  function BooleanQuery(cfg: SearchConfig): (q: string)
    ensures StartsWith(q, Quoted(BaseKeywords(cfg)))
  {
    JoinStartsWithFirst(QueryParts(cfg), " ");
    Join(QueryParts(cfg), " ")
  }

  lemma JoinStartsWithFirst(parts: seq<string>, sep: string)
    requires |parts| >= 1
    ensures StartsWith(Join(parts, sep), parts[0])
  {
    if |parts| > 1 {
      var j := Join(parts, sep);
      assert j == parts[0] + (sep + Join(parts[1..], sep));
      assert j[..|parts[0]|] == parts[0];
    }
  }

  /** With no filters and no minimum, the query is the quoted phrase alone. */
  lemma QueryWithoutFilters(cfg: SearchConfig)
    requires NormalizedFilter(cfg.location) == "" && NormalizedFilter(cfg.company) == "" && cfg.minExp <= 0
    ensures BooleanQuery(cfg) == Quoted(BaseKeywords(cfg))
  {
    assert |QueryParts(cfg)| == 1;
  }

  // ---------------------------------------------------------------------------
  // Headline and location

  /** The class test used to collect a card's `t-14` divs. */
  predicate IsT14(f: Fragment) {
    Contains(f.classes, "t-14") && (Contains(f.classes, "t-black") || Contains(f.classes, "t-normal"))
  }

  /** A `t-14` div styled both `t-black` and `t-normal`: a headline. */
  predicate IsHeadlineDiv(f: Fragment) {
    IsT14(f) && Contains(f.classes, "t-black") && Contains(f.classes, "t-normal")
  }

  /** A `t-14` div styled `t-normal` but not `t-black`: a location. */
  predicate IsLocationDiv(f: Fragment) {
    IsT14(f) && Contains(f.classes, "t-normal") && !Contains(f.classes, "t-black")
  }

  /** The position of the first fragment satisfying `p`. */
  function FirstWhere(divs: seq<Fragment>, p: Fragment -> bool): (r: Option<nat>)
    ensures r.Some? ==> r.value < |divs| && p(divs[r.value])
    ensures r.Some? ==> forall j :: 0 <= j < r.value ==> !p(divs[j])
    ensures r.None? ==> forall j :: 0 <= j < |divs| ==> !p(divs[j])
  {
    if |divs| == 0 then None
    else if p(divs[0]) then Some(0)
    else match FirstWhere(divs[1..], p)
      case None => None
      case Some(k) => Some(k + 1)
  }

  /** The lower-cased text of the first headline div, or "" when there is none. */
  function TaggedHeadline(divs: seq<Fragment>): (h: string)
    ensures (forall j :: 0 <= j < |divs| ==> !IsHeadlineDiv(divs[j])) ==> h == ""
    ensures (exists j :: 0 <= j < |divs| && IsHeadlineDiv(divs[j])) ==>
      exists j :: 0 <= j < |divs| && IsHeadlineDiv(divs[j]) && h == Lower(divs[j].text)
        && forall k :: 0 <= k < j ==> !IsHeadlineDiv(divs[k])
  {
    match FirstWhere(divs, IsHeadlineDiv)
    case Some(k) => Lower(divs[k].text)
    case None => ""
  }

  /** The headline taken from the card's text when no headline div has text: the stripped
      text before the first middle dot, or else the first 100 characters. */
  function FallbackHeadline(text: string): (h: string)
    ensures Contains(Lower(text), "·") ==> !Contains(h, "·") && Contains(Lower(text), h)
    ensures Contains(Lower(text), "·") ==>
      exists i :: 0 <= i < |text| && Lower(text)[i] == '·' && '·' !in Lower(text)[..i]
        && h == Strip(Lower(text)[..i])
    ensures !Contains(Lower(text), "·") ==>
      StartsWith(Lower(text), h) && |h| == (if |text| <= 100 then |text| else 100)
  {
    var t := Lower(text);
    if Contains(t, "·") then
      var before := SplitFirst(t, "·");
      var h := Strip(before);
      assert Contains(t, before) by { assert OccursAt(t, before, 0); }
      ContainsTransitive(t, before, h);
      NotContainedInSlice(before, "·", 0, |before|);
      assert before[0..|before|] == before;
      StrippedKeepsAbsence(before, "·");
      FirstDot(t, before);
      h
    else
      Take(t, 100)
  }

  /** The text before the first `·` ends right at a `·` and holds none. */
  lemma FirstDot(t: string, before: string)
    requires Contains(t, "·") && StartsWith(t, before) && !Contains(before, "·") && OccursAt(t, "·", |before|)
    ensures exists i :: 0 <= i < |t| && t[i] == '·' && '·' !in t[..i] && before == t[..i]
  {
    var i := |before|;
    assert t[i] == t[i..i + 1][0];
    ContainsChar(before, '·');
    assert t[..i] == before;
  }

  /** A string without `sep` gives a stripped string without `sep`. */
  lemma StrippedKeepsAbsence(s: string, sep: string)
    requires !Contains(s, sep)
    ensures !Contains(Strip(s), sep)
  {
    if Contains(Strip(s), sep) {
      ContainsTransitive(s, Strip(s), sep);
    }
  }

  /** The card's headline: the tagged one when it has text, the fallback otherwise. */
  function Headline(card: Card): (h: string)
    ensures TaggedHeadline(card.divs) != "" ==> h == TaggedHeadline(card.divs)
    ensures TaggedHeadline(card.divs) == "" ==> h == FallbackHeadline(card.text)
  {
    var tagged := TaggedHeadline(card.divs);
    if tagged != "" then tagged else FallbackHeadline(card.text)
  }

  /** The lower-cased text of the first location div, or "N/A". */
  function ScrapedLocation(card: Card): (loc: string)
    ensures (forall j :: 0 <= j < |card.divs| ==> !IsLocationDiv(card.divs[j])) ==> loc == "N/A"
    ensures (exists j :: 0 <= j < |card.divs| && IsLocationDiv(card.divs[j])) ==>
      exists j :: 0 <= j < |card.divs| && IsLocationDiv(card.divs[j]) && loc == Lower(card.divs[j].text)
        && forall k :: 0 <= k < j ==> !IsLocationDiv(card.divs[k])
  {
    match FirstWhere(card.divs, IsLocationDiv)
    case Some(k) => Lower(card.divs[k].text)
    case None => "N/A"
  }

  // ---------------------------------------------------------------------------
  // Company

  /** The company text inside a headline, before cleaning: after the last `" at "` (cut at
      `" |"` and `" ·"`), else after the last `" | "` (cut at `" ·"`), else after the last
      `" · "`, stripped; "N/A" when the headline has none of the three delimiters. */
  function CompanySegment(h: string): (seg: string)
    ensures !Contains(h, " at ") && !Contains(h, " | ") && !Contains(h, " · ") ==> seg == "N/A"
    ensures Contains(h, " at ") || Contains(h, " | ") || Contains(h, " · ") ==>
      Contains(h, seg) && (|seg| > 0 ==> !IsSpace(seg[0]) && !IsSpace(seg[|seg| - 1]))
    ensures Contains(h, " at ") ==> seg == AfterAt(h)
    ensures !Contains(h, " at ") && Contains(h, " | ") ==> seg == AfterPipe(h)
    ensures !Contains(h, " at ") && !Contains(h, " | ") && Contains(h, " · ") ==> seg == AfterDot(h)
  {
    if Contains(h, " at ") then AfterAt(h)
    else if Contains(h, " | ") then AfterPipe(h)
    else if Contains(h, " · ") then AfterDot(h)
    else "N/A"
  }

  /** The text after the last `" at "`, cut before `" |"` and `" ·"`, stripped. */
  function AfterAt(h: string): (seg: string)
    requires Contains(h, " at ")
    ensures Contains(h, seg) && (|seg| > 0 ==> !IsSpace(seg[0]) && !IsSpace(seg[|seg| - 1]))
    ensures !Contains(seg, " at ") && !Contains(seg, " |") && !Contains(seg, " ·")
    ensures exists k ::
      && 0 <= k <= |h| - 4 && OccursAt(h, " at ", k) && !Contains(h[k + 4..], " at ")
      && LastCut(h, " at ") == Some(k)
      && exists c :: CutBefore(h[k + 4..], c, " |", " ·") && seg == Strip(c)
  {
    var a := SplitLast(h, " at ");
    var b := SplitFirst(a, " |");
    var c := SplitFirst(b, " ·");
    CutPipeThenDot(a, b, c);
    TailAfter(h, " at ", a);
    PrefixFacts(a, b, " at ");
    PrefixFacts(b, c, " at ");
    PrefixFacts(b, c, " |");
    SuffixContained(h, a);
    PrefixContained(a, b);
    PrefixContained(b, c);
    ContainsTransitive(h, a, b);
    ContainsTransitive(h, b, c);
    StripFacts3(c, " at ", " |", " ·");
    ContainsTransitive(h, c, Strip(c));
    Strip(c)
  }

  /** The text after the last `" | "`, cut before `" ·"`, stripped. */
  function AfterPipe(h: string): (seg: string)
    requires Contains(h, " | ")
    ensures Contains(h, seg) && (|seg| > 0 ==> !IsSpace(seg[0]) && !IsSpace(seg[|seg| - 1]))
    ensures !Contains(seg, " | ") && !Contains(seg, " ·")
    ensures exists k ::
      && 0 <= k <= |h| - 3 && OccursAt(h, " | ", k) && !Contains(h[k + 3..], " | ")
      && LastCut(h, " | ") == Some(k)
      && exists c :: CutBefore(h[k + 3..], c, " ·", " ·") && seg == Strip(c)
  {
    var a := SplitLast(h, " | ");
    var c := SplitFirst(a, " ·");
    TailAfter(h, " | ", a);
    PrefixFacts(a, c, " | ");
    SuffixContained(h, a);
    PrefixContained(a, c);
    ContainsTransitive(h, a, c);
    StripFacts3(c, " | ", " ·", " ·");
    ContainsTransitive(h, c, Strip(c));
    Strip(c)
  }

  /** The text after the last `" · "`, stripped. */
  function AfterDot(h: string): (seg: string)
    requires Contains(h, " · ")
    ensures Contains(h, seg) && (|seg| > 0 ==> !IsSpace(seg[0]) && !IsSpace(seg[|seg| - 1]))
    ensures !Contains(seg, " · ")
    ensures exists k ::
      && 0 <= k <= |h| - 3 && OccursAt(h, " · ", k) && !Contains(h[k + 3..], " · ")
      && LastCut(h, " · ") == Some(k)
      && seg == Strip(h[k + 3..])
  {
    var a := SplitLast(h, " · ");
    TailAfter(h, " · ", a);
    SuffixContained(h, a);
    StripFacts3(a, " · ", " · ", " · ");
    ContainsTransitive(h, a, Strip(a));
    Strip(a)
  }

  /** The last piece of a split follows an occurrence of the separator and holds none. */
  lemma TailAfter(h: string, sep: string, a: string)
    requires |sep| > 0 && Contains(h, sep) && |a| + |sep| <= |h| && OccursAt(h, sep, |h| - |a| - |sep|)
    requires EndsWith(h, a) && !Contains(a, sep)
    requires LastCut(h, sep).Some? && LastCut(h, sep).value == |h| - |a| - |sep|
    ensures exists k: nat ::
      && k <= |h| - |sep| && OccursAt(h, sep, k) && h[k + |sep|..] == a
      && LastCut(h, sep) == Some(k)
  {
    var k: nat := LastCut(h, sep).value;
    assert h[k + |sep|..] == a;
    assert LastCut(h, sep) == Some(k);
  }

  /** Cutting at `" |"` and then at `" ·"` cuts before the first of either: a `" ·"` cannot
      straddle the `" |"` the first cut stops at. */
  lemma CutPipeThenDot(s: string, b: string, c: string)
    requires CutBefore(s, b, " |", " |") && CutBefore(b, c, " ·", " ·")
    ensures CutBefore(s, c, " |", " ·")
  {
    assert s[..|b|] == b && b[..|c|] == c;
    assert s[..|c|] == c;
    forall j | 0 <= j < |c|
      ensures !OccursAt(s, " ·", j)
    {
      if j + 2 <= |b| {
        assert !OccursAt(b, " ·", j);
        assert s[j..j + 2] == b[j..j + 2];
      } else if |b| < |s| {
        assert s[|b|] == s[|b|..|b| + 2][0] == ' ';
        assert j + 1 == |b|;
        if j + 2 <= |s| {
          assert s[j..j + 2][1] == s[|b|];
        }
      }
    }
    if |c| < |b| {
      assert b[|c|..|c| + 2] == s[|c|..|c| + 2];
    }
  }

  lemma PrefixFacts(a: string, b: string, sep: string)
    requires StartsWith(a, b) && !Contains(a, sep)
    ensures !Contains(b, sep)
  {
    NotContainedInSlice(a, sep, 0, |b|);
    assert a[0..|b|] == b;
  }

  lemma PrefixContained(a: string, b: string)
    requires StartsWith(a, b)
    ensures Contains(a, b)
  {
    assert OccursAt(a, b, 0);
  }

  lemma SuffixContained(a: string, b: string)
    requires EndsWith(a, b)
    ensures Contains(a, b)
  {
    assert OccursAt(a, b, |a| - |b|);
  }

  lemma StripFacts3(s: string, x: string, y: string, z: string)
    requires !Contains(s, x) && !Contains(s, y) && !Contains(s, z)
    ensures !Contains(Strip(s), x) && !Contains(Strip(s), y) && !Contains(Strip(s), z)
  {
    StrippedKeepsAbsence(s, x);
    StrippedKeepsAbsence(s, y);
    StrippedKeepsAbsence(s, z);
  }

  /** The scraped company: the segment lower-cased with every comma removed. */
  function ScrapedCompany(h: string): (company: string)
    ensures ',' !in company
    ensures !Contains(h, " at ") && !Contains(h, " | ") && !Contains(h, " · ") ==> company == "n/a"
    ensures |company| <= |CompanySegment(h)|
    ensures ',' !in CompanySegment(h) ==> company == Lower(CompanySegment(h))
    ensures company == RemoveChar(Lower(CompanySegment(h)), ',')
  {
    var seg := CompanySegment(h);
    NoCompanyCleaned();
    CommaFreeKept(seg);
    RemoveChar(Lower(seg), ',')
  }

  lemma CommaFreeKept(seg: string)
    ensures ',' !in seg ==> RemoveChar(Lower(seg), ',') == Lower(seg)
  {
    LowerKeepsNonLetter(seg, ',');
    if ',' !in seg {
      RemoveCharAbsent(Lower(seg), ',');
    }
  }

  lemma NoCompanyCleaned()
    ensures RemoveChar(Lower("N/A"), ',') == "n/a"
  {
    assert Lower("N/A") == "n/a";
    assert "n/a"[1..] == "/a" && "/a"[1..] == "a" && "a"[1..] == "";
  }

  // ---------------------------------------------------------------------------
  // Experience

  /** The experience assumed before any card is read. */
  function InitialExperience(minExp: int): (years: int)
    ensures years >= minExp && years >= 1
    ensures minExp <= 0 ==> years == 3
    ensures minExp > 0 ==> years == minExp
  {
    if minExp > 0 then minExp else 3
  }

  /** The headline hints at experience above a positive minimum. */
  predicate SeniorityHint(minExp: int, h: string) {
    minExp > 0 &&
    (Contains(h, "senior") || Contains(h, "lead")
     || Contains(h, NatToString(minExp) + "+") || Contains(h, NatToString(minExp) + " years"))
  }

  /** The shared experience figure after reading one headline: raised to `minExp + 1` when
      the headline hints at seniority, never lowered. */
  function BumpExperience(years: int, minExp: int, h: string): (r: int)
    ensures r >= years
    ensures r == years || r == minExp + 1
    ensures SeniorityHint(minExp, h) ==> r >= minExp + 1
    ensures !SeniorityHint(minExp, h) ==> r == years
  {
    if SeniorityHint(minExp, h) && years < minExp + 1 then minExp + 1 else years
  }

  // ---------------------------------------------------------------------------
  // Filters, identity and the per-card step

  /** The lower-cased keyword phrase occurs in the headline. */
  predicate KeywordMatch(cfg: SearchConfig, h: string) {
    Contains(h, Lower(BaseKeywords(cfg)))
  }

  /** An empty normalized filter accepts anything; otherwise it must occur in the value. */
  predicate FilterMatch(filter: string, scraped: string) {
    var f := NormalizedFilter(filter);
    f == "" || Contains(scraped, f)
  }

  /** The keyword, location and company tests of one card. */
  predicate CardMatches(cfg: SearchConfig, card: Card) {
    var h := Headline(card);
    KeywordMatch(cfg, h) && FilterMatch(cfg.location, ScrapedLocation(card)) && FilterMatch(cfg.company, ScrapedCompany(h))
  }

  /** `url.split('/in/')[-1].split('/')[0]`: the path segment after the last `/in/` the split
      consumes, up to the next `/` or the end of the URL. */
  function IdSegment(url: string): (id: string)
    requires Contains(url, "/in/")
    ensures '/' !in id
    ensures exists k :: (4 <= k <= |url| && OccursAt(url, "/in/", k - 4) && !Contains(url[k..], "/in/")
      && LastCut(url, "/in/") == Some(k - 4)
      && OccursAt(url, id, k) && (k + |id| == |url| || url[k + |id|] == '/'))
  {
    var tail := SplitLast(url, "/in/");
    var id := SplitFirst(tail, "/");
    ContainsChar(id, '/');
    IdLocated(url, tail, id);
    id
  }

  /** The profile id: the segment after the last `/in/` the split consumes, or `candidate_<i+1>`
      when the link is missing or has no `/in/`. */
  function ProfileId(href: Option<string>, i: nat): (id: string)
    ensures '/' !in id
    ensures Contains(href.GetOr(""), "/in/") ==> id == IdSegment(href.GetOr(""))
    ensures !Contains(href.GetOr(""), "/in/") ==> id == "candidate_" + NatToString(i + 1)
  {
    var url := href.GetOr("");
    if Contains(url, "/in/") then
      IdSegment(url)
    else
      var id := "candidate_" + NatToString(i + 1);
      assert forall c :: c in id ==> c == '_' || 'a' <= c <= 'z' || '0' <= c <= '9' by {
        forall c | c in id
          ensures c == '_' || 'a' <= c <= 'z' || '0' <= c <= '9'
        {
          var j :| 0 <= j < |id| && id[j] == c;
          if j >= 10 {
            assert id[j] == NatToString(i + 1)[j - 10];
          }
        }
      }
      id
  }

  lemma IdLocated(url: string, tail: string, id: string)
    requires Contains(url, "/in/")
    requires EndsWith(url, tail) && |tail| + 4 <= |url| && OccursAt(url, "/in/", |url| - |tail| - 4)
    requires !Contains(tail, "/in/")
    requires LastCut(url, "/in/").Some? && LastCut(url, "/in/").value == |url| - |tail| - 4
    requires StartsWith(tail, id) && (Contains(tail, "/") ==> OccursAt(tail, "/", |id|))
    requires !Contains(tail, "/") ==> id == tail
    ensures exists k :: (4 <= k <= |url| && OccursAt(url, "/in/", k - 4) && !Contains(url[k..], "/in/")
        && LastCut(url, "/in/") == Some(k - 4)
        && OccursAt(url, id, k) && (k + |id| == |url| || url[k + |id|] == '/'))
  {
    var k := |url| - |tail|;
    assert url[k..] == tail;
    assert url[k..k + |id|] == tail[..|id|];
    if Contains(tail, "/") {
      assert url[k + |id|] == tail[|id|] == tail[|id|..|id| + 1][0];
    }
    assert OccursAt(url, id, k);
  }

  /** In `"/in/in/bob"` the split takes the `/in/` at 0, and the one at 3 overlaps it, so the
      id is `"in"` and not `"bob"`. */
  lemma IdSkipsOverlap()
    ensures LastCut("/in/in/bob", "/in/") == Some(0)
    ensures IdSegment("/in/in/bob") == "in"
  {
    OverlapTail();
    OverlapHead();
  }

  lemma OverlapTail()
    ensures LastCut("/in/in/bob", "/in/") == Some(0)
    ensures SplitLast("/in/in/bob", "/in/") == "in/bob"
  {
    var u := "/in/in/bob";
    var t := "in/bob";
    assert u[0..4] == "/in/";
    assert u[4..] == t;
    assert FindFrom(u, "/in/", 0) == Some(0);
    assert t[0..4][0] == 'i' && t[1..5][0] == 'n' && t[2..6][1] == 'b';
    assert FindFrom(t, "/in/", 0).None?;
    assert LastCut(t, "/in/").None?;
  }

  lemma OverlapHead()
    ensures SplitFirst("in/bob", "/") == "in"
  {
    var t := "in/bob";
    assert t[0..1] == "i" && t[1..2] == "n" && t[2..3] == "/";
  }
  /** The displayed name: the stripped link text, or `Candidate <i+1>`. */
  function CardName(card: Card, i: nat): (name: string)
    ensures card.nameText.None? ==> name == "Candidate " + NatToString(i + 1)
    ensures card.nameText.Some? ==> Contains(card.nameText.value, name)
    ensures card.nameText.Some? ==> StrippedFrom(card.nameText.value, name)
  {
    match card.nameText
    case Some(t) => StripIsStrippedFrom(t); Strip(t)
    case None => "Candidate " + NatToString(i + 1)
  }

  /** What one card contributes, independent of the shared experience figure: whether it
      passes the keyword, location and company tests, whether its headline hints at
      seniority, and the fields of the profile it would yield. */
  datatype CardRead = CardRead(matches: bool, hint: bool, id: string, name: string, location: string, company: string)

  function ReadCard(cfg: SearchConfig, i: nat, card: Card): CardRead {
    var h := Headline(card);
    CardRead(CardMatches(cfg, card), SeniorityHint(cfg.minExp, h), ProfileId(card.href, i), CardName(card, i),
             ScrapedLocation(card), ScrapedCompany(h))
  }

  /** The profile built from a card once it has passed every test. */
  function ProfileOf(cfg: SearchConfig, read: CardRead, years: int): Profile {
    Profile(read.id, read.name, [BaseKeywords(cfg)], years, read.location, read.company)
  }

  /** The result of reading one card: the shared experience figure after it, and the profile
      emitted for it, if any. */
  datatype CardStep = CardStep(experience: int, emitted: Option<Profile>)

  /** One iteration over a card already read, with the shared experience figure `years`. */
  function Step(cfg: SearchConfig, read: CardRead, years: int): (r: CardStep)
    ensures r.experience >= years
    ensures r.experience == years || r.experience == cfg.minExp + 1
    ensures read.hint ==> r.experience >= cfg.minExp + 1
    ensures !read.hint ==> r.experience == years
    ensures r.emitted.Some? <==> read.matches && r.experience >= cfg.minExp
    ensures r.emitted.Some? ==> r.emitted.value == ProfileOf(cfg, read, r.experience)
  {
    var bumped := if read.hint && years < cfg.minExp + 1 then cfg.minExp + 1 else years;
    if read.matches && bumped >= cfg.minExp then CardStep(bumped, Some(ProfileOf(cfg, read, bumped)))
    else CardStep(bumped, None)
  }

  /** Reads card `i` with the shared experience figure `years`. The figure is bumped as
      `BumpExperience` says, and the card is emitted exactly when all four tests hold, the
      experience test comparing the bumped figure with the minimum. */
  function ProcessCard(cfg: SearchConfig, i: nat, card: Card, years: int): (r: CardStep)
    ensures r.experience == BumpExperience(years, cfg.minExp, Headline(card))
    ensures r.emitted.Some? <==> CardMatches(cfg, card) && r.experience >= cfg.minExp
    ensures r.emitted.Some? ==> r.emitted.value == Profile(ProfileId(card.href, i), CardName(card, i),
      [BaseKeywords(cfg)], r.experience, ScrapedLocation(card), ScrapedCompany(Headline(card)))
  {
    Step(cfg, ReadCard(cfg, i, card), years)
  }

  /** The headlines of a list of cards. */
  function Headlines(cards: seq<Card>): (hs: seq<string>)
    ensures |hs| == |cards|
    ensures forall c :: 0 <= c < |cards| ==> hs[c] == Headline(cards[c])
  {
    seq(|cards|, c requires 0 <= c < |cards| => Headline(cards[c]))
  }

  /** The shared experience figure once the first `n` headlines are read: the initial
      figure, bumped by each headline in turn. */
  function FigureAfter(minExp: int, headlines: seq<string>, n: nat): int
    requires n <= |headlines|
  {
    if n == 0 then InitialExperience(minExp)
    else BumpExperience(FigureAfter(minExp, headlines, n - 1), minExp, headlines[n - 1])
  }

  /** The figure stays at its initial value until the first headline hinting at seniority,
      and is `minExp + 1` from that headline on. */
  lemma {:induction false} FigureAfterValue(minExp: int, headlines: seq<string>, n: nat)
    requires n <= |headlines|
    ensures (exists c :: 0 <= c < n && SeniorityHint(minExp, headlines[c])) ==>
      FigureAfter(minExp, headlines, n) == minExp + 1
    ensures (forall c :: 0 <= c < n ==> !SeniorityHint(minExp, headlines[c])) ==>
      FigureAfter(minExp, headlines, n) == InitialExperience(minExp)
  {
    if n > 0 {
      FigureAfterValue(minExp, headlines, n - 1);
      if SeniorityHint(minExp, headlines[n - 1]) {
        assert FigureAfter(minExp, headlines, n - 1) <= minExp + 1;
      } else if exists c :: 0 <= c < n && SeniorityHint(minExp, headlines[c]) {
        var c :| 0 <= c < n && SeniorityHint(minExp, headlines[c]);
        assert c < n - 1;
      }
    }
  }

  /** The same figure over cards already read, using each read's hint. */
  function FigureAfterReads(cfg: SearchConfig, cardReads: seq<CardRead>, n: nat): int
    requires n <= |cardReads|
  {
    if n == 0 then InitialExperience(cfg.minExp)
    else
      var years := FigureAfterReads(cfg, cardReads, n - 1);
      if cardReads[n - 1].hint && years < cfg.minExp + 1 then cfg.minExp + 1 else years
  }

  /** Reading the cards first does not change the figure. */
  lemma {:induction false} FiguresAgree(cfg: SearchConfig, headlines: seq<string>, cardReads: seq<CardRead>, n: nat)
    requires n <= |cardReads| <= |headlines|
    requires forall c :: 0 <= c < n ==> cardReads[c].hint == SeniorityHint(cfg.minExp, headlines[c])
    ensures forall m :: 0 <= m <= n ==> FigureAfterReads(cfg, cardReads, m) == FigureAfter(cfg.minExp, headlines, m)
  {
    if n > 0 {
      FiguresAgree(cfg, headlines, cardReads, n - 1);
      assert FigureAfterReads(cfg, cardReads, n) == FigureAfter(cfg.minExp, headlines, n);
    }
  }

  /** `picked` lists, in increasing order, exactly the positions below `i` whose card matches. */
  ghost predicate Selected(cardReads: seq<CardRead>, i: nat, picked: seq<nat>) {
    && i <= |cardReads|
    && |picked| <= i
    && (forall k :: 0 <= k < |picked| ==> picked[k] < i && cardReads[picked[k]].matches)
    && (forall j, k :: 0 <= j < k < |picked| ==> picked[j] < picked[k])
    && (forall c :: 0 <= c < i && cardReads[c].matches ==> c in picked)
  }

  lemma SelectedEmit(cardReads: seq<CardRead>, i: nat, picked: seq<nat>)
    requires i < |cardReads| && cardReads[i].matches
    requires Selected(cardReads, i, picked)
    ensures Selected(cardReads, i + 1, picked + [i])
  {
    var picked' := picked + [i];
    assert forall c :: c in picked ==> c in picked';
  }

  lemma SelectedSkip(cardReads: seq<CardRead>, i: nat, picked: seq<nat>)
    requires i < |cardReads| && !cardReads[i].matches
    requires Selected(cardReads, i, picked)
    ensures Selected(cardReads, i + 1, picked)
  {
  }

  /** `profiles` are built from the reads at `picked`, the k-th with experience `figures[k]`;
      the figures lie between the initial one and `years` and never decrease. */
  ghost predicate Built(cfg: SearchConfig, cardReads: seq<CardRead>, years: int,
                        profiles: seq<Profile>, picked: seq<nat>, figures: seq<int>)
  {
    && years >= InitialExperience(cfg.minExp)
    && |picked| == |profiles| == |figures|
    && (forall k :: 0 <= k < |picked| ==> picked[k] < |cardReads|)
    && (forall k :: 0 <= k < |profiles| ==> profiles[k] == ProfileOf(cfg, cardReads[picked[k]], figures[k]))
    && (forall k :: 0 <= k < |figures| ==> InitialExperience(cfg.minExp) <= figures[k] <= years)
    && (forall j, k :: 0 <= j < k < |figures| ==> figures[j] <= figures[k])
  }

  lemma BuiltEmit(cfg: SearchConfig, cardReads: seq<CardRead>, years: int, profiles: seq<Profile>,
                  picked: seq<nat>, figures: seq<int>, i: nat, years': int)
    requires i < |cardReads| && years' >= years
    requires Built(cfg, cardReads, years, profiles, picked, figures)
    ensures Built(cfg, cardReads, years', profiles + [ProfileOf(cfg, cardReads[i], years')], picked + [i], figures + [years'])
  {
  }

  lemma BuiltSkip(cfg: SearchConfig, cardReads: seq<CardRead>, years: int, profiles: seq<Profile>,
                  picked: seq<nat>, figures: seq<int>, years': int)
    requires years' >= years
    requires Built(cfg, cardReads, years, profiles, picked, figures)
    ensures Built(cfg, cardReads, years', profiles, picked, figures)
  {
  }

  /** The k-th profile carries the figure reached at its own card. */
  ghost predicate Figured(cfg: SearchConfig, cardReads: seq<CardRead>, profiles: seq<Profile>, picked: seq<nat>) {
    && |picked| == |profiles|
    && (forall k :: 0 <= k < |picked| ==> picked[k] < |cardReads|)
    && (forall k :: 0 <= k < |profiles| ==>
          profiles[k].experienceYears == FigureAfterReads(cfg, cardReads, picked[k] + 1))
  }

  lemma FigureStep(cfg: SearchConfig, cardReads: seq<CardRead>, i: nat)
    requires i < |cardReads|
    ensures Step(cfg, cardReads[i], FigureAfterReads(cfg, cardReads, i)).experience
      == FigureAfterReads(cfg, cardReads, i + 1)
  {
  }

  lemma FiguredEmit(cfg: SearchConfig, cardReads: seq<CardRead>, profiles: seq<Profile>, picked: seq<nat>,
                    i: nat, p: Profile)
    requires i < |cardReads| && p.experienceYears == FigureAfterReads(cfg, cardReads, i + 1)
    requires Figured(cfg, cardReads, profiles, picked)
    ensures Figured(cfg, cardReads, profiles + [p], picked + [i])
  {
  }

  /** Once every card is read, `Selected` and `Built` give what the search promises. */
  lemma CollectDone(cfg: SearchConfig, cardReads: seq<CardRead>, years: int,
                    profiles: seq<Profile>, picked: seq<nat>, figures: seq<int>)
    requires Selected(cardReads, |cardReads|, picked)
    requires Built(cfg, cardReads, years, profiles, picked, figures)
    ensures |picked| == |profiles| <= |cardReads|
    ensures forall k :: 0 <= k < |picked| ==> picked[k] < |cardReads|
    ensures forall j, k :: 0 <= j < k < |picked| ==> picked[j] < picked[k]
    ensures forall k :: 0 <= k < |profiles| ==>
      profiles[k] == ProfileOf(cfg, cardReads[picked[k]], profiles[k].experienceYears)
    ensures forall k :: 0 <= k < |profiles| ==> cardReads[picked[k]].matches
    ensures forall c :: 0 <= c < |cardReads| && cardReads[c].matches ==> c in picked
    ensures forall k :: 0 <= k < |profiles| ==> profiles[k].experienceYears >= InitialExperience(cfg.minExp)
    ensures forall j, k :: 0 <= j < k < |profiles| ==> profiles[j].experienceYears <= profiles[k].experienceYears
  {
  }

  /** The loop of the search over cards already read: one shared experience figure, starting
      at `InitialExperience`, is carried from card to card, and the emitted profiles are kept
      in card order. */
  method Collect(cfg: SearchConfig, cardReads: seq<CardRead>) returns (profiles: seq<Profile>, ghost picked: seq<nat>)
    ensures |picked| == |profiles| <= |cardReads|
    ensures forall k :: 0 <= k < |picked| ==> picked[k] < |cardReads|
    ensures forall j, k :: 0 <= j < k < |picked| ==> picked[j] < picked[k]
    ensures forall k :: 0 <= k < |profiles| ==>
      profiles[k] == ProfileOf(cfg, cardReads[picked[k]], profiles[k].experienceYears)
    ensures forall k :: 0 <= k < |profiles| ==> cardReads[picked[k]].matches
    ensures forall c :: 0 <= c < |cardReads| && cardReads[c].matches ==> c in picked
    ensures forall k :: 0 <= k < |profiles| ==> profiles[k].experienceYears >= InitialExperience(cfg.minExp)
    ensures forall j, k :: 0 <= j < k < |profiles| ==> profiles[j].experienceYears <= profiles[k].experienceYears
    ensures forall k :: 0 <= k < |profiles| ==>
      profiles[k].experienceYears == FigureAfterReads(cfg, cardReads, picked[k] + 1)
  {
    var years := InitialExperience(cfg.minExp);
    profiles := [];
    picked := [];
    ghost var figures: seq<int> := [];
    var i := 0;
    while i < |cardReads|
      invariant Selected(cardReads, i, picked)
      invariant Built(cfg, cardReads, years, profiles, picked, figures)
      invariant years == FigureAfterReads(cfg, cardReads, i)
      invariant Figured(cfg, cardReads, profiles, picked)
    {
      var step := Step(cfg, cardReads[i], years);
      FigureStep(cfg, cardReads, i);
      if step.emitted.Some? {
        FiguredEmit(cfg, cardReads, profiles, picked, i, step.emitted.value);
        SelectedEmit(cardReads, i, picked);
        BuiltEmit(cfg, cardReads, years, profiles, picked, figures, i, step.experience);
        profiles, picked, figures := profiles + [step.emitted.value], picked + [i], figures + [step.experience];
      } else {
        SelectedSkip(cardReads, i, picked);
        BuiltSkip(cfg, cardReads, years, profiles, picked, figures, step.experience);
      }
      years := step.experience;
      i := i + 1;
    }
    CollectDone(cfg, cardReads, years, profiles, picked, figures);
  }

  /** What `Collect` promises about the reads of the first cards, restated about the cards. */
  lemma ReadsToCards(cfg: SearchConfig, cards: seq<Card>, cardReads: seq<CardRead>, profiles: seq<Profile>, picked: seq<nat>)
    requires |cardReads| <= |cards|
    requires forall c :: 0 <= c < |cardReads| ==> cardReads[c] == ReadCard(cfg, c, cards[c])
    requires |picked| == |profiles|
    requires forall k :: 0 <= k < |picked| ==> picked[k] < |cardReads|
    requires forall k :: 0 <= k < |profiles| ==>
      profiles[k] == ProfileOf(cfg, cardReads[picked[k]], profiles[k].experienceYears)
    requires forall k :: 0 <= k < |profiles| ==> cardReads[picked[k]].matches
    requires forall c :: 0 <= c < |cardReads| && cardReads[c].matches ==> c in picked
    ensures forall k :: 0 <= k < |profiles| ==>
      profiles[k] == ProfileOf(cfg, ReadCard(cfg, picked[k], cards[picked[k]]), profiles[k].experienceYears)
    ensures forall k :: 0 <= k < |profiles| ==> CardMatches(cfg, cards[picked[k]])
    ensures forall c :: 0 <= c < |cardReads| && CardMatches(cfg, cards[c]) ==> c in picked
  {
  }

  /** The figures `Collect` reports over the reads are the figures over the cards' headlines. */
  lemma ReadsToFigures(cfg: SearchConfig, cards: seq<Card>, cardReads: seq<CardRead>, profiles: seq<Profile>, picked: seq<nat>)
    requires |cardReads| <= |cards|
    requires forall c :: 0 <= c < |cardReads| ==> cardReads[c] == ReadCard(cfg, c, cards[c])
    requires Figured(cfg, cardReads, profiles, picked)
    ensures forall k :: 0 <= k < |profiles| ==>
      profiles[k].experienceYears == FigureAfter(cfg.minExp, Headlines(cards), picked[k] + 1)
  {
    var hs := Headlines(cards);
    assert forall c :: 0 <= c < |cardReads| ==> cardReads[c].hint == SeniorityHint(cfg.minExp, hs[c]);
    FiguresAgree(cfg, hs, cardReads, |cardReads|);
  }

  /** The first `MaxCards` cards, each read on its own. */
  function ReadFirstCards(cfg: SearchConfig, cards: seq<Card>): (rs: seq<CardRead>)
    ensures |rs| <= |cards| && |rs| <= MaxCards
    ensures |rs| == |cards| || |rs| == MaxCards
    ensures forall c :: 0 <= c < |rs| ==> rs[c] == ReadCard(cfg, c, cards[c])
  {
    var n := if |cards| < MaxCards then |cards| else MaxCards;
    seq(n, c requires 0 <= c < n => ReadCard(cfg, c, cards[c]))
  }

  /** The search over a list of cards: the first three are read in order with one shared
      experience figure, and the matching ones are emitted in card order. Because the
      figure starts at or above the minimum and only grows, the experience test never fails:
      a card among the first three is emitted exactly when its keyword, location and company
      tests hold. */
  method SearchProfiles(cfg: SearchConfig, cards: seq<Card>) returns (profiles: seq<Profile>, ghost picked: seq<nat>)
    ensures |profiles| <= MaxCards && |profiles| <= |cards|
    ensures |picked| == |profiles|
    ensures forall k :: 0 <= k < |picked| ==> picked[k] < |cards| && picked[k] < MaxCards
    ensures forall j, k :: 0 <= j < k < |picked| ==> picked[j] < picked[k]
    ensures forall k :: 0 <= k < |profiles| ==>
      profiles[k].experienceYears >= InitialExperience(cfg.minExp) >= cfg.minExp
    ensures forall j, k :: 0 <= j < k < |profiles| ==> profiles[j].experienceYears <= profiles[k].experienceYears
    ensures forall k :: 0 <= k < |profiles| ==> profiles[k].skills == [BaseKeywords(cfg)]
    ensures forall k :: 0 <= k < |profiles| ==>
      profiles[k].experienceYears == FigureAfter(cfg.minExp, Headlines(cards), picked[k] + 1)
    ensures forall k :: 0 <= k < |profiles| ==> CardMatches(cfg, cards[picked[k]])
    ensures forall c :: 0 <= c < |cards| && c < MaxCards && CardMatches(cfg, cards[c]) ==> c in picked
    ensures forall k :: 0 <= k < |profiles| ==>
      profiles[k] == ProfileOf(cfg, ReadCard(cfg, picked[k], cards[picked[k]]), profiles[k].experienceYears)
  {
    var cardReads := ReadFirstCards(cfg, cards);
    assert InitialExperience(cfg.minExp) >= cfg.minExp;
    profiles, picked := Collect(cfg, cardReads);
    ReadsToCards(cfg, cards, cardReads, profiles, picked);
    ReadsToFigures(cfg, cards, cardReads, profiles, picked);
  }
}

=== FILE: sorting.dfy ===
/** Ordering by a numeric key, largest first: `ORDER BY column DESC` in the stores and
    `sort((a, b) => b.key - a.key)` in the dashboard. The model uses a stable insertion sort:
    JavaScript's `Array.prototype.sort` is stable, and where SQL leaves ties unordered, the
    stable order is one the database may produce. */
module Sorting {

  /** Keys never increase along `s`. */
  ghost predicate SortedDesc<T>(s: seq<T>, key: T -> real) {
    forall i, j :: 0 <= i < j < |s| ==> key(s[i]) >= key(s[j])
  }

  /** Places `x` before the first element of `s` whose key is not larger than its own. */
  function InsertDesc<T>(x: T, s: seq<T>, key: T -> real): (r: seq<T>)
    requires SortedDesc(s, key)
    ensures SortedDesc(r, key)
    ensures multiset(r) == multiset(s) + multiset{x}
    ensures |r| == |s| + 1
  {
    if |s| == 0 || key(x) >= key(s[0]) then
      [x] + s
    else
      var rest := InsertDesc(x, s[1..], key);
      assert s == [s[0]] + s[1..];
      BoundedAfterInsert(s[0], x, s[1..], rest, key);
      [s[0]] + rest
  }

  lemma BoundedAfterInsert<T>(head: T, x: T, tail: seq<T>, rest: seq<T>, key: T -> real)
    requires key(x) < key(head)
    requires forall j :: 0 <= j < |tail| ==> key(tail[j]) <= key(head)
    requires multiset(rest) == multiset(tail) + multiset{x}
    requires SortedDesc(rest, key)
    ensures SortedDesc([head] + rest, key)
  {
    forall j | 0 <= j < |rest|
      ensures key(rest[j]) <= key(head)
    {
      assert rest[j] in multiset(rest);
      if rest[j] != x {
        assert rest[j] in multiset(tail);
        var k :| 0 <= k < |tail| && tail[k] == rest[j];
      }
    }
  }

  /** The elements of `s`, reordered so that keys never increase. */
  function SortDesc<T>(s: seq<T>, key: T -> real): (r: seq<T>)
    ensures SortedDesc(r, key)
    ensures multiset(r) == multiset(s)
    ensures |r| == |s|
  {
    if |s| == 0 then []
    else
      assert s == [s[0]] + s[1..];
      InsertDesc(s[0], SortDesc(s[1..], key), key)
  }

  /** The elements of `s` whose key is `k`, in their order in `s`. */
  function Ties<T>(s: seq<T>, key: T -> real, k: real): (r: seq<T>)
    ensures |r| <= |s|
    ensures forall i :: 0 <= i < |r| ==> key(r[i]) == k && r[i] in s
  {
    if |s| == 0 then []
    else (if key(s[0]) == k then [s[0]] else []) + Ties(s[1..], key, k)
  }

  /** `Ties` of a sequence with a given first element. */
  lemma TiesCons<T>(x: T, s: seq<T>, key: T -> real, k: real)
    ensures Ties([x] + s, key, k) == (if key(x) == k then [x] else []) + Ties(s, key, k)
  {
    assert ([x] + s)[1..] == s;
  }

  /** An element inserted into a sorted sequence lands before every element with its key. */
  lemma {:induction false} InsertTies<T>(x: T, s: seq<T>, key: T -> real, k: real)
    requires SortedDesc(s, key)
    ensures Ties(InsertDesc(x, s, key), key, k) == (if key(x) == k then [x] else []) + Ties(s, key, k)
    decreases |s|
  {
    if |s| == 0 || key(x) >= key(s[0]) {
      assert InsertDesc(x, s, key) == [x] + s;
      TiesCons(x, s, key, k);
    } else {
      var head, tail := s[0], s[1..];
      assert s == [head] + tail;
      assert SortedDesc(tail, key);
      var rest := InsertDesc(x, tail, key);
      assert InsertDesc(x, s, key) == [head] + rest;
      InsertTies(x, tail, key, k);
      TiesCons(head, rest, key, k);
      TiesCons(head, tail, key, k);
      InsertTiesSwap(x, head, Ties(tail, key, k), key, k);
    }
  }

  /** Two elements with different keys cannot both be ties of `k`, so their order among the
      ties does not matter. */
  lemma InsertTiesSwap<T>(x: T, head: T, t: seq<T>, key: T -> real, k: real)
    requires key(x) < key(head)
    ensures (if key(head) == k then [head] else []) + ((if key(x) == k then [x] else []) + t)
      == (if key(x) == k then [x] else []) + ((if key(head) == k then [head] else []) + t)
  {
  }

  /** The sort is stable: elements with the same key keep their relative order. */
  lemma {:induction false} SortStable<T>(s: seq<T>, key: T -> real, k: real)
    ensures Ties(SortDesc(s, key), key, k) == Ties(s, key, k)
  {
    if |s| > 0 {
      SortStable(s[1..], key, k);
      InsertTies(s[0], SortDesc(s[1..], key), key, k);
    }
  }

  /** The sort is stable for every key at once. */
  lemma SortStableAll<T>(s: seq<T>, key: T -> real)
    ensures forall k :: Ties(SortDesc(s, key), key, k) == Ties(s, key, k)
  {
    forall k {
      SortStable(s, key, k);
    }
  }

  /** A sequence already in order is left as it is. */
  lemma {:induction false} SortSorted<T>(s: seq<T>, key: T -> real)
    ensures SortedDesc(s, key) ==> SortDesc(s, key) == s
  {
    if |s| > 0 && SortedDesc(s, key) {
      assert SortedDesc(s[1..], key);
      SortSorted(s[1..], key);
      assert s == [s[0]] + s[1..];
    }
  }
}

=== FILE: strings.dfy ===
/** The string primitives the Python back end and the JavaScript front end rely on:
    substring search, `str.split(sep)`, `str.split()`, `str.strip()`, `str.lower()`,
    `sep.join(parts)`, slicing and `str(n)` for a natural number.
    Lower-casing and whitespace are modelled for ASCII only. */
module Strings {
  import opened Common

  // ---------------------------------------------------------------------------
  // Substrings

  /** `needle` occurs in `hay` starting at position `i`. */
  predicate OccursAt(hay: string, needle: string, i: nat) {
    i + |needle| <= |hay| && hay[i..i + |needle|] == needle
  }

  /** `needle in hay` in Python, `hay.includes(needle)` in JavaScript. */
  predicate Contains(hay: string, needle: string) {
    exists i :: 0 <= i <= |hay| && OccursAt(hay, needle, i)
  }

  predicate StartsWith(s: string, prefix: string) {
    |prefix| <= |s| && s[..|prefix|] == prefix
  }

  predicate EndsWith(s: string, suffix: string) {
    |suffix| <= |s| && s[|s| - |suffix|..] == suffix
  }

  lemma ContainsEmpty(s: string)
    ensures Contains(s, "")
  {
    assert OccursAt(s, "", 0);
  }

  /** A one-character needle is found exactly when the character is in the string. */
  lemma ContainsChar(s: string, c: char)
    ensures Contains(s, [c]) <==> c in s
  {
    if c in s {
      var i :| 0 <= i < |s| && s[i] == c;
      assert OccursAt(s, [c], i);
    }
    if Contains(s, [c]) {
      var i :| 0 <= i <= |s| && OccursAt(s, [c], i);
      assert s[i] == s[i..i + 1][0];
    }
  }

  /** A string contains itself, and every string containing the prefix `p + q` contains `p`. */
  lemma ContainsSelf(s: string)
    ensures Contains(s, s)
  {
    assert OccursAt(s, s, 0);
  }

  /** The middle of a concatenation occurs in it right after the first part. */
  lemma ContainsMiddle(a: string, b: string, c: string)
    ensures OccursAt(a + b + c, b, |a|) && Contains(a + b + c, b)
  {
    assert (a + b + c)[|a|..|a| + |b|] == b;
    assert OccursAt(a + b + c, b, |a|);
  }

  /** `a + b + c` starts with `a` and ends with `c`. */
  lemma Ends(a: string, b: string, c: string)
    ensures StartsWith(a + b + c, a) && EndsWith(a + b + c, c)
  {
    var s := a + b + c;
    assert s[..|a|] == a;
    assert s[|s| - |c|..] == c;
  }

  /** Strings that agree up to a point and then differ in the next character are different,
      whatever follows. */
  lemma DifferAfter(h: string, x: string, y: string, t: string, u: string, v: string)
    requires |x| > 0 && |y| > 0 && x[0] != y[0]
    ensures h + x + t != h + y + u + v
  {
    assert (h + x + t)[|h|] == x[0];
    assert (h + y + u + v)[|h|] == y[0];
  }

  /** The four parts of `a + b + c + d`: it starts with `a`, ends with `d` and contains `b`
      and `c`. */
  lemma FourParts(a: string, b: string, c: string, d: string)
    ensures StartsWith(a + b + c + d, a) && EndsWith(a + b + c + d, d)
    ensures Contains(a + b + c + d, b) && Contains(a + b + c + d, c)
  {
    var s := a + b + c + d;
    assert s[..|a|] == a;
    assert s[|s| - |d|..] == d;
    assert s == a + b + (c + d);
    ContainsMiddle(a, b, c + d);
    ContainsMiddle(a + b, c, d);
  }

  /** Containment is transitive: a substring of a substring is a substring. */
  lemma ContainsTransitive(a: string, b: string, c: string)
    requires Contains(a, b) && Contains(b, c)
    ensures Contains(a, c)
  {
    var i :| 0 <= i <= |a| && OccursAt(a, b, i);
    var j :| 0 <= j <= |b| && OccursAt(b, c, j);
    assert b == a[i..i + |b|];
    assert forall k :: 0 <= k < |c| ==> c[k] == b[j + k] == a[i + j + k];
    assert a[i + j..i + j + |c|] == c;
    assert OccursAt(a, c, i + j);
  }

  /** A string that does not contain `sep` has no substring containing it. */
  lemma NotContainedInSlice(s: string, sep: string, a: nat, b: nat)
    requires a <= b <= |s|
    requires !Contains(s, sep)
    ensures !Contains(s[a..b], sep)
  {
    if Contains(s[a..b], sep) {
      assert Contains(s, s[a..b]) by { assert OccursAt(s, s[a..b], a); }
      ContainsTransitive(s, s[a..b], sep);
    }
  }

  /** The first occurrence of `needle` at or after position `k`. */
  function FindFrom(hay: string, needle: string, k: nat): (r: Option<nat>)
    decreases |hay| + 1 - k
    ensures r.Some? ==> k <= r.value && OccursAt(hay, needle, r.value)
    ensures r.Some? ==> forall j :: k <= j < r.value ==> !OccursAt(hay, needle, j)
    ensures r.None? ==> forall j :: k <= j ==> !OccursAt(hay, needle, j)
  {
    if k + |needle| > |hay| then None
    else if OccursAt(hay, needle, k) then Some(k)
    else FindFrom(hay, needle, k + 1)
  }

  lemma FindFromZero(hay: string, needle: string)
    ensures FindFrom(hay, needle, 0).Some? <==> Contains(hay, needle)
  {
    match FindFrom(hay, needle, 0)
    case Some(i) =>
    case None =>
  }

  // ---------------------------------------------------------------------------
  // str.split(sep) with a non-empty separator

  /** Python's `s.split(sep)`: occurrences are consumed greedily from the left, so the pieces
      of a self-overlapping separator (`" at at "` with `" at "`) are the ones Python gives. */
  function Split(s: string, sep: string): (r: seq<string>)
    requires |sep| > 0
    decreases |s|
    ensures |r| >= 1
  {
    match FindFrom(s, sep, 0)
    case None => [s]
    case Some(i) => [s[..i]] + Split(s[i + |sep|..], sep)
  }

  /** No piece of a split contains the separator. */
  lemma {:induction false} SplitPiecesFree(s: string, sep: string)
    requires |sep| > 0
    decreases |s|
    ensures forall k :: 0 <= k < |Split(s, sep)| ==> !Contains(Split(s, sep)[k], sep)
  {
    match FindFrom(s, sep, 0)
    case None =>
      FindFromZero(s, sep);
    case Some(i) =>
      var q := Split(s[i + |sep|..], sep);
      SplitPiecesFree(s[i + |sep|..], sep);
      PrefixBeforeFirst(s, sep, i);
      assert Split(s, sep) == [s[..i]] + q;
  }

  lemma PrefixBeforeFirst(s: string, sep: string, i: nat)
    requires |sep| > 0 && i <= |s|
    requires forall j :: 0 <= j < i ==> !OccursAt(s, sep, j)
    ensures !Contains(s[..i], sep)
  {
    if Contains(s[..i], sep) {
      var j :| 0 <= j <= i && OccursAt(s[..i], sep, j);
      assert s[..i][j..j + |sep|] == s[j..j + |sep|];
      assert OccursAt(s, sep, j);
    }
  }

  /** `sep.join(parts)`. */
  function Join(parts: seq<string>, sep: string): string {
    if |parts| == 0 then ""
    else if |parts| == 1 then parts[0]
    else parts[0] + sep + Join(parts[1..], sep)
  }

  /** Joining the pieces of a split with the same separator gives back the string. */
  lemma {:induction false} JoinSplit(s: string, sep: string)
    requires |sep| > 0
    decreases |s|
    ensures Join(Split(s, sep), sep) == s
  {
    match FindFrom(s, sep, 0)
    case None =>
    case Some(i) =>
      var rest := Split(s[i + |sep|..], sep);
      JoinSplit(s[i + |sep|..], sep);
      assert Split(s, sep) == [s[..i]] + rest;
      assert ([s[..i]] + rest)[1..] == rest;
      assert s == s[..i] + sep + s[i + |sep|..];
  }

  /** `r` is `s` cut before the first place where `x` or `y` starts: a prefix of `s` in which
      neither starts, followed by one of them or by the end of `s`. */
  predicate CutBefore(s: string, r: string, x: string, y: string) {
    && StartsWith(s, r)
    && (forall j :: 0 <= j < |r| ==> !OccursAt(s, x, j) && !OccursAt(s, y, j))
    && (|r| == |s| || OccursAt(s, x, |r|) || OccursAt(s, y, |r|))
  }

  /** `s.split(sep)[0]`: the text before the first occurrence of `sep`, or all of `s`. */
  function SplitFirst(s: string, sep: string): (r: string)
    requires |sep| > 0
    ensures CutBefore(s, r, sep, sep)
    ensures StartsWith(s, r)
    ensures !Contains(r, sep)
    ensures !Contains(s, sep) ==> r == s
    ensures Contains(s, sep) ==> OccursAt(s, sep, |r|)
  {
    FindFromZero(s, sep);
    SplitPiecesFree(s, sep);
    Split(s, sep)[0]
  }

  /** Cutting before one separator is cutting before its first occurrence, and that cut is
      unique. */
  lemma CutBeforeUnique(s: string, r1: string, r2: string, x: string, y: string)
    requires |x| > 0 && |y| > 0
    requires CutBefore(s, r1, x, y) && CutBefore(s, r2, x, y)
    ensures r1 == r2
  {
    assert r1 == s[..|r1|] && r2 == s[..|r2|];
  }

  /** `s.split(sep)[-1]`: the text after the last occurrence the split consumes, or all of `s`. */
  function SplitLast(s: string, sep: string): (r: string)
    requires |sep| > 0
    ensures EndsWith(s, r)
    ensures !Contains(r, sep)
    ensures !Contains(s, sep) ==> r == s
    ensures Contains(s, sep) ==> |r| + |sep| <= |s| && OccursAt(s, sep, |s| - |r| - |sep|)
    ensures Contains(s, sep) ==> LastCut(s, sep).Some? && LastCut(s, sep).value == |s| - |r| - |sep|
  {
    var pieces := Split(s, sep);
    LastPiece(s, sep);
    LastPieceEnds(s, sep);
    SplitPiecesFree(s, sep);
    LastCutPiece(s, sep);
    pieces[|pieces| - 1]
  }

  /** Where the last piece of a split starts: the scan takes the first occurrence of `sep`
      and goes on from its end, so an occurrence overlapping one already taken is skipped. In
      `"/in/in/bob"` the scan for `"/in/"` takes position 0 and never position 3. */
  function LastCut(s: string, sep: string): (r: Option<nat>)
    requires |sep| > 0
    decreases |s|
    ensures r.Some? ==> r.value + |sep| <= |s|
  {
    match FindFrom(s, sep, 0)
    case None => None
    case Some(i) =>
      match LastCut(s[i + |sep|..], sep)
      case None => Some(i)
      case Some(j) => Some(i + |sep| + j)
  }

  /** The piece `LastPieceOf` walks to starts right after the last occurrence the scan takes. */
  lemma {:induction false} LastCutPiece(s: string, sep: string)
    requires |sep| > 0
    decreases |s|
    ensures LastCut(s, sep).None? ==> LastPieceOf(s, sep) == s
    ensures LastCut(s, sep).Some? ==> LastPieceOf(s, sep) == s[LastCut(s, sep).value + |sep|..]
  {
    match FindFrom(s, sep, 0)
    case None =>
      SplitWhole(s, sep);
    case Some(i) =>
      var t := s[i + |sep|..];
      SplitAtFirst(s, sep, i, t);
      LastCutPiece(t, sep);
      LastCutStep(s, sep, i, t);
      match LastCut(t, sep)
      case None =>
      case Some(j) =>
        assert t[j + |sep|..] == s[i + |sep| + j + |sep|..];
  }

  /** The scan after the first occurrence `i`: `i` itself unless the rest `t` holds one. */
  lemma LastCutStep(s: string, sep: string, i: nat, t: string)
    requires |sep| > 0 && FindFrom(s, sep, 0) == Some(i) && t == s[i + |sep|..]
    ensures LastCut(t, sep).None? ==> LastCut(s, sep) == Some(i)
    ensures LastCut(t, sep).Some? ==> LastCut(s, sep) == Some(i + |sep| + LastCut(t, sep).value)
  {
    var c := LastCut(t, sep);
    assert LastCut(s, sep) == match c case None => Some(i) case Some(j) => Some(i + |sep| + j);
  }

  /** `r` is a suffix of `s`, and either all of `s` when `sep` is absent or preceded by `sep`. */
  predicate EndPiece(s: string, sep: string, r: string) {
    && EndsWith(s, r)
    && (!Contains(s, sep) ==> r == s)
    && (Contains(s, sep) ==> |r| + |sep| <= |s| && OccursAt(s, sep, |s| - |r| - |sep|))
  }

  /** The piece after the last occurrence a split consumes, found the way `Split` walks. */
  function LastPieceOf(s: string, sep: string): string
    requires |sep| > 0
    decreases |s|
  {
    match FindFrom(s, sep, 0)
    case None => s
    case Some(i) => LastPieceOf(s[i + |sep|..], sep)
  }

  /** That piece ends `s`, right after an occurrence of `sep` when there is one. */
  lemma {:induction false} LastPieceEnds(s: string, sep: string)
    requires |sep| > 0
    decreases |s|
    ensures EndPiece(s, sep, LastPieceOf(s, sep))
  {
    match FindFrom(s, sep, 0)
    case None =>
      assert LastPieceOf(s, sep) == s;
      FindFromZero(s, sep);
      WholeEnds(s, sep);
    case Some(i) =>
      var t := s[i + |sep|..];
      assert LastPieceOf(s, sep) == LastPieceOf(t, sep);
      LastPieceEnds(t, sep);
      LastOfTail(s, sep, i, t, LastPieceOf(t, sep));
  }

  /** Without an occurrence, all of `s` is the end piece. */
  lemma WholeEnds(s: string, sep: string)
    requires !Contains(s, sep)
    ensures EndPiece(s, sep, s)
  {
    assert s[|s| - |s|..] == s;
  }

  /** The last element of `Split` is `LastPieceOf`. */
  lemma {:induction false} LastPiece(s: string, sep: string)
    requires |sep| > 0
    ensures Split(s, sep)[|Split(s, sep)| - 1] == LastPieceOf(s, sep)
  {
    match FindFrom(s, sep, 0)
    case None =>
      SplitWhole(s, sep);
    case Some(i) =>
      var t := s[i + |sep|..];
      LastPiece(t, sep);
      SplitAtFirst(s, sep, i, t);
      LastOfCons(s[..i], Split(t, sep), Split(s, sep));
      assert Split(s, sep)[|Split(s, sep)| - 1] == Split(t, sep)[|Split(t, sep)| - 1];
  }

  /** A split without an occurrence: `s` is the only piece, and the last. */
  lemma SplitWhole(s: string, sep: string)
    requires |sep| > 0 && FindFrom(s, sep, 0).None?
    ensures Split(s, sep) == [s] && LastPieceOf(s, sep) == s
  {
  }

  /** A split whose first occurrence is at `i`: the text before it, then the pieces of the
      rest `t`, whose last piece is the last piece of `s`. */
  lemma SplitAtFirst(s: string, sep: string, i: nat, t: string)
    requires |sep| > 0 && FindFrom(s, sep, 0) == Some(i) && t == s[i + |sep|..]
    ensures Split(s, sep) == [s[..i]] + Split(t, sep)
    ensures LastPieceOf(s, sep) == LastPieceOf(t, sep)
  {
  }

  /** The last element of a non-empty list survives consing. */
  lemma LastOfCons<T>(a: T, q: seq<T>, p: seq<T>)
    requires |q| >= 1 && p == [a] + q
    ensures |p| >= 1 && p[|p| - 1] == q[|q| - 1]
  {
  }

  /** A piece ending the tail after an occurrence at `i` ends `s`. */
  lemma LastOfTail(s: string, sep: string, i: nat, t: string, r: string)
    requires |sep| > 0 && OccursAt(s, sep, i) && t == s[i + |sep|..]
    requires EndPiece(t, sep, r)
    ensures EndPiece(s, sep, r)
  {
    assert s[|s| - |r|..] == t[|t| - |r|..];
    assert EndsWith(s, r);
    assert Contains(s, sep);
    if Contains(t, sep) {
      var m := |t| - |r| - |sep|;
      assert t[m..m + |sep|] == s[i + |sep| + m..i + |sep| + m + |sep|];
      assert OccursAt(s, sep, |s| - |r| - |sep|);
    } else {
      assert r == t;
      assert OccursAt(s, sep, |s| - |r| - |sep|);
    }
  }

  // ---------------------------------------------------------------------------
  // Whitespace, str.strip() and str.split()

  /** The ASCII whitespace Python's `str.strip()` and `str.split()` remove: space, tab, the
      line breaks, vertical tab, form feed and the separators `\x1c` to `\x1f`. */
  predicate IsSpace(c: char) {
    c == ' ' || c == '\t' || c == '\n' || c == '\r' || c == '\U{000B}' || c == '\U{000C}'
    || '\U{001C}' <= c <= '\U{001F}'
  }

  function TrimLeft(s: string): (r: string)
    ensures EndsWith(s, r)
    ensures |r| > 0 ==> !IsSpace(r[0])
    ensures forall i :: 0 <= i < |s| - |r| ==> IsSpace(s[i])
  {
    if |s| > 0 && IsSpace(s[0]) then TrimLeft(s[1..]) else s
  }

  function TrimRight(s: string): (r: string)
    ensures StartsWith(s, r)
    ensures |r| > 0 ==> !IsSpace(r[|r| - 1])
    ensures forall i :: |r| <= i < |s| ==> IsSpace(s[i])
  {
    if |s| > 0 && IsSpace(s[|s| - 1]) then TrimRight(s[..|s| - 1]) else s
  }

  /** Python's `s.strip()`. */
  function Strip(s: string): (r: string)
    ensures Contains(s, r)
    ensures |r| > 0 ==> !IsSpace(r[0]) && !IsSpace(r[|r| - 1])
    ensures (forall i :: 0 <= i < |s| ==> IsSpace(s[i])) <==> r == ""
  {
    StripFacts(s);
    TrimRight(TrimLeft(s))
  }

  lemma StripFacts(s: string)
    ensures var r := TrimRight(TrimLeft(s));
      && Contains(s, r)
      && (|r| > 0 ==> !IsSpace(r[0]) && !IsSpace(r[|r| - 1]))
      && ((forall i :: 0 <= i < |s| ==> IsSpace(s[i])) <==> r == "")
  {
    var t := TrimLeft(s);
    var r := TrimRight(t);
    assert OccursAt(s, r, |s| - |t|) by {
      assert s[|s| - |t|..] == t;
      assert t[..|r|] == r;
    }
  }

  /** Every character of `s` is whitespace. */
  predicate Blank(s: string) {
    forall i :: 0 <= i < |s| ==> IsSpace(s[i])
  }

  /** `r` is `s` without its leading and trailing whitespace: `s` is `r` between two blank
      runs, and `r` neither starts nor ends with whitespace. */
  predicate StrippedFrom(s: string, r: string) {
    && (|r| > 0 ==> !IsSpace(r[0]) && !IsSpace(r[|r| - 1]))
    && exists i :: 0 <= i <= |s| - |r| && OccursAt(s, r, i) && Blank(s[..i]) && Blank(s[i + |r|..])
  }

  /** `Strip` removes exactly the surrounding whitespace. */
  lemma StripIsStrippedFrom(s: string)
    ensures StrippedFrom(s, Strip(s))
  {
    var t := TrimLeft(s);
    var r := TrimRight(t);
    var i := |s| - |t|;
    LeftTrimmed(s, t);
    RightTrimmed(t, r);
    InnerTrimmed(s, t, r, i);
    StrippedAt(s, r, i);
  }

  /** A suffix after whitespace only is the text less a blank prefix. */
  lemma LeftTrimmed(s: string, t: string)
    requires EndsWith(s, t) && forall k :: 0 <= k < |s| - |t| ==> IsSpace(s[k])
    ensures s[|s| - |t|..] == t && Blank(s[..|s| - |t|])
  {
    assert forall k :: 0 <= k < |s| - |t| ==> s[..|s| - |t|][k] == s[k];
  }

  /** A prefix before whitespace only is the text less a blank suffix. */
  lemma RightTrimmed(t: string, r: string)
    requires StartsWith(t, r) && forall k :: |r| <= k < |t| ==> IsSpace(t[k])
    ensures t[..|r|] == r && Blank(t[|r|..])
  {
    assert forall k :: 0 <= k < |t| - |r| ==> t[|r|..][k] == t[|r| + k];
  }

  /** A prefix `r` of the tail `t` of `s` at `i`, followed in `t` by blanks only, occurs in `s`
      at `i` and is followed there by blanks only. */
  lemma InnerTrimmed(s: string, t: string, r: string, i: nat)
    requires i <= |s| && s[i..] == t && |r| <= |t| && t[..|r|] == r && Blank(t[|r|..])
    ensures OccursAt(s, r, i) && Blank(s[i + |r|..])
  {
    assert s[i + |r|..] == t[|r|..];
    assert s[i..i + |r|] == t[..|r|];
  }

  /** `r` found at `i` between two blank runs is `s` stripped. */
  lemma StrippedAt(s: string, r: string, i: nat)
    requires OccursAt(s, r, i) && Blank(s[..i]) && Blank(s[i + |r|..])
    requires |r| > 0 ==> !IsSpace(r[0]) && !IsSpace(r[|r| - 1])
    ensures StrippedFrom(s, r)
  {
  }

  /** Only one string is `s` stripped, so `StrippedFrom` pins `Strip` down. */
  lemma StrippedFromUnique(s: string, r: string)
    requires StrippedFrom(s, r)
    ensures r == Strip(s)
  {
    var i :| 0 <= i <= |s| - |r| && OccursAt(s, r, i) && Blank(s[..i]) && Blank(s[i + |r|..]);
    var a, b := s[..i], s[i + |r|..];
    ThreeParts(s, i, r);
    if |r| == 0 {
      assert s == a + b;
      assert Blank(s);
    } else {
      TrimLeftBlank(a, r + b);
      TrimRightBlank(r, b);
      assert TrimLeft(s) == r + b;
      assert Strip(s) == TrimRight(r + b);
    }
  }

  /** `s` is what comes before an occurrence of `r` at `i`, then `r`, then what follows. */
  lemma ThreeParts(s: string, i: nat, r: string)
    requires OccursAt(s, r, i)
    ensures s == s[..i] + (r + s[i + |r|..])
  {
    assert s[i..] == r + s[i + |r|..];
    assert s == s[..i] + s[i..];
  }

  lemma {:induction false} TrimLeftBlank(a: string, t: string)
    requires Blank(a) && (|t| > 0 ==> !IsSpace(t[0]))
    ensures TrimLeft(a + t) == t
  {
    if |a| > 0 {
      assert (a + t)[1..] == a[1..] + t;
      TrimLeftBlank(a[1..], t);
    } else {
      assert a + t == t;
    }
  }

  lemma {:induction false} TrimRightBlank(t: string, b: string)
    requires Blank(b) && (|t| > 0 ==> !IsSpace(t[|t| - 1]))
    ensures TrimRight(t + b) == t
  {
    if |b| > 0 {
      assert (t + b)[..|t + b| - 1] == t + b[..|b| - 1];
      TrimRightBlank(t, b[..|b| - 1]);
    } else {
      assert t + b == t;
    }
  }

  /** Stripping an already stripped string changes nothing. */
  lemma StripIdempotent(s: string)
    ensures Strip(Strip(s)) == Strip(s)
  {
  }

  /** The maximal leading run of non-space characters. */
  function TakeWord(s: string): (r: string)
    ensures StartsWith(s, r)
    ensures forall i :: 0 <= i < |r| ==> !IsSpace(r[i])
    ensures |s| > 0 && !IsSpace(s[0]) ==> |r| > 0
  {
    if |s| > 0 && !IsSpace(s[0]) then [s[0]] + TakeWord(s[1..]) else ""
  }

  /** A non-empty run of non-space characters. */
  predicate IsWord(w: string) {
    |w| > 0 && forall i :: 0 <= i < |w| ==> !IsSpace(w[i])
  }

  /** Python's `s.split()` with no argument: the maximal runs of non-space characters. */
  function Words(s: string): (r: seq<string>)
    decreases |s|
  {
    var t := TrimLeft(s);
    if |t| == 0 then []
    else
      var w := TakeWord(t);
      [w] + Words(t[|w|..])
  }

  /** Every piece `Words` returns is a word: non-empty and free of whitespace. */
  lemma {:induction false} WordsAreWords(s: string)
    decreases |s|
    ensures forall k :: 0 <= k < |Words(s)| ==> IsWord(Words(s)[k])
  {
    var t := TrimLeft(s);
    if |t| > 0 {
      var w := TakeWord(t);
      var rest := Words(t[|w|..]);
      WordsAreWords(t[|w|..]);
      var r := Words(s);
      assert r == [w] + rest;
      assert IsWord(w);
      forall k | 0 <= k < |r|
        ensures IsWord(r[k])
      {
        if k > 0 {
          assert r[k] == rest[k - 1];
        }
      }
    }
  }

  /** A string of whitespace only has no words. */
  lemma WordsOfBlank(s: string)
    requires forall i :: 0 <= i < |s| ==> IsSpace(s[i])
    ensures Words(s) == []
  {
  }

  /** A non-empty string without whitespace is its own single word. */
  lemma WordsOfWord(w: string)
    requires IsWord(w)
    ensures Words(w) == [w]
  {
    assert TrimLeft(w) == w;
    TakeWholeWord(w);
    assert w[|w|..] == "";
  }

  lemma {:induction false} TakeWholeWord(w: string)
    requires forall i :: 0 <= i < |w| ==> !IsSpace(w[i])
    ensures TakeWord(w) == w
  {
    if |w| > 0 {
      TakeWholeWord(w[1..]);
    }
  }

  // ---------------------------------------------------------------------------
  // Case

  function LowerChar(c: char): char {
    if 'A' <= c <= 'Z' then (c as int + 32) as char else c
  }

  /** `s.lower()` in Python, `s.toLowerCase()` in JavaScript (ASCII letters). */
  function Lower(s: string): (r: string)
    ensures |r| == |s|
    ensures forall i :: 0 <= i < |s| ==> r[i] == LowerChar(s[i])
  {
    seq(|s|, i requires 0 <= i < |s| => LowerChar(s[i]))
  }

  /** Lower-casing twice is lower-casing once. */
  lemma LowerIdempotent(s: string)
    ensures Lower(Lower(s)) == Lower(s)
  {
  }

  // ---------------------------------------------------------------------------
  // Slices and edits

  /** `s[:n]` in Python. */
  function Take(s: string, n: nat): (r: string)
    ensures |r| <= n && StartsWith(s, r)
    ensures |s| <= n ==> r == s
    ensures |s| > n ==> |r| == n
  {
    if |s| <= n then s else s[..n]
  }

  /** `s[n:]` in Python. */
  function Drop(s: string, n: nat): (r: string)
    ensures EndsWith(s, r)
    ensures |r| == if |s| <= n then 0 else |s| - n
  {
    if |s| <= n then "" else s[n..]
  }

  /** `s.replace(c, '')` for a single character `c`. */
  function RemoveChar(s: string, c: char): (r: string)
    ensures |r| <= |s|
    ensures forall x :: x in r <==> x in s && x != c
  {
    if |s| == 0 then ""
    else if s[0] == c then RemoveChar(s[1..], c)
    else [s[0]] + RemoveChar(s[1..], c)
  }

  /** Removing a character distributes over concatenation. */
  lemma {:induction false} RemoveCharAppend(a: string, b: string, c: char)
    ensures RemoveChar(a + b, c) == RemoveChar(a, c) + RemoveChar(b, c)
  {
    if |a| > 0 {
      assert (a + b)[1..] == a[1..] + b;
      RemoveCharAppend(a[1..], b, c);
    } else {
      assert a + b == b;
    }
  }

  /** One character is dropped exactly when it is the one removed. With `RemoveCharAppend`
      this fixes the result for every string. */
  lemma RemoveCharOne(x: char, c: char)
    ensures RemoveChar([x], c) == if x == c then [] else [x]
  {
    assert [x][1..] == [];
  }

  /** A string without the character is left as it is. */
  lemma {:induction false} RemoveCharAbsent(s: string, c: char)
    requires c !in s
    ensures RemoveChar(s, c) == s
  {
    if |s| > 0 {
      RemoveCharAbsent(s[1..], c);
      assert s == [s[0]] + s[1..];
    }
  }

  /** Lower-casing neither adds nor removes a character that is not an ASCII letter. */
  lemma LowerKeepsNonLetter(s: string, c: char)
    requires !('A' <= c <= 'Z') && !('a' <= c <= 'z')
    ensures c in Lower(s) <==> c in s
  {
    if c in s {
      var i :| 0 <= i < |s| && s[i] == c;
      assert Lower(s)[i] == c;
    }
    if c in Lower(s) {
      var i :| 0 <= i < |s| && Lower(s)[i] == c;
      assert s[i] == c;
    }
  }

  // ---------------------------------------------------------------------------
  // Numbers

  function DigitChar(d: nat): (c: char)
    requires d < 10
    ensures '0' <= c <= '9' && c as int - '0' as int == d
  {
    ('0' as int + d) as char
  }

  predicate IsDigits(s: string) {
    forall i :: 0 <= i < |s| ==> '0' <= s[i] <= '9'
  }

  /** `str(n)` for a natural number: its decimal digits. */
  function NatToString(n: nat): (r: string)
    ensures |r| >= 1 && IsDigits(r)
  {
    if n < 10 then [DigitChar(n)] else NatToString(n / 10) + [DigitChar(n % 10)]
  }

  /** The value of a string of decimal digits, an independent reading of `NatToString`. */
  function DigitsValue(s: string): nat
    requires IsDigits(s)
  {
    if |s| == 0 then 0 else DigitsValue(s[..|s| - 1]) * 10 + (s[|s| - 1] as int - '0' as int)
  }

  /** Reading back the decimal text of `n` gives `n`. */
  lemma {:induction false} NatToStringRoundTrip(n: nat)
    ensures DigitsValue(NatToString(n)) == n
  {
    if n >= 10 {
      NatToStringRoundTrip(n / 10);
      var r := NatToString(n);
      assert r[..|r| - 1] == NatToString(n / 10);
      assert r[|r| - 1] == DigitChar(n % 10);
    }
  }
}
